=== FILE: README.md ===
# sso-mail admin core, modelled in Dafny

The sso-mail admin tool manages SSO users (`users`), their webmail mailboxes
(`user_webmail_accounts`) and an audit trail of changes (`user_history`). It is
a set of Next.js API routes over MySQL plus client pages. This project models:

- the employee number (`emp_no`) generator of `POST /api/sso/users`. It takes
  the lexicographically greatest `Z<year>…` number, parses the sequence after
  position 5 with `parseInt`, adds one and pads it to three digits;
- user creation on both user routes, and mailbox creation, with the audit
  event each of them writes: who it is attributed to, which change type, what
  the detail says, and the schema's UNIQUE and FOREIGN KEY refusals;
- the deprecated `PUT /api/users`, which stamps `lock_date` or `delete_date`
  with today when the status becomes 잠금 or 삭제, and clears them otherwise;
- the mailbox listing, which joins the owner and drops the password;
- `GET /api/dashboard`:
  - how the handler reads its seven filters from the request URL;
  - the filtered, newest-first history listing and its count;
  - the monthly, yearly and change-type statistics over the whole log;
  - the derived account type, SSO or 웹메일;
- the client pages' pure logic:
  - the search filters of the SSO and webmail lists;
  - the owner auto-fill of the new-mailbox form;
  - the dashboard's filter form and request URL, with its year, month and
    account-type choices and its two type panels;
  - the trend page's chart and table preparation;
  - the navigation bar's active-link rule.

The database is a `Store` value: the three tables as sequences, plus the next
auto-increment ids. Each route is a pure function from a store and a request
to an outcome. Clock readings are parameters: the local year, today's date
and the insert timestamp. Strings are sequences of characters.

Modules, one per source concern:
- `Wrappers`, `Seqs` and `Strings` hold the generic pieces. `Strings` models
  the JavaScript string primitives the core uses: `includes`, `padStart`,
  `parseInt` and `substring`.
- `History` and `Entities` hold the rows.
- `EmpNo` is the number generator.
- `SsoUsersApi`, `LegacyUsersApi` and `WebmailAccountsApi` model the routes.
- `DashboardStats` and `DashboardApi` model the dashboard route.
- `UrlParams` models the query-string encoding and `URLSearchParams.get`.
- `SsoSearch`, `WebmailSearch`, `WebmailForm`, `DashboardPage`, `TrendChart`
  and `Navbar` model the pages.

## Model

| member | source | states |
|---|---|---|
| Strings.ParseInt | src/app/api/sso/users/route.ts:60 | `parseInt(s, 10)`: leading decimal digits give their value, no leading digit gives NaN (`None`) |
| Strings.PadStart | src/app/api/sso/users/route.ts:65 | `padStart(3, '0')`: the result has at least the target width, its suffix is the input and only zeros are added |
| Strings.NatToStringInjective | src/app/webmail/new/page.tsx:60-69 | distinct ids have distinct decimal texts, so matching the select's value against `id.toString()` finds at most one user |
| EmpNo.YearPrefix | src/app/api/sso/users/route.ts:49-51 | the prefix searched for is `Z` followed by digits whose value is the year |
| EmpNo.CodeRoundTrip | src/app/api/sso/users/route.ts:60-65 | for a four-digit year, reading the sequence back from a generated number (`substring(5)`, `parseInt`) gives the sequence it was built from |
| EmpNo.SequenceTextDigits | src/app/api/sso/users/route.ts:65 | the padded sequence is all digits with the sequence's value, and it is exactly three wide iff the sequence is below 1000 |
| EmpNo.LexMaxIsGreatest | src/app/api/sso/users/route.ts:49 | `ORDER BY emp_no DESC LIMIT 1` picks a number that no other number sorts above |
| EmpNo.LastCodeOfYearSpec | src/app/api/sso/users/route.ts:48-52 | the query finds nothing iff no number has the year's prefix; otherwise it finds the greatest number with that prefix |
| EmpNo.NextSequence | src/app/api/sso/users/route.ts:54-61 | no previous number gives sequence 1; otherwise the sequence is one more than the last one's, or NaN when that does not parse |
| EmpNo.NextEmpNo | src/app/api/sso/users/route.ts:65 | the generated number starts with `Z<year>` |
| EmpNo.NextEmpNoFollowsLast | src/app/api/sso/users/route.ts:54-65 | for a four-digit year the new number's sequence reads back as one past the last number's, as 1 when the year has none, and as NaN when the last one's does not parse |
| EmpNo.FirstCodeOfYear | src/app/api/sso/users/route.ts:54-65 | the first number of a year is `Z<year>001` |
| EmpNo.NextEmpNoExceedsAll | src/app/api/sso/users/route.ts:48-65 | while every number of the year has a three-digit sequence, the new sequence is greater than every existing one |
| EmpNo.NextEmpNoOnePastGreatest | src/app/api/sso/users/route.ts:48-65 | while every number of the year has a three-digit sequence and there is one, the new sequence is exactly one past the greatest existing sequence |
| EmpNo.NextEmpNoFresh | src/app/api/sso/users/route.ts:48-65 | under the same condition the new number is not already taken |
| EmpNo.NextEmpNoAfter999 | src/app/api/sso/users/route.ts:60-65 | after `Z2024999` the generator yields `Z20241000` |
| EmpNo.NextEmpNoRepeatsPast999 | src/app/api/sso/users/route.ts:49-65 | once `Z20241000` exists, `Z2024999` still sorts last, so `Z20241000` is generated again |
| EmpNo.NextEmpNoNotANumber | src/app/api/sso/users/route.ts:60-65 | a last number with no digits after the year makes the sequence NaN and the number `Z2024NaN` |
| History.RankIsChronological | src/app/api/dashboard/route.ts:81 | the sort key of a valid timestamp orders exactly as the timestamps do and is injective |
| History.AccountTypeLabel | src/app/api/dashboard/route.ts:29-32 | the derived account type is 웹메일 iff the change type contains 이메일, and SSO otherwise |
| History.ActorOr | src/app/api/sso/users/route.ts:86 | `requester \|\| 'system'`: a non-empty actor is kept, a missing or empty one becomes `system` |
| History.UserCreatedMarkers | src/app/api/sso/users/route.ts:87 | the user-creation change type counts as a creation, not as an update, delete or mailbox change |
| History.AccountCreatedMarkers | src/app/api/webmail/accounts/route.ts:82-92 | the mailbox-creation change type counts as a creation and as a mailbox change |
| History.SharedAccountCreatedMarkers | src/app/api/webmail/accounts/route.ts:93-104 | so does the shared-mailbox-creation change type |
| Entities.AppendUserKeepsValid | src/lib/database.ts:46-100 | appending a row under the next auto-increment id keeps every table's ids unique and below its counter |
| Entities.AtMostOneUserPerId | src/lib/database.ts:47-48 | with unique primary keys at most one user matches an id |
| SsoUsersApi.CreateUser | src/app/api/sso/users/route.ts:39-97 | among the refusals modelled, creation succeeds iff the generated number is free (`emp_no` is UNIQUE). It adds one user row and one history row and leaves everything else in place |
| SsoUsersApi.CreateUserRecords | src/app/api/sso/users/route.ts:68-90 | the row is registered today under the new number and stores the request's name, organization, department, employee type, vendor, duty, work scope and requester; the event points at it, is attributed to the requester or `system`, and names the user, the number and the department |
| SsoUsersApi.NewRow | src/app/api/sso/users/route.ts:73-76 | the inserted row takes the next id, the new number, every body field as given, 등록 and today's registration date, with no lock or delete date |
| SsoUsersApi.CreateUserKeepsValid | src/app/api/sso/users/route.ts:73-90 | a creation keeps ids and employee numbers unique |
| SsoUsersApi.CreateUserSucceeds | src/app/api/sso/users/route.ts:48-76 | while the year's numbers have three-digit sequences, creation succeeds with a sequence above all existing ones |
| SsoUsersApi.CreateUserStatistics | src/app/api/sso/users/route.ts:82-90 | the dashboard's totals gain one row, one creation and one SSO change |
| LegacyUsersApi.CreateUser | src/app/api/users/route.ts:43-84 | run on the SSO route's store, the deprecated route generates the same number and adds only the user row, with no history row |
| LegacyUsersApi.NewRow | src/app/api/users/route.ts:74-77 | the deprecated insert stores the same body fields and 등록, with no registration, lock or delete date |
| LegacyUsersApi.CreateUserMatchesSsoRoute | src/app/api/users/route.ts:50-77 | on the same store, and assuming its table accepts `account_type`, it succeeds exactly when the SSO route does, with the same number and the same row except for the registration date, and writes no history |
| LegacyUsersApi.StatusDates | src/app/api/users/route.ts:94-101 | a lock date is set iff the status is 잠금 and a delete date iff it is 삭제, both to today |
| LegacyUsersApi.StatusDatesExclusive | src/app/api/users/route.ts:94-101 | the two dates are never set together; 등록 clears both |
| LegacyUsersApi.Apply | src/app/api/users/route.ts:94-108 | an update keeps the id, number and registration date. Every listed column takes the request's value: name, organization, department, employee type, vendor, duty, work scope, requester and status. The lock and delete dates follow the new status |
| LegacyUsersApi.ApplyOverwritesTheRest | src/app/api/users/route.ts:103-108 | the updated row depends on the old row only through its id, number and registration date: every other column is overwritten |
| LegacyUsersApi.UpdateUsers | src/app/api/users/route.ts:103-108 | the rows with the id are updated and every other row is unchanged |
| LegacyUsersApi.UpdateUser | src/app/api/users/route.ts:86-115 | the update touches neither history nor mailboxes |
| LegacyUsersApi.UpdateUserDates | src/app/api/users/route.ts:94-108 | the stored user's dates follow the new status |
| LegacyUsersApi.UpdateUserKeepsValid | src/app/api/users/route.ts:103-108 | an update keeps the store valid and employee numbers unique |
| LegacyUsersApi.UpdateUserIdempotent | src/app/api/users/route.ts:86-115 | repeating the same update on the same day changes nothing more |
| WebmailAccountsApi.LinkedUser | src/app/api/webmail/accounts/route.ts:21-25 | the joined owner is a user whose id is the mailbox's `user_id` |
| WebmailAccountsApi.LinkedUserNone | src/app/api/webmail/accounts/route.ts:21-25 | the join finds no owner iff no user has that id |
| WebmailAccountsApi.SanitizeLosesOnlyPassword | src/app/api/webmail/accounts/route.ts:28-35 | the listed row plus the password gives back the stored row; the password is the only field dropped |
| WebmailAccountsApi.ListAccounts | src/app/api/webmail/accounts/route.ts:18-44 | one sanitized row per mailbox, in order, joined with its owner |
| WebmailAccountsApi.ListAccountsRows | src/app/api/webmail/accounts/route.ts:21-35 | each row has its mailbox's fields, and it has an owner's number and name iff some user has the mailbox's `user_id` |
| WebmailAccountsApi.StoredUserId | src/app/api/webmail/accounts/route.ts:63-66 | an absent, null or blank owner is stored as NULL, and a number or an id's text is stored as that id |
| WebmailAccountsApi.NewRow | src/app/api/webmail/accounts/route.ts:50-75 | the row takes the next id, the stored owner and the request's name, address, password, department and manager; every omitted enumerated field takes its default: 일반, 정상, 승인대기, 사용안함 |
| WebmailAccountsApi.CreateAccount | src/app/api/webmail/accounts/route.ts:46-114 | among the refusals modelled, creation succeeds iff `mail_id` is new and the owner, if any, exists (UNIQUE and FOREIGN KEY). It adds one mailbox row and one history row and keeps the rest |
| WebmailAccountsApi.CreateAccountRecords | src/app/api/webmail/accounts/route.ts:50-109 | the row is stored under the requested owner (NULL for an absent or blank one) with the request's name, address, password, department and manager, and each enumerated field is the given value or its default. The event is attributed to the mail manager or `system`. An owned mailbox's event points at the owner; a shared one's has no user and names the mailbox's name. Both mention the address |
| WebmailAccountsApi.CreateAccountKeepsValid | src/app/api/webmail/accounts/route.ts:71-104 | a creation keeps the store valid |
| WebmailAccountsApi.CreateAccountStatistics | src/app/api/webmail/accounts/route.ts:82-104 | the dashboard's totals gain one row, one creation and one mailbox change |
| DashboardStats.TallyOfBalanced | src/app/api/dashboard/route.ts:131-163 | SSO and mailbox columns add up to the total, and the total is the number of events |
| DashboardStats.MonthlyStatsShape | src/app/api/dashboard/route.ts:131-146 | monthly rows are newest month first. Each row holds exactly its month's counts, balanced and non-zero, and every event's month has a row |
| DashboardStats.YearlyStatsShape | src/app/api/dashboard/route.ts:149-163 | the same for yearly rows, newest year first |
| DashboardStats.MonthlySumsToYearly | src/app/api/dashboard/route.ts:131-163 | the monthly rows of a year sum, column by column, to that year's counts |
| DashboardStats.YearlyRowsAreMonthlySums | src/app/api/dashboard/route.ts:131-163 | every yearly row equals the sum of its year's monthly rows |
| DashboardStats.TypeStatsRow | src/app/api/dashboard/route.ts:166-179 | each change-type row counts exactly the events of its type, at least one, tagged with the derived account type |
| DashboardStats.TypeStatsOrderAndCover | src/app/api/dashboard/route.ts:166-179 | type rows are in non-increasing count order and every change type in the log has a row |
| DashboardStats.TypeCountsSumToLogSize | src/app/api/dashboard/route.ts:166-179 | the type counts sum to the number of events |
| DashboardApi.NumberFilter | src/app/api/dashboard/route.ts:10-11 | `year` and `month`: empty or absent text adds no clause. Text starting with a digit compares as the value of its leading digits; other text compares as 0 |
| DashboardApi.DateFilter | src/app/api/dashboard/route.ts:14-15 | `startDate` and `endDate` add a clause iff the text is non-empty and of the form `YYYY-MM-DD` |
| DashboardApi.Param | src/app/api/dashboard/route.ts:10-16 | the handler's `searchParams.get(name)` is falsy iff the parameter is missing or empty |
| DashboardApi.EmptyTextsNoFilters | src/app/api/dashboard/route.ts:41-78 | seven empty texts decode to no filter at all |
| DashboardApi.ChosenTextsDecode | src/app/api/dashboard/route.ts:10-78 | a decimal year and month and `YYYY-MM-DD` dates decode to exactly those values; the other texts pass through |
| History.ParseDate | src/app/api/dashboard/route.ts:62-70 | a date text is read iff it has the form `DDDD-DD-DD` |
| History.ParseDateText | src/app/dashboard/page.tsx:387-398 | reading back a date written in the date input's `YYYY-MM-DD` form gives the date |
| DashboardApi.NoFiltersMatchEverything | src/app/api/dashboard/route.ts:41-78 | with no parameter every event passes the filters |
| DashboardApi.JoinAddsNoRows | src/app/api/dashboard/route.ts:33-34 | with unique user ids the LEFT JOIN yields one row per event, in order |
| DashboardApi.ListingCount | src/app/api/dashboard/route.ts:87-128 | the count query's number equals the number of listed rows |
| DashboardApi.ListingEvents | src/app/api/dashboard/route.ts:19-81 | the listed events are a permutation of the filtered events, newest first |
| DashboardApi.ListingSound | src/app/api/dashboard/route.ts:19-78 | every listed row is an event of the log that meets every filter, with its derived account type |
| DashboardApi.ListingComplete | src/app/api/dashboard/route.ts:41-78 | every event that meets every filter is listed |
| DashboardApi.ListingNewestFirst | src/app/api/dashboard/route.ts:81 | no listed row is older than a row after it |
| DashboardApi.CountNeverExceedsListing | src/app/api/dashboard/route.ts:87-128 | even with duplicate user ids the count is at most the number of rows |
| DashboardApi.DashboardCountsItsRows | src/app/api/dashboard/route.ts:181-187 | the response's `totalCount` equals the length of its `history` |
| DashboardApi.StatisticsIgnoreFilters | src/app/api/dashboard/route.ts:131-179 | the three statistics are the same whatever filters are given |
| DashboardApi.NoFiltersListEverything | src/app/api/dashboard/route.ts:41-81 | with no filters every event of the log is listed |
| UrlParams.DecodeEncode | src/app/dashboard/page.tsx:80-89 | reading back the encoded parameters gives exactly the non-empty ones, in order |
| UrlParams.LookupNonEmpty | src/app/api/dashboard/route.ts:10-16 | with distinct names, `get(name)` returns the entry's value when it is non-empty and nothing otherwise |
| DashboardPage.HandleFilterChange | src/app/dashboard/page.tsx:113-119 | only the changed filter takes the new value |
| DashboardPage.ResetFilters | src/app/dashboard/page.tsx:128-138 | reset empties all seven filters |
| DashboardPage.RequestUrl | src/app/dashboard/page.tsx:80-89 | the request starts with `/api/dashboard?` |
| DashboardPage.RequestCarriesFilters | src/app/dashboard/page.tsx:80-89 | the route reads back each filter: its value when non-empty, absent when empty |
| DashboardPage.RequestDecodesToFilters | src/app/dashboard/page.tsx:80-89 | the route's decoded filters are the page's filter texts, decoded. Each text arrives unchanged and an empty one arrives as absent |
| DashboardPage.ResetQueriesNothing | src/app/dashboard/page.tsx:128-138 | the reset itself fetches nothing; the next search after a reset makes the route apply no filter |
| DashboardPage.FilterChangeTouchesOneParam | src/app/dashboard/page.tsx:80-119 | changing one filter changes only that parameter of the request |
| DashboardPage.ResetRequestsEverything | src/app/dashboard/page.tsx:128-138 | the reset itself fetches nothing; the next search after a reset requests the bare URL, with no parameter |
| DashboardPage.AccountTypeChoicesMatchPanels | src/app/dashboard/page.tsx:355-357 | of the account-type options, 전체 admits everything, SSO admits exactly the SSO-labelled types and webmail exactly the 웹메일-labelled ones |
| DashboardPage.YearChoicesSpan | src/app/dashboard/page.tsx:72-73 | the year options are the current year and the four before it, newest first |
| DashboardPage.MonthChoicesSpan | src/app/dashboard/page.tsx:74 | the month options are 1 to 12 in order |
| DashboardPage.PanelsSplit | src/app/dashboard/page.tsx:288-302 | the SSO and 웹메일 panels split the labelled type rows and their counts |
| DashboardPage.PanelsPartitionTypeStats | src/app/dashboard/page.tsx:288-302 | on the route's type rows, a row is in the SSO panel iff its type has no 이메일 and in the 웹메일 panel iff it does; the panels' counts sum to the number of events |
| TrendChart.ChartRowsSelect | src/app/test-dashboard/page.tsx:80-85 | the chart's rows are the statistics of the chosen year, a permutation of them, oldest month first |
| TrendChart.TableRowsSelect | src/app/test-dashboard/page.tsx:231-233 | the table's rows are the same rows, newest month first |
| TrendChart.LabelsSeparateMonths | src/app/test-dashboard/page.tsx:87 | within a year, two rows have the same `year-month` label iff they are the same month |
| TrendChart.ChartAligned | src/app/test-dashboard/page.tsx:87-114 | the i-th label and the i-th point of each of the three series all come from the i-th row |
| TrendChart.InitialChart | src/app/test-dashboard/page.tsx:67-70 | a chart is prepared on load iff there are statistics |
| TrendChart.YearChoiceRedraws | src/app/test-dashboard/page.tsx:120-126 | choosing a year redraws the chart for that year |
| TrendChart.YearChoices | src/app/test-dashboard/page.tsx:50-52 | the trend page's year options are the dashboard's five years, current year first, and that year is the one first selected |
| TrendChart.YearOptionsSpan | src/app/test-dashboard/page.tsx:50-51 | the options are the last five years, newest first |
| TrendChart.YearOptionsRedraw | src/app/test-dashboard/page.tsx:120-126 | choosing any of the options redraws the chart for that year |
| TrendChart.NotANumberDrawsNothing | src/app/test-dashboard/page.tsx:120-126 | a value that does not start with a digit (NaN) draws an empty chart |
| TrendChart.TableIsChartReversed | src/app/test-dashboard/page.tsx:80-85 | on the route's statistics the table is the chart's rows in reverse |
| TrendChart.ChartOfRouteStatistics | src/app/test-dashboard/page.tsx:80-87 | on the route's statistics the chart's months strictly increase and its labels are distinct |
| TrendChart.ChartPointsAreMonthCounts | src/app/test-dashboard/page.tsx:80-114 | each charted row is of the chosen year and holds that month's counts of the log |
| TrendChart.ChartCoversYear | src/app/test-dashboard/page.tsx:80-85 | every month with an event in the chosen year is charted |
| SsoSearch.MatchesFieldwise | src/app/sso/page.tsx:84-99 | the filter callback holds iff every criterion holds on its own |
| SsoSearch.SearchSelects | src/app/sso/page.tsx:84-99 | the result holds exactly the loaded users that meet every criterion |
| SsoSearch.SearchKeepsOrder | src/app/sso/page.tsx:84-99 | the result keeps the list's order |
| SsoSearch.FillingCriterionNarrows | src/app/sso/page.tsx:75-99 | filling in an empty criterion only narrows the result |
| SsoSearch.HandleSearchChange | src/app/sso/page.tsx:75-81 | only the edited criterion changes; the list is untouched |
| SsoSearch.HandleSearch | src/app/sso/page.tsx:84-99 | the shown users come from the list and meet the criteria |
| SsoSearch.ResetShowsEverything | src/app/sso/page.tsx:102-113 | reset clears every criterion and shows the whole list again |
| WebmailSearch.MatchesFieldwise | src/app/webmail/page.tsx:83-99 | the filter callback holds iff every criterion holds on its own |
| WebmailSearch.NullNeverMatches | src/app/webmail/page.tsx:89-94 | a NULL department or manager never meets a non-empty criterion |
| WebmailSearch.SearchSelects | src/app/webmail/page.tsx:83-99 | the result holds exactly the loaded mailboxes that meet every criterion |
| Seqs.FilterConcat | src/app/webmail/page.tsx:84-97 | `filter` keeps the list's order: filtering a concatenation concatenates the filtered parts. The webmail search is this `filter` with the page's callback |
| WebmailSearch.FillingCriterionNarrows | src/app/webmail/page.tsx:74-99 | filling in an empty criterion only narrows the result |
| WebmailSearch.HandleSearchChange | src/app/webmail/page.tsx:74-80 | only the edited criterion changes; the list is untouched |
| WebmailSearch.HandleSearch | src/app/webmail/page.tsx:83-99 | the shown mailboxes come from the list and meet the criteria |
| WebmailSearch.ResetShowsEverything | src/app/webmail/page.tsx:102-114 | reset clears every criterion and shows the whole list again |
| WebmailForm.InitialFormDefaults | src/app/webmail/new/page.tsx:21-32 | the empty form starts with no owner and the route's default role, status, approval and OTP values |
| WebmailForm.Set | src/app/webmail/new/page.tsx:72-75 | an ordinary edit sets the named field and no other |
| WebmailForm.FindUser | src/app/webmail/new/page.tsx:61 | the user found has the chosen id's text |
| WebmailForm.FindUserFinds | src/app/webmail/new/page.tsx:61-62 | a user whose id has the chosen text is found |
| WebmailForm.ChoosingOwnerFillsDepartment | src/app/webmail/new/page.tsx:60-69 | choosing an owner sets the owner and copies that user's department; no other field changes |
| WebmailForm.OtherEditsSetOneField | src/app/webmail/new/page.tsx:56-76 | any other edit sets exactly the edited field, including an owner choice that matches no user |
| Navbar.IsActiveRule | src/components/Navbar.tsx:10-15 | a link is active iff it is one of `/`, `/sso`, `/webmail` and the path is the link itself or, except for `/`, lies under it |
| Navbar.AtMostOneLinkActive | src/components/Navbar.tsx:27-39 | the two section links are never both active |
| Navbar.NoPathNothingActive | src/components/Navbar.tsx:7-15 | with no path (`pathname \|\| ''`) nothing is active |
| Navbar.SubpagesStayActive | src/components/Navbar.tsx:12-13 | pages under a section keep its link active |
| Navbar.SharedPrefixIsNotEnough | src/components/Navbar.tsx:12-13 | a path that merely starts with a section's name, such as `/ssox`, does not activate it |

## Left out

- Database I/O, connections, transactions and the generic 500 paths. A route
  is a function of the store; only the refusals the schema itself causes
  (UNIQUE `emp_no`, UNIQUE `mail_id`, the owner FOREIGN KEY) are modelled, as
  `Failed`.
- ENUM validation of the mailbox's role, status, approval and OTP values by
  MySQL. Values are passed through as strings.
- SsoUsersApi.CreateUser: strict-mode refusals of the users table other than
  UNIQUE `emp_no` are not modelled: an `employee_type` outside 봉사원, 외주직원
  and 내부직원, a `status` outside 등록, 잠금 and 삭제 (src/lib/database.ts:53,
  57), a missing NOT NULL column and a text longer than its VARCHAR. Creation
  is refused in those cases too, and so is the deprecated routes' update with
  such a status; the model accepts them.
- mysql2's handling of `undefined` bind values. Every route binds through
  `connection.execute` (e.g. src/app/api/sso/users/route.ts:73), which
  rejects `undefined`. So a POST body without `vendor_name`, `duty` or
  `work_scope` takes the 500 path, whereas the model creates the user and
  stores NULL: optional request fields are `Option`s. The new-user page
  always sends these fields, as `''` when left blank
  (src/app/sso/new/page.tsx:12-21).
- The routes under `[id]` (get, update and delete of one user or mailbox), the
  detail and edit pages, and the new-user pages other than the creation route
  they call. They are not part of this model.
- Fetch and state glue of the pages: loading lists, the dashboard's
  `handleSearch` fetch, loading indicators and error alerts. The pages'
  effects are modelled as pure transitions on their state.
- Chart rendering and styling: colours, tension, options and the Chart.js
  registration. Only the labels and the three data series are modelled.
- The column collation and the LIKE wildcards `%` and `_` in user-typed
  dashboard filters. A `LIKE %x%` filter is substring containment.
- DashboardApi.NumberFilter: MySQL's reading of a bound text as a number is modelled by its leading digits only. Signs, whitespace and decimals (`'12.5'`) are not modelled; the dashboard's selects send plain decimal numbers.
- DashboardApi.DateFilter: a non-empty date text not of the form `YYYY-MM-DD` is treated as adding no clause. MySQL's comparison of a date with such text is not modelled; the date inputs send `YYYY-MM-DD`.
- LegacyUsersApi.UpdateUser: the id of the row to update is a parameter. The handler reads it from `params.id` (src/app/api/users/route.ts:88, 107), but it sits in the static `users` segment, which has no `[id]`. Read literally, `params.id` is undefined, so the update matches no row or is refused. The model assumes the id arrives.
- Strings.ParseInt: leading whitespace and signs are not modelled; the inputs
  here are stored numbers and select values.
- UrlParams.SearchParam: percent-decoding, `+` and fragments are not
  modelled. The round trip is stated for filter values without `&`, `%`, `+`
  and `#`.
- The dashboard's `accountType` column is derived from the change type.
- LegacyUsersApi.CreateUser: the deprecated routes connect through
  pages/api/database.ts to the database `sso_project`, not the one
  src/lib/database.ts creates, and write an `account_type` column that the
  users table created there does not have. Against that schema every
  deprecated POST and PUT is refused. The model runs the deprecated routes
  on the SSO route's store and assumes its table accepts `account_type`; the
  value written there is not modelled.
- WebmailAccountsApi.ListAccounts: with unique user ids the join gives at
  most one owner, so the listing takes the first match. Duplicate-id join rows
  cannot occur under the primary key and are not modelled.
- WebmailAccountsApi.Sanitize: the route removes the password field; no mask
  token is written in its place.
- TrendChart.InitialChart: the chart state before loading (`null`) is `None`.
  Year parsing on change uses `parseInt`, so a non-numeric value draws an
  empty chart rather than raising.
- Clock reads are parameters: `getFullYear()` is the local year and
  `toISOString()` gives the UTC date. The model does not relate the two, so
  around midnight on New Year's Eve the year and the date may disagree.

=== FILE: dashboard_api.dfy ===
/**
 * `GET /api/dashboard`: a filtered, joined, newest-first listing of the audit
 * log with its total count, and three statistics views over the whole log
 * (per month, per year, per change type). The SQL is modelled as pure
 * functions over the `user_history` rows and the `users` rows.
 */
module DashboardApi {
  import opened Wrappers
  import opened Strings
  import opened Seqs
  import opened History
  import opened Entities
  import opened DashboardStats
  import UrlParams

  // ---------------------------------------------------------------------
  // Filtered listing
  // ---------------------------------------------------------------------

  /** The request's filters, decoded. A string filter that is `""` and an
      optional filter that is `None` were absent or empty in the request;
      both impose nothing (the handler tests each parameter for truthiness). */
  datatype Query = Query(
    year: Option<int>,
    month: Option<int>,
    changeType: string,
    changedBy: string,
    startDate: Option<Date>,
    endDate: Option<Date>,
    accountType: string)

  const NoFilters: Query := Query(None, None, "", "", None, None, "")

  /** The account-type clause: `SSO` keeps events without the email marker,
      `webmail` keeps those with it, any other value adds no clause. */
  predicate AccountTypeClause(accountType: string, changeType: string) {
    if accountType == "SSO" then !Contains(changeType, EmailMarker)
    else if accountType == "webmail" then Contains(changeType, EmailMarker)
    else true
  }

  /** The `WHERE` clause both the listing and the count query build: one
      conjunct per supplied filter, nothing for an absent or empty one.
      `changedBy` becomes `LIKE '%value%'`; the dates compare `DATE(change_date)`. */
  predicate Matches(e: Event, q: Query) {
    var d := e.changeDate.date;
    && (q.year.Some? ==> d.year == q.year.value)
    && (q.month.Some? ==> d.month == q.month.value)
    && (q.changeType != "" ==> e.changeType == q.changeType)
    && (q.changedBy != "" ==> Contains(e.changedBy, q.changedBy))
    && (q.startDate.Some? ==> DateAtMost(q.startDate.value, d))
    && (q.endDate.Some? ==> DateAtMost(d, q.endDate.value))
    && AccountTypeClause(q.accountType, e.changeType)
  }

  /** With no filters every event is listed. */
  lemma NoFiltersMatchEverything(e: Event)
    ensures Matches(e, NoFilters)
  {
  }

  // ---------------------------------------------------------------------
  // Reading the filters from the request URL
  // ---------------------------------------------------------------------

  /** `year` or `month` as the clause compares it: absent or empty text adds
      no clause; other text is bound as a string, which MySQL reads as its
      leading digits, or as 0 (a year or month no row has) when there are none. */
  function NumberFilter(t: string): (r: Option<int>)
    ensures r.None? <==> t == ""
    ensures t != "" && IsDigit(t[0]) ==> r == Some(DigitsValue(LeadingDigits(t)))
    ensures t != "" && !IsDigit(t[0]) ==> r == Some(0)
  {
    if t == "" then None
    else
      match ParseInt(t)
      case Some(n) => Some(n)
      case None => Some(0)
  }

  /** `startDate` or `endDate`: absent or empty text adds no clause; a
      `YYYY-MM-DD` text compares as that date. */
  function DateFilter(t: string): (r: Option<Date>)
    ensures r.Some? <==> t != "" && DateShape(t)
  {
    if t == "" then None else ParseDate(t)
  }

  /** The filters from the seven texts, as the handler's truthiness tests
      and bound values make them. */
  function DecodeQuery(year: string, month: string, changeType: string, changedBy: string,
                       startDate: string, endDate: string, accountType: string): Query {
    Query(NumberFilter(year), NumberFilter(month), changeType, changedBy,
          DateFilter(startDate), DateFilter(endDate), accountType)
  }

  /** `searchParams.get(name)`, with a missing parameter as the empty text
      (both are falsy). */
  function Param(url: string, name: string): (t: string)
    ensures t == "" <==> UrlParams.SearchParam(url, name).None? || UrlParams.SearchParam(url, name) == Some("")
  {
    UrlParams.SearchParam(url, name).GetOr("")
  }

  /** The handler's seven `searchParams.get` calls, decoded. */
  function QueryOf(url: string): Query {
    DecodeQuery(Param(url, "year"), Param(url, "month"), Param(url, "changeType"),
                Param(url, "changedBy"), Param(url, "startDate"), Param(url, "endDate"),
                Param(url, "accountType"))
  }

  /** Empty texts decode to no filters at all. */
  lemma EmptyTextsNoFilters()
    ensures DecodeQuery("", "", "", "", "", "", "") == NoFilters
  {
  }

  /** The texts the dashboard's inputs produce decode to the values chosen:
      a year and a month in decimal, and dates in `YYYY-MM-DD` form. */
  lemma ChosenTextsDecode(y: nat, m: nat, changeType: string, changedBy: string,
                          start: Date, end: Date, accountType: string)
    requires 0 <= start.year < 10000 && 0 <= start.month < 100 && 0 <= start.day < 100
    requires 0 <= end.year < 10000 && 0 <= end.month < 100 && 0 <= end.day < 100
    ensures DecodeQuery(NatToString(y), NatToString(m), changeType, changedBy,
                        DateText(start), DateText(end), accountType)
         == Query(Some(y), Some(m), changeType, changedBy, Some(start), Some(end), accountType)
  {
    DigitsOfNatToString(y);
    DigitsOfNatToString(m);
    LeadingDigitsAll(NatToString(y));
    LeadingDigitsAll(NatToString(m));
    ParseDateText(start);
    ParseDateText(end);
  }

  /** The `WHERE` clause as a predicate on events. */
  function MatchesQuery(q: Query): Event -> bool {
    (e: Event) => Matches(e, q)
  }

  /** The events the `WHERE` clause keeps, in log order. */
  function Selected(log: seq<Event>, q: Query): seq<Event> {
    Filter(log, MatchesQuery(q))
  }

  /** The sort key of `ORDER BY uh.change_date`. */
  function EventRank(e: Event): int {
    Rank(e.changeDate)
  }

  /** One row of `history` in the response: the event, the columns the
      `LEFT JOIN users` brings (NULL when no user has that id), and the
      derived account type. */
  datatype HistoryRow = HistoryRow(
    event: Event,
    userName: Option<string>,
    empNo: Option<string>,
    department: Option<string>,
    accountType: string)

  /** The joined row for event `e` and matching user `u`. */
  function JoinedRow(e: Event, u: User): HistoryRow {
    HistoryRow(e, Some(u.name), Some(u.empNo), Some(u.department), AccountTypeLabel(e.changeType))
  }

  function JoinedRows(e: Event, hits: seq<User>): (rows: seq<HistoryRow>)
    ensures |rows| == |hits|
    ensures forall i :: 0 <= i < |rows| ==> rows[i] == JoinedRow(e, hits[i])
  {
    if hits == [] then [] else [JoinedRow(e, hits[0])] + JoinedRows(e, hits[1..])
  }

  /** `uh LEFT JOIN users u ON uh.user_id = u.id` for one event: one row per
      matching user, or a single row of NULLs when none matches. */
  function JoinOne(e: Event, users: seq<User>): (rows: seq<HistoryRow>)
    ensures |rows| >= 1
    ensures forall i :: 0 <= i < |rows| ==> rows[i].event == e
    ensures forall i :: 0 <= i < |rows| ==> rows[i].accountType == AccountTypeLabel(e.changeType)
  {
    var hits := Filter(users, HasId(e.userId));
    if hits == [] then [HistoryRow(e, None, None, None, AccountTypeLabel(e.changeType))]
    else JoinedRows(e, hits)
  }

  function LeftJoin(events: seq<Event>, users: seq<User>): (rows: seq<HistoryRow>)
    ensures |rows| >= |events|
    ensures forall i :: 0 <= i < |rows| ==> rows[i].accountType == AccountTypeLabel(rows[i].event.changeType)
  {
    if events == [] then [] else JoinOne(events[0], users) + LeftJoin(events[1..], users)
  }

  /** On a primary key the join adds no rows and keeps the events in order. */
  lemma {:induction false} JoinAddsNoRows(events: seq<Event>, users: seq<User>)
    requires UniqueUserIds(users)
    ensures |LeftJoin(events, users)| == |events|
    ensures forall i :: 0 <= i < |events| ==> LeftJoin(events, users)[i].event == events[i]
    decreases |events|
  {
    if events != [] {
      AtMostOneUserPerId(users, events[0].userId);
      JoinAddsNoRows(events[1..], users);
      var head: seq<HistoryRow> := JoinOne(events[0], users);
      var tail: seq<HistoryRow> := LeftJoin(events[1..], users);
      assert |head| == 1;
      assert LeftJoin(events, users) == head + tail;
      forall i | 0 <= i < |events| ensures (head + tail)[i].event == events[i] {
        if i > 0 {
          assert (head + tail)[i] == tail[i - 1];
        }
      }
    }
  }

  /** `ORDER BY uh.change_date DESC` on the selected events, then the join. */
  function Listing(log: seq<Event>, users: seq<User>, q: Query): seq<HistoryRow> {
    LeftJoin(SortDesc(Selected(log, q), EventRank), users)
  }

  /** The count query: the same `WHERE` clauses and parameters, no join. */
  function TotalCount(log: seq<Event>, q: Query): nat {
    Count(log, MatchesQuery(q))
  }

  /** The events of a list of rows, in order. */
  function EventsOf(rows: seq<HistoryRow>): (es: seq<Event>)
    ensures |es| == |rows|
    ensures forall i :: 0 <= i < |rows| ==> es[i] == rows[i].event
  {
    if rows == [] then [] else [rows[0].event] + EventsOf(rows[1..])
  }

  /** On a primary key, `totalCount` is the listing's length. */
  lemma ListingCount(log: seq<Event>, users: seq<User>, q: Query)
    requires UniqueUserIds(users)
    ensures |Listing(log, users, q)| == TotalCount(log, q)
  {
    JoinAddsNoRows(SortDesc(Selected(log, q), EventRank), users);
    CountIsFilterLength(log, MatchesQuery(q));
  }

  /** On a primary key, the listing's events are exactly the selected events,
      each as often as it was selected, newest first. */
  lemma ListingEvents(log: seq<Event>, users: seq<User>, q: Query)
    requires UniqueUserIds(users)
    ensures var es := EventsOf(Listing(log, users, q));
      && multiset(es) == multiset(Selected(log, q))
      && (forall i, j :: 0 <= i < j < |es| ==> EventRank(es[i]) >= EventRank(es[j]))
  {
    var sorted := SortDesc(Selected(log, q), EventRank);
    JoinAddsNoRows(sorted, users);
    assert EventsOf(Listing(log, users, q)) == sorted;
  }

  /** Every listed row is an event of the log that meets every filter, tagged
      with its derived account type. */
  lemma ListingSound(log: seq<Event>, users: seq<User>, q: Query, i: nat)
    requires UniqueUserIds(users)
    requires i < |Listing(log, users, q)|
    ensures var r := Listing(log, users, q)[i];
      r.event in log && Matches(r.event, q) && r.accountType == AccountTypeLabel(r.event.changeType)
  {
    var sel := Selected(log, q);
    var sorted := SortDesc(sel, EventRank);
    JoinAddsNoRows(sorted, users);
    var e := sorted[i];
    assert e in multiset(sel);
    var k :| 0 <= k < |sel| && sel[k] == e;
    assert MatchesQuery(q)(sel[k]);
    assert e in multiset(log);
  }

  /** Every event of the log that meets every filter is listed. */
  lemma ListingComplete(log: seq<Event>, users: seq<User>, q: Query, e: Event)
    requires UniqueUserIds(users)
    requires e in log && Matches(e, q)
    ensures exists i :: 0 <= i < |Listing(log, users, q)| && Listing(log, users, q)[i].event == e
  {
    var sorted := SortDesc(Selected(log, q), EventRank);
    JoinAddsNoRows(sorted, users);
    assert MatchesQuery(q)(e);
    FilterKeeps(log, MatchesQuery(q), e);
    assert e in multiset(sorted);
    var i :| 0 <= i < |sorted| && sorted[i] == e;
    assert Listing(log, users, q)[i].event == e;
  }

  /** Newest first: on well-formed timestamps no listed event is earlier than
      one listed after it. */
  lemma ListingNewestFirst(log: seq<Event>, users: seq<User>, q: Query, i: nat, j: nat)
    requires UniqueUserIds(users)
    requires forall k :: 0 <= k < |log| ==> ValidTimestamp(log[k].changeDate)
    requires i < j < |Listing(log, users, q)|
    ensures var h := Listing(log, users, q); !Earlier(h[i].event.changeDate, h[j].event.changeDate)
  {
    ListingEvents(log, users, q);
    var es := EventsOf(Listing(log, users, q));
    assert EventRank(es[i]) >= EventRank(es[j]);
    ListingSound(log, users, q, i);
    ListingSound(log, users, q, j);
    var h := Listing(log, users, q);
    var ki :| 0 <= ki < |log| && log[ki] == h[i].event;
    var kj :| 0 <= kj < |log| && log[kj] == h[j].event;
    RankIsChronological(h[i].event.changeDate, h[j].event.changeDate);
  }

  /** Without the join's primary key the count could fall short of the listing,
      never exceed it. */
  lemma CountNeverExceedsListing(log: seq<Event>, users: seq<User>, q: Query)
    ensures TotalCount(log, q) <= |Listing(log, users, q)|
  {
    CountIsFilterLength(log, MatchesQuery(q));
  }

  // ---------------------------------------------------------------------
  // The response
  // ---------------------------------------------------------------------

  /** The JSON body of a successful request. */
  datatype Response = Response(
    history: seq<HistoryRow>,
    totalCount: nat,
    monthlyStats: seq<MonthlyStat>,
    yearlyStats: seq<YearlyStat>,
    typeStats: seq<TypeStat>)

  /** `GET /api/dashboard` against the tables `log` and `users`. */
  function Dashboard(log: seq<Event>, users: seq<User>, q: Query): (r: Response)
    ensures r.totalCount <= |r.history|
  {
    CountNeverExceedsListing(log, users, q);
    Response(Listing(log, users, q), TotalCount(log, q),
             MonthlyStats(log), YearlyStats(log), TypeStats(log))
  }

  /** On a primary key, `totalCount` is the number of `history` rows. */
  lemma DashboardCountsItsRows(log: seq<Event>, users: seq<User>, q: Query)
    requires UniqueUserIds(users)
    ensures Dashboard(log, users, q).totalCount == |Dashboard(log, users, q).history|
  {
    ListingCount(log, users, q);
  }

  /** The three statistics views do not depend on the request's filters. */
  lemma StatisticsIgnoreFilters(log: seq<Event>, users: seq<User>, q: Query)
    ensures var r := Dashboard(log, users, q);
      var all := Dashboard(log, users, NoFilters);
      && r.monthlyStats == all.monthlyStats
      && r.yearlyStats == all.yearlyStats
      && r.typeStats == all.typeStats
  {
  }

  /** With no filters the listing covers the whole log. */
  lemma NoFiltersListEverything(log: seq<Event>, users: seq<User>, e: Event)
    requires UniqueUserIds(users) && e in log
    ensures exists i :: 0 <= i < |Listing(log, users, NoFilters)| && Listing(log, users, NoFilters)[i].event == e
  {
    NoFiltersMatchEverything(e);
    ListingComplete(log, users, NoFilters, e);
  }
}

=== FILE: dashboard_page.dfy ===
/**
 * The dashboard page: its filter form, the request URL it builds from the
 * filters, the year and month choices, and the two change-type panels it
 * splits the per-type statistics into.
 */
module DashboardPage {
  import opened Wrappers
  import opened Strings
  import opened Seqs
  import opened History
  import opened DashboardStats
  import opened UrlParams
  import DashboardApi

  // ---------------------------------------------------------------------
  // Filter form
  // ---------------------------------------------------------------------

  datatype Field = YearField | MonthField | ChangeTypeField | ChangedByField
                 | StartDateField | EndDateField | AccountTypeField

  /** The filter form: every filter as the text of its input, `""` when unset. */
  datatype Filters = Filters(
    year: string,
    month: string,
    changeType: string,
    changedBy: string,
    startDate: string,
    endDate: string,
    accountType: string)

  /** The filters the page opens with and resets to. */
  const NoFilters: Filters := Filters("", "", "", "", "", "", "")

  function Get(f: Filters, k: Field): string {
    match k
    case YearField => f.year
    case MonthField => f.month
    case ChangeTypeField => f.changeType
    case ChangedByField => f.changedBy
    case StartDateField => f.startDate
    case EndDateField => f.endDate
    case AccountTypeField => f.accountType
  }

  /** `handleFilterChange`: the named filter takes the value. */
  function HandleFilterChange(f: Filters, k: Field, v: string): (r: Filters)
    ensures Get(r, k) == v
    ensures forall j :: j != k ==> Get(r, j) == Get(f, j)
  {
    match k
    case YearField => f.(year := v)
    case MonthField => f.(month := v)
    case ChangeTypeField => f.(changeType := v)
    case ChangedByField => f.(changedBy := v)
    case StartDateField => f.(startDate := v)
    case EndDateField => f.(endDate := v)
    case AccountTypeField => f.(accountType := v)
  }

  /** `resetFilters`: every filter cleared. */
  function ResetFilters(f: Filters): (r: Filters)
    ensures forall k :: Get(r, k) == ""
  {
    NoFilters
  }

  // ---------------------------------------------------------------------
  // Request URL
  // ---------------------------------------------------------------------

  /** The route the page fetches, with the query separator. */
  const Base: string := "/api/dashboard?"

  /** The query parameter a filter is sent as. */
  function ParamName(k: Field): string {
    match k
    case YearField => "year"
    case MonthField => "month"
    case ChangeTypeField => "changeType"
    case ChangedByField => "changedBy"
    case StartDateField => "startDate"
    case EndDateField => "endDate"
    case AccountTypeField => "accountType"
  }

  /** The parameters in the order the page appends them. */
  function Entries(f: Filters): seq<(string, string)> {
    [ ("year", f.year), ("month", f.month), ("changeType", f.changeType),
      ("changedBy", f.changedBy), ("startDate", f.startDate), ("endDate", f.endDate),
      ("accountType", f.accountType) ]
  }

  /** Where a filter sits among the parameters. */
  function Position(k: Field): (i: nat)
    ensures i < 7
    ensures forall f :: Entries(f)[i] == (ParamName(k), Get(f, k))
  {
    match k
    case YearField => 0
    case MonthField => 1
    case ChangeTypeField => 2
    case ChangedByField => 3
    case StartDateField => 4
    case EndDateField => 5
    case AccountTypeField => 6
  }

  /** The URL `fetchDashboardData` requests. */
  function RequestUrl(f: Filters): (url: string)
    ensures Base <= url
  {
    Base + Encode(Entries(f))
  }

  /** Every filter value is free of the characters URL parsing would change. */
  predicate PlainFilters(f: Filters) {
    forall k :: Plain(Get(f, k))
  }

  /** The parameter names are well formed. */
  lemma NamesWellFormed(f: Filters)
    ensures forall i :: 0 <= i < |Entries(f)| ==> Name(Entries(f)[i].0)
  {
    assert Name("year") && Name("month") && Name("changeType");
    assert Name("changedBy") && Name("startDate");
    assert Name("endDate") && Name("accountType");
  }

  /** No two parameters share a name. */
  lemma NamesDistinct(f: Filters)
    ensures DistinctNames(Entries(f))
  {
    var e := Entries(f);
    forall i, j | 0 <= i < j < |e| ensures e[i].0 != e[j].0 {
      assert |e[i].0| != |e[j].0| || e[i].0[0] != e[j].0[0];
    }
  }

  /** The parameter values are the filter values. */
  lemma EntriesWellFormed(f: Filters)
    requires PlainFilters(f)
    ensures forall i :: 0 <= i < |Entries(f)| ==> Name(Entries(f)[i].0) && Plain(Entries(f)[i].1)
    ensures DistinctNames(Entries(f))
  {
    NamesWellFormed(f);
    NamesDistinct(f);
    assert Plain(Get(f, YearField)) && Plain(Get(f, MonthField)) && Plain(Get(f, ChangeTypeField))
        && Plain(Get(f, ChangedByField)) && Plain(Get(f, StartDateField))
        && Plain(Get(f, EndDateField)) && Plain(Get(f, AccountTypeField));
  }

  /** The query string of the request is what follows the base. */
  lemma QueryPartOfRequest(f: Filters)
    ensures QueryPart(RequestUrl(f)) == Encode(Entries(f))
  {
    var qs := Encode(Entries(f));
    var path := "/api/dashboard";
    assert Base == path + "?";
    assert RequestUrl(f) == path + ("?" + qs);
    IndexOfAfter(path, "?" + qs, '?');
    assert RequestUrl(f)[|path| + 1..] == qs;
  }

  /** The route reads back exactly the filters the page set: a non-empty
      filter as its value, an empty one as an absent parameter. */
  lemma {:induction false} RequestCarriesFilters(f: Filters, k: Field)
    requires PlainFilters(f)
    ensures SearchParam(RequestUrl(f), ParamName(k)) == if Get(f, k) == "" then None else Some(Get(f, k))
  {
    EntriesWellFormed(f);
    QueryPartOfRequest(f);
    DecodeEncode(Entries(f));
    LookupNonEmpty(Entries(f), Position(k));
  }

  /** Changing one filter changes only that filter's parameter. */
  lemma FilterChangeTouchesOneParam(f: Filters, k: Field, v: string, j: Field)
    requires PlainFilters(f) && Plain(v) && j != k
    ensures SearchParam(RequestUrl(HandleFilterChange(f, k, v)), ParamName(j))
         == SearchParam(RequestUrl(f), ParamName(j))
    ensures SearchParam(RequestUrl(HandleFilterChange(f, k, v)), ParamName(k))
         == if v == "" then None else Some(v)
  {
    var g := HandleFilterChange(f, k, v);
    assert PlainFilters(g) by {
      forall i ensures Plain(Get(g, i)) {
        if i != k {
          assert Get(g, i) == Get(f, i);
        }
      }
    }
    RequestCarriesFilters(f, j);
    RequestCarriesFilters(g, j);
    RequestCarriesFilters(g, k);
  }

  /** After a reset the request carries no parameter at all. */
  lemma ResetRequestsEverything(f: Filters)
    ensures RequestUrl(ResetFilters(f)) == Base
    ensures forall k :: SearchParam(RequestUrl(ResetFilters(f)), ParamName(k)).None?
  {
    var r := ResetFilters(f);
    EncodeAllEmpty(Entries(r));
    forall k ensures SearchParam(RequestUrl(r), ParamName(k)).None? {
      RequestCarriesFilters(r, k);
    }
  }

  /** The route decodes the request into the filters the page set: each
      filter's text arrives unchanged, and an empty one arrives as absent. */
  lemma RequestDecodesToFilters(f: Filters)
    requires PlainFilters(f)
    ensures DashboardApi.QueryOf(RequestUrl(f))
         == DashboardApi.DecodeQuery(f.year, f.month, f.changeType, f.changedBy,
                                     f.startDate, f.endDate, f.accountType)
  {
    ParamOfRequest(f, YearField);
    ParamOfRequest(f, MonthField);
    ParamOfRequest(f, ChangeTypeField);
    ParamOfRequest(f, ChangedByField);
    ParamOfRequest(f, StartDateField);
    ParamOfRequest(f, EndDateField);
    ParamOfRequest(f, AccountTypeField);
  }

  /** The text the handler reads for one filter is the filter's text. */
  lemma ParamOfRequest(f: Filters, k: Field)
    requires PlainFilters(f)
    ensures DashboardApi.Param(RequestUrl(f), ParamName(k)) == Get(f, k)
  {
    RequestCarriesFilters(f, k);
  }

  /** After a reset the route applies no filter. */
  lemma ResetQueriesNothing(f: Filters)
    ensures DashboardApi.QueryOf(RequestUrl(ResetFilters(f))) == DashboardApi.NoFilters
  {
    var r := ResetFilters(f);
    assert PlainFilters(r);
    RequestDecodesToFilters(r);
    DashboardApi.EmptyTextsNoFilters();
  }

  /** The account-type choices: all, `SSO`, `webmail`. */
  const AccountTypeChoices: seq<string> := ["", "SSO", "webmail"]

  /** Each account-type choice keeps exactly the events of the panel with the
      matching label; the empty choice keeps everything. */
  lemma AccountTypeChoicesMatchPanels(changeType: string)
    ensures DashboardApi.AccountTypeClause(AccountTypeChoices[0], changeType)
    ensures DashboardApi.AccountTypeClause(AccountTypeChoices[1], changeType)
         <==> AccountTypeLabel(changeType) == SsoLabel
    ensures DashboardApi.AccountTypeClause(AccountTypeChoices[2], changeType)
         <==> AccountTypeLabel(changeType) == WebmailLabel
  {
  }

  // ---------------------------------------------------------------------
  // Year and month choices
  // ---------------------------------------------------------------------

  /** The year choices: this year and the four before it, newest first. */
  function YearChoices(currentYear: int): (ys: seq<int>)
    ensures |ys| == 5
  {
    seq(5, i => currentYear - i)
  }

  /** The year choices are exactly the last five years, strictly descending. */
  lemma YearChoicesSpan(currentYear: int)
    ensures forall y :: y in YearChoices(currentYear) <==> currentYear - 4 <= y <= currentYear
    ensures forall i, j :: 0 <= i < j < 5 ==> YearChoices(currentYear)[i] > YearChoices(currentYear)[j]
  {
    var ys := YearChoices(currentYear);
    forall y | currentYear - 4 <= y <= currentYear ensures y in ys {
      assert ys[currentYear - y] == y;
    }
  }

  /** The month choices. */
  function MonthChoices(): (ms: seq<int>)
    ensures |ms| == 12
  {
    seq(12, i => i + 1)
  }

  /** The month choices are the twelve months in calendar order. */
  lemma MonthChoicesSpan()
    ensures forall m :: m in MonthChoices() <==> 1 <= m <= 12
    ensures forall i, j :: 0 <= i < j < 12 ==> MonthChoices()[i] < MonthChoices()[j]
  {
    var ms := MonthChoices();
    forall m | 1 <= m <= 12 ensures m in ms {
      assert ms[m - 1] == m;
    }
  }

  // ---------------------------------------------------------------------
  // Change-type panels
  // ---------------------------------------------------------------------

  function HasLabel(tag: string): TypeStat -> bool {
    (s: TypeStat) => s.accountType == tag
  }

  /** The SSO panel: `typeStats.filter(stat => stat.account_type === 'SSO')`. */
  function SsoPanel(rows: seq<TypeStat>): seq<TypeStat> {
    Filter(rows, HasLabel(SsoLabel))
  }

  /** The webmail panel: the rows labelled `웹메일`. */
  function WebmailPanel(rows: seq<TypeStat>): seq<TypeStat> {
    Filter(rows, HasLabel(WebmailLabel))
  }

  predicate Labelled(rows: seq<TypeStat>) {
    forall i :: 0 <= i < |rows| ==> rows[i].accountType == SsoLabel || rows[i].accountType == WebmailLabel
  }

  /** Rows labelled with one of the two labels are split between the panels:
      none is lost and none is shown twice, counts included. */
  lemma {:induction false} PanelsSplit(rows: seq<TypeStat>)
    requires Labelled(rows)
    ensures |SsoPanel(rows)| + |WebmailPanel(rows)| == |rows|
    ensures SumCounts(SsoPanel(rows)) + SumCounts(WebmailPanel(rows)) == SumCounts(rows)
  {
    if rows != [] {
      var rest := rows[1..];
      assert Labelled(rest) by {
        forall i | 0 <= i < |rest| ensures rest[i].accountType == SsoLabel || rest[i].accountType == WebmailLabel {
          assert rest[i] == rows[i + 1];
        }
      }
      PanelsSplit(rest);
      assert SsoLabel != WebmailLabel by {
        assert SsoLabel[0] != WebmailLabel[0];
      }
      var s := SsoPanel(rows);
      var w := WebmailPanel(rows);
      if rows[0].accountType == SsoLabel {
        assert s == [rows[0]] + SsoPanel(rest);
        assert s[0] == rows[0] && s[1..] == SsoPanel(rest);
        assert w == WebmailPanel(rest);
      } else {
        assert w == [rows[0]] + WebmailPanel(rest);
        assert w[0] == rows[0] && w[1..] == WebmailPanel(rest);
        assert s == SsoPanel(rest);
      }
    }
  }

  /** On the route's per-type statistics each row shows in the SSO panel
      exactly when its change type lacks the email marker and in the webmail
      panel exactly when it has it; together the panels count every logged
      event once. */
  lemma PanelsPartitionTypeStats(log: seq<Event>)
    ensures var rows := TypeStats(log);
      && (forall i :: 0 <= i < |rows| ==>
            && (rows[i] in SsoPanel(rows) <==> !Contains(rows[i].changeType, EmailMarker))
            && (rows[i] in WebmailPanel(rows) <==> Contains(rows[i].changeType, EmailMarker)))
      && |SsoPanel(rows)| + |WebmailPanel(rows)| == |rows|
      && SumCounts(SsoPanel(rows)) + SumCounts(WebmailPanel(rows)) == |log|
  {
    var rows := TypeStats(log);
    forall i | 0 <= i < |rows|
      ensures rows[i].accountType == AccountTypeLabel(rows[i].changeType)
      ensures rows[i].accountType == SsoLabel || rows[i].accountType == WebmailLabel
    {
      TypeStatsRow(log, i);
    }
    forall i | 0 <= i < |rows|
      ensures rows[i] in SsoPanel(rows) <==> rows[i].accountType == SsoLabel
      ensures rows[i] in WebmailPanel(rows) <==> rows[i].accountType == WebmailLabel
    {
      if rows[i].accountType == SsoLabel {
        FilterKeeps(rows, HasLabel(SsoLabel), rows[i]);
      }
      if rows[i].accountType == WebmailLabel {
        FilterKeeps(rows, HasLabel(WebmailLabel), rows[i]);
      }
    }
    PanelsSplit(rows);
    TypeCountsSumToLogSize(log);
  }
}

=== FILE: dashboard_stats.dfy ===
/**
 * The three statistics queries of `GET /api/dashboard`. They read the whole
 * `user_history` table, whatever filters the request carries: monthly and
 * yearly `GROUP BY` rows with six counted columns, and a per-change-type
 * count.
 */
module DashboardStats {
  import opened Strings
  import opened Seqs
  import opened History

  // ---------------------------------------------------------------------
  // The six counted columns
  // ---------------------------------------------------------------------

  /** `total_count`, `create_count`, `update_count`, `delete_count`,
      `webmail_count`, `sso_count` of one group. */
  datatype Tally = Tally(total: nat, created: nat, updated: nat, deleted: nat, webmail: nat, sso: nat)

  /** The columns by name. */
  datatype Column = AllRows | Creations | Updates | Deletions | WebmailRows | SsoRows

  /** Each column is `SUM(CASE WHEN <test> THEN 1 ELSE 0 END)` for its test;
      `COUNT(*)` is the test that always holds. The marker tests are
      `change_type LIKE '%marker%'`; `sso_count` is `NOT LIKE '%이메일%'`. */
  function Test(c: Column): Event -> bool {
    match c
    case AllRows => (e: Event) => true
    case Creations => (e: Event) => Contains(e.changeType, CreateMarker)
    case Updates => (e: Event) => Contains(e.changeType, UpdateMarker)
    case Deletions => (e: Event) => Contains(e.changeType, DeleteMarker)
    case WebmailRows => (e: Event) => Contains(e.changeType, EmailMarker)
    case SsoRows => (e: Event) => !Contains(e.changeType, EmailMarker)
  }

  function Get(t: Tally, c: Column): nat {
    match c
    case AllRows => t.total
    case Creations => t.created
    case Updates => t.updated
    case Deletions => t.deleted
    case WebmailRows => t.webmail
    case SsoRows => t.sso
  }

  /** The columns of a group made of the events `es`. */
  function TallyOf(es: seq<Event>): Tally {
    Tally(Count(es, Test(AllRows)), Count(es, Test(Creations)), Count(es, Test(Updates)),
          Count(es, Test(Deletions)), Count(es, Test(WebmailRows)), Count(es, Test(SsoRows)))
  }

  lemma TallyOfColumn(es: seq<Event>, c: Column)
    ensures Get(TallyOf(es), c) == Count(es, Test(c))
  {
  }

  /** The per-row invariants of every statistics row: SSO and webmail split the
      total, and no keyword count exceeds it. */
  predicate Balanced(t: Tally) {
    && t.sso + t.webmail == t.total
    && t.created <= t.total
    && t.updated <= t.total
    && t.deleted <= t.total
  }

  /** Every group's columns are balanced, and `total_count` is its size. */
  lemma {:induction false} TallyOfBalanced(es: seq<Event>)
    ensures Balanced(TallyOf(es)) && TallyOf(es).total == |es|
  {
    if es != [] {
      TallyOfBalanced(es[1..]);
    }
  }

  /** Column-wise sum of two tallies. */
  function Plus(a: Tally, b: Tally): Tally {
    Tally(a.total + b.total, a.created + b.created, a.updated + b.updated,
          a.deleted + b.deleted, a.webmail + b.webmail, a.sso + b.sso)
  }

  lemma PlusColumn(a: Tally, b: Tally, c: Column)
    ensures Get(Plus(a, b), c) == Get(a, c) + Get(b, c)
  {
  }

  /** The columns one event contributes to. */
  lemma TallyOfOne(e: Event)
    ensures TallyOf([e]) == Tally(1, Flag(Contains(e.changeType, CreateMarker)),
                                  Flag(Contains(e.changeType, UpdateMarker)),
                                  Flag(Contains(e.changeType, DeleteMarker)),
                                  Flag(Contains(e.changeType, EmailMarker)),
                                  Flag(!Contains(e.changeType, EmailMarker)))
  {
    assert [e][1..] == [];
  }

  /** Appending an event to the log adds its columns to the totals: the
      write paths change the statistics by exactly what they log. */
  lemma TallyAppend(es: seq<Event>, e: Event)
    ensures TallyOf(es + [e]) == Plus(TallyOf(es), TallyOf([e]))
  {
    var a, b := TallyOf(es), TallyOf([e]);
    forall c ensures Get(TallyOf(es + [e]), c) == Get(Plus(a, b), c) {
      CountConcat(es, [e], Test(c));
      TallyOfColumn(es + [e], c);
      TallyOfColumn(es, c);
      TallyOfColumn([e], c);
      PlusColumn(a, b, c);
    }
    SameColumns(TallyOf(es + [e]), Plus(a, b));
  }

  // ---------------------------------------------------------------------
  // Groups
  // ---------------------------------------------------------------------

  /** `(YEAR(change_date), MONTH(change_date))`. */
  datatype YearMonth = YearMonth(year: int, month: int)

  function MonthOf(e: Event): YearMonth {
    YearMonth(e.changeDate.date.year, e.changeDate.date.month)
  }

  function InMonth(k: YearMonth): Event -> bool {
    (e: Event) => MonthOf(e) == k
  }

  function InYear(y: int): Event -> bool {
    (e: Event) => e.changeDate.date.year == y
  }

  /** The columns of the monthly group `k`. */
  function MonthTally(log: seq<Event>, k: YearMonth): Tally {
    TallyOf(Filter(log, InMonth(k)))
  }

  /** The columns of the yearly group `y`. */
  function YearTally(log: seq<Event>, y: int): Tally {
    TallyOf(Filter(log, InYear(y)))
  }

  function Flag(b: bool): nat {
    if b then 1 else 0
  }

  /** Counting within a group peels off the log's first event. */
  lemma GroupCountStep(log: seq<Event>, q: Event -> bool, p: Event -> bool)
    requires log != []
    ensures Count(Filter(log, q), p) == Flag(q(log[0]) && p(log[0])) + Count(Filter(log[1..], q), p)
  {
    var x := log[0];
    var rest := Filter(log[1..], q);
    if q(x) {
      var f := [x] + rest;
      assert Filter(log, q) == f;
      assert f[0] == x && f[1..] == rest;
      assert Count(f, p) == Flag(p(x)) + Count(rest, p);
    } else {
      assert Filter(log, q) == rest;
    }
  }

  /** `YEAR(...) DESC, MONTH(...) DESC` as a strict order on groups. */
  predicate Later(a: YearMonth, b: YearMonth) {
    a.year > b.year || (a.year == b.year && a.month > b.month)
  }

  predicate NewestMonthFirst(ks: seq<YearMonth>) {
    forall i, j :: 0 <= i < j < |ks| ==> Later(ks[i], ks[j])
  }

  /** Adds a group key to a key list, before the first key it is later than,
      unless it is already there. */
  function InsertMonth(k: YearMonth, ks: seq<YearMonth>): (r: seq<YearMonth>)
    ensures forall x :: x in r <==> x == k || x in ks
  {
    if ks == [] || Later(k, ks[0]) then [k] + ks
    else if k == ks[0] then ks
    else [ks[0]] + InsertMonth(k, ks[1..])
  }

  lemma {:induction false} InsertMonthSorted(k: YearMonth, ks: seq<YearMonth>)
    requires NewestMonthFirst(ks)
    ensures NewestMonthFirst(InsertMonth(k, ks))
    decreases |ks|
  {
    if ks != [] && !Later(k, ks[0]) && k != ks[0] {
      var rest := InsertMonth(k, ks[1..]);
      InsertMonthSorted(k, ks[1..]);
      var r := [ks[0]] + rest;
      forall i, j | 0 <= i < j < |r| ensures Later(r[i], r[j]) {
        assert r[j] == rest[j - 1];
        if i == 0 {
          assert rest[j - 1] in rest;
          if rest[j - 1] != k {
            var m :| 0 <= m < |ks[1..]| && ks[1..][m] == rest[j - 1];
            assert ks[1..][m] == ks[m + 1];
          }
        } else {
          assert r[i] == rest[i - 1];
        }
      }
    }
  }

  /** The distinct months that occur in the log. */
  function MonthKeys(log: seq<Event>): (ks: seq<YearMonth>)
    ensures forall i :: 0 <= i < |log| ==> MonthOf(log[i]) in ks
    ensures forall x :: x in ks ==> exists i :: 0 <= i < |log| && MonthOf(log[i]) == x
  {
    if log == [] then []
    else
      var rest := MonthKeys(log[1..]);
      var r := InsertMonth(MonthOf(log[0]), rest);
      assert forall i :: 0 <= i < |log| ==> MonthOf(log[i]) in r by {
        forall i | 0 <= i < |log| ensures MonthOf(log[i]) in r {
          if i > 0 {
            assert log[i] == log[1..][i - 1];
          }
        }
      }
      assert forall x :: x in r ==> exists i :: 0 <= i < |log| && MonthOf(log[i]) == x by {
        forall x | x in r ensures exists i :: 0 <= i < |log| && MonthOf(log[i]) == x {
          if x != MonthOf(log[0]) {
            var i :| 0 <= i < |log[1..]| && MonthOf(log[1..][i]) == x;
            assert MonthOf(log[i + 1]) == x;
          }
        }
      }
      r
  }

  lemma {:induction false} MonthKeysSorted(log: seq<Event>)
    ensures NewestMonthFirst(MonthKeys(log))
  {
    if log != [] {
      MonthKeysSorted(log[1..]);
      InsertMonthSorted(MonthOf(log[0]), MonthKeys(log[1..]));
    }
  }

  // ---------------------------------------------------------------------
  // Monthly statistics
  // ---------------------------------------------------------------------

  datatype MonthlyStat = MonthlyStat(year: int, month: int, counts: Tally)

  function KeyOf(row: MonthlyStat): YearMonth {
    YearMonth(row.year, row.month)
  }

  function MonthRow(log: seq<Event>, k: YearMonth): MonthlyStat {
    MonthlyStat(k.year, k.month, MonthTally(log, k))
  }

  function MonthRows(ks: seq<YearMonth>, log: seq<Event>): (rows: seq<MonthlyStat>)
    ensures |rows| == |ks|
  {
    if ks == [] then [] else [MonthRow(log, ks[0])] + MonthRows(ks[1..], log)
  }

  lemma {:induction false} MonthRowsAt(ks: seq<YearMonth>, log: seq<Event>, i: nat)
    requires i < |ks|
    ensures MonthRows(ks, log)[i] == MonthRow(log, ks[i])
    decreases i
  {
    if i > 0 {
      MonthRowsAt(ks[1..], log, i - 1);
    }
  }

  /** The monthly statistics: one row per month that has events. */
  function MonthlyStats(log: seq<Event>): seq<MonthlyStat> {
    MonthRows(MonthKeys(log), log)
  }

  /** Each monthly row holds exactly its month's columns, balanced and
      non-empty; rows are newest month first; every event's month has a row. */
  lemma MonthlyStatsShape(log: seq<Event>)
    ensures var rows := MonthlyStats(log);
      && (forall i, j :: 0 <= i < j < |rows| ==> Later(KeyOf(rows[i]), KeyOf(rows[j])))
      && (forall i :: 0 <= i < |rows| ==> rows[i].counts == MonthTally(log, KeyOf(rows[i])))
      && (forall i :: 0 <= i < |rows| ==> Balanced(rows[i].counts) && rows[i].counts.total >= 1)
      && (forall i :: 0 <= i < |log| ==> exists j :: 0 <= j < |rows| && KeyOf(rows[j]) == MonthOf(log[i]))
  {
    var ks := MonthKeys(log);
    var rows := MonthlyStats(log);
    MonthKeysSorted(log);
    forall i | 0 <= i < |rows| ensures rows[i] == MonthRow(log, ks[i]) {
      MonthRowsAt(ks, log, i);
    }
    forall i | 0 <= i < |rows|
      ensures Balanced(rows[i].counts) && rows[i].counts.total >= 1
    {
      assert ks[i] in ks;
      var k :| 0 <= k < |log| && MonthOf(log[k]) == ks[i];
      FilterKeeps(log, InMonth(ks[i]), log[k]);
      TallyOfBalanced(Filter(log, InMonth(ks[i])));
    }
    forall i | 0 <= i < |log| ensures exists j :: 0 <= j < |rows| && KeyOf(rows[j]) == MonthOf(log[i]) {
      var j :| 0 <= j < |ks| && ks[j] == MonthOf(log[i]);
      assert KeyOf(rows[j]) == ks[j];
    }
  }

  // ---------------------------------------------------------------------
  // Yearly statistics
  // ---------------------------------------------------------------------

  predicate NewestYearFirst(ys: seq<int>) {
    forall i, j :: 0 <= i < j < |ys| ==> ys[i] > ys[j]
  }

  function InsertYear(y: int, ys: seq<int>): (r: seq<int>)
    ensures forall x :: x in r <==> x == y || x in ys
  {
    if ys == [] || y > ys[0] then [y] + ys
    else if y == ys[0] then ys
    else [ys[0]] + InsertYear(y, ys[1..])
  }

  lemma {:induction false} InsertYearSorted(y: int, ys: seq<int>)
    requires NewestYearFirst(ys)
    ensures NewestYearFirst(InsertYear(y, ys))
    decreases |ys|
  {
    if ys != [] && y < ys[0] {
      var rest := InsertYear(y, ys[1..]);
      InsertYearSorted(y, ys[1..]);
      var r := [ys[0]] + rest;
      forall i, j | 0 <= i < j < |r| ensures r[i] > r[j] {
        assert r[j] == rest[j - 1];
        if i == 0 {
          assert rest[j - 1] in rest;
          if rest[j - 1] != y {
            var m :| 0 <= m < |ys[1..]| && ys[1..][m] == rest[j - 1];
            assert ys[1..][m] == ys[m + 1];
          }
        } else {
          assert r[i] == rest[i - 1];
        }
      }
    }
  }

  /** The distinct years that occur in the log. */
  function YearKeys(log: seq<Event>): (ys: seq<int>)
    ensures forall i :: 0 <= i < |log| ==> log[i].changeDate.date.year in ys
    ensures forall x :: x in ys ==> exists i :: 0 <= i < |log| && log[i].changeDate.date.year == x
  {
    if log == [] then []
    else
      var rest := YearKeys(log[1..]);
      var r := InsertYear(log[0].changeDate.date.year, rest);
      assert forall i :: 0 <= i < |log| ==> log[i].changeDate.date.year in r by {
        forall i | 0 <= i < |log| ensures log[i].changeDate.date.year in r {
          if i > 0 {
            assert log[i] == log[1..][i - 1];
          }
        }
      }
      assert forall x :: x in r ==> exists i :: 0 <= i < |log| && log[i].changeDate.date.year == x by {
        forall x | x in r ensures exists i :: 0 <= i < |log| && log[i].changeDate.date.year == x {
          if x != log[0].changeDate.date.year {
            var i :| 0 <= i < |log[1..]| && log[1..][i].changeDate.date.year == x;
            assert log[i + 1].changeDate.date.year == x;
          }
        }
      }
      r
  }

  lemma {:induction false} YearKeysSorted(log: seq<Event>)
    ensures NewestYearFirst(YearKeys(log))
  {
    if log != [] {
      YearKeysSorted(log[1..]);
      InsertYearSorted(log[0].changeDate.date.year, YearKeys(log[1..]));
    }
  }

  datatype YearlyStat = YearlyStat(year: int, counts: Tally)

  function YearRows(ys: seq<int>, log: seq<Event>): (rows: seq<YearlyStat>)
    ensures |rows| == |ys|
  {
    if ys == [] then [] else [YearlyStat(ys[0], YearTally(log, ys[0]))] + YearRows(ys[1..], log)
  }

  lemma {:induction false} YearRowsAt(ys: seq<int>, log: seq<Event>, i: nat)
    requires i < |ys|
    ensures YearRows(ys, log)[i] == YearlyStat(ys[i], YearTally(log, ys[i]))
    decreases i
  {
    if i > 0 {
      YearRowsAt(ys[1..], log, i - 1);
    }
  }

  /** The yearly statistics: one row per year that has events. */
  function YearlyStats(log: seq<Event>): seq<YearlyStat> {
    YearRows(YearKeys(log), log)
  }

  /** Each yearly row holds exactly its year's columns, balanced and
      non-empty; rows are newest year first; every event's year has a row. */
  lemma YearlyStatsShape(log: seq<Event>)
    ensures var rows := YearlyStats(log);
      && (forall i, j :: 0 <= i < j < |rows| ==> rows[i].year > rows[j].year)
      && (forall i :: 0 <= i < |rows| ==> rows[i].counts == YearTally(log, rows[i].year))
      && (forall i :: 0 <= i < |rows| ==> Balanced(rows[i].counts) && rows[i].counts.total >= 1)
      && (forall i :: 0 <= i < |log| ==> exists j :: 0 <= j < |rows| && rows[j].year == log[i].changeDate.date.year)
  {
    var ys := YearKeys(log);
    var rows := YearlyStats(log);
    YearKeysSorted(log);
    forall i | 0 <= i < |rows| ensures rows[i] == YearlyStat(ys[i], YearTally(log, ys[i])) {
      YearRowsAt(ys, log, i);
    }
    forall i | 0 <= i < |rows|
      ensures Balanced(rows[i].counts) && rows[i].counts.total >= 1
    {
      assert ys[i] in ys;
      var k :| 0 <= k < |log| && log[k].changeDate.date.year == ys[i];
      FilterKeeps(log, InYear(ys[i]), log[k]);
      TallyOfBalanced(Filter(log, InYear(ys[i])));
    }
    forall i | 0 <= i < |log| ensures exists j :: 0 <= j < |rows| && rows[j].year == log[i].changeDate.date.year {
      var j :| 0 <= j < |ys| && ys[j] == log[i].changeDate.date.year;
      assert rows[j].year == ys[j];
    }
  }

  // ---------------------------------------------------------------------
  // Monthly rows add up to yearly rows
  // ---------------------------------------------------------------------

  /** Two tallies that agree on every column are equal. */
  lemma SameColumns(a: Tally, b: Tally)
    requires forall c :: Get(a, c) == Get(b, c)
    ensures a == b
  {
    assert Get(a, AllRows) == Get(b, AllRows) && Get(a, Creations) == Get(b, Creations);
    assert Get(a, Updates) == Get(b, Updates) && Get(a, Deletions) == Get(b, Deletions);
    assert Get(a, WebmailRows) == Get(b, WebmailRows) && Get(a, SsoRows) == Get(b, SsoRows);
  }

  /** Column `c` summed over the monthly rows of year `y`. */
  function ColumnOfYear(rows: seq<MonthlyStat>, y: int, c: Column): nat {
    if rows == [] then 0
    else (if rows[0].year == y then Get(rows[0].counts, c) else 0) + ColumnOfYear(rows[1..], y, c)
  }

  /** The monthly rows of year `y`, added up column by column. */
  function SumOfYear(rows: seq<MonthlyStat>, y: int): Tally {
    Tally(ColumnOfYear(rows, y, AllRows), ColumnOfYear(rows, y, Creations),
          ColumnOfYear(rows, y, Updates), ColumnOfYear(rows, y, Deletions),
          ColumnOfYear(rows, y, WebmailRows), ColumnOfYear(rows, y, SsoRows))
  }

  /** How many of the rows of year `y` with keys `ks` an amount `n` filed
      under month `m` is added to, times `n`. */
  function Hits(ks: seq<YearMonth>, m: YearMonth, y: int, n: nat): nat {
    if ks == [] then 0
    else (if ks[0].year == y && m == ks[0] then n else 0) + Hits(ks[1..], m, y, n)
  }

  predicate DistinctMonths(ks: seq<YearMonth>) {
    forall i, j :: 0 <= i < j < |ks| ==> ks[i] != ks[j]
  }

  /** With distinct keys an amount lands in at most one row. */
  lemma {:induction false} HitsOnce(ks: seq<YearMonth>, m: YearMonth, y: int, n: nat)
    requires DistinctMonths(ks)
    ensures Hits(ks, m, y, n) == if m.year == y && m in ks then n else 0
  {
    if ks != [] {
      var tail := ks[1..];
      assert DistinctMonths(tail) by {
        forall i, j | 0 <= i < j < |tail| ensures tail[i] != tail[j] {
          assert tail[i] == ks[i + 1] && tail[j] == ks[j + 1];
        }
      }
      HitsOnce(tail, m, y, n);
      if m == ks[0] {
        assert m !in tail by {
          forall j | 0 <= j < |tail| ensures tail[j] != ks[0] {
            assert tail[j] == ks[j + 1];
          }
        }
      } else {
        assert m in ks <==> m in tail;
      }
    }
  }

  lemma {:induction false} ColumnNoEvents(ks: seq<YearMonth>, y: int, c: Column)
    ensures ColumnOfYear(MonthRows(ks, []), y, c) == 0
  {
    if ks != [] {
      ColumnNoEvents(ks[1..], y, c);
      var rows := MonthRows(ks, []);
      assert rows[1..] == MonthRows(ks[1..], []);
      TallyOfColumn(Filter([], InMonth(ks[0])), c);
    }
  }

  /** Peeling the log's first event off every monthly row at once. */
  lemma {:induction false} ColumnStep(ks: seq<YearMonth>, log: seq<Event>, y: int, c: Column)
    requires log != []
    ensures ColumnOfYear(MonthRows(ks, log), y, c)
      == Hits(ks, MonthOf(log[0]), y, Flag(Test(c)(log[0]))) + ColumnOfYear(MonthRows(ks, log[1..]), y, c)
  {
    if ks != [] {
      var k := ks[0];
      ColumnStep(ks[1..], log, y, c);
      GroupCountStep(log, InMonth(k), Test(c));
      TallyOfColumn(Filter(log, InMonth(k)), c);
      TallyOfColumn(Filter(log[1..], InMonth(k)), c);
      assert MonthRows(ks, log)[1..] == MonthRows(ks[1..], log);
      assert MonthRows(ks, log[1..])[1..] == MonthRows(ks[1..], log[1..]);
    }
  }

  /** Over distinct month keys covering every event of year `y`, column `c`
      of the rows of year `y` adds up to column `c` of the year. */
  lemma {:induction false} ColumnCovers(ks: seq<YearMonth>, log: seq<Event>, y: int, c: Column)
    requires DistinctMonths(ks)
    requires forall i :: 0 <= i < |log| && log[i].changeDate.date.year == y ==> MonthOf(log[i]) in ks
    ensures ColumnOfYear(MonthRows(ks, log), y, c) == Get(YearTally(log, y), c)
    decreases |log|
  {
    TallyOfColumn(Filter(log, InYear(y)), c);
    if log == [] {
      ColumnNoEvents(ks, y, c);
    } else {
      var rest := log[1..];
      assert forall i :: 0 <= i < |rest| && rest[i].changeDate.date.year == y ==> MonthOf(rest[i]) in ks by {
        forall i | 0 <= i < |rest| && rest[i].changeDate.date.year == y ensures MonthOf(rest[i]) in ks {
          assert rest[i] == log[i + 1];
        }
      }
      ColumnCovers(ks, rest, y, c);
      TallyOfColumn(Filter(rest, InYear(y)), c);
      ColumnStep(ks, log, y, c);
      HitsOnce(ks, MonthOf(log[0]), y, Flag(Test(c)(log[0])));
      GroupCountStep(log, InYear(y), Test(c));
    }
  }

  /** The route groups each month once. */
  lemma MonthKeysDistinct(log: seq<Event>)
    ensures DistinctMonths(MonthKeys(log))
  {
    var ks := MonthKeys(log);
    MonthKeysSorted(log);
    forall i, j | 0 <= i < j < |ks| ensures ks[i] != ks[j] {
      assert Later(ks[i], ks[j]);
    }
  }

  /** For every year, the monthly rows of that year add up, column by column,
      to that year's yearly columns (and to nothing for a year without events). */
  lemma MonthlySumsToYearly(log: seq<Event>, y: int)
    ensures SumOfYear(MonthlyStats(log), y) == YearTally(log, y)
  {
    var ks := MonthKeys(log);
    MonthKeysDistinct(log);
    var rows := MonthlyStats(log);
    forall c ensures Get(SumOfYear(rows, y), c) == Get(YearTally(log, y), c) {
      ColumnCovers(ks, log, y, c);
    }
    SameColumns(SumOfYear(rows, y), YearTally(log, y));
  }

  /** The cross-view identity the dashboard's two tabs rely on: each yearly row
      equals the sum of that year's monthly rows. */
  lemma YearlyRowsAreMonthlySums(log: seq<Event>, i: nat)
    requires i < |YearlyStats(log)|
    ensures SumOfYear(MonthlyStats(log), YearlyStats(log)[i].year) == YearlyStats(log)[i].counts
  {
    YearlyStatsShape(log);
    MonthlySumsToYearly(log, YearlyStats(log)[i].year);
  }

  // ---------------------------------------------------------------------
  // Per-type statistics
  // ---------------------------------------------------------------------

  /** One `typeStats` row: `change_type`, `COUNT(*)`, and its account type. */
  datatype TypeStat = TypeStat(changeType: string, count: nat, accountType: string)

  function HasType(t: string): Event -> bool {
    (e: Event) => e.changeType == t
  }

  /** Number of events with exactly this change type. */
  function TypeCount(log: seq<Event>, t: string): nat {
    Count(log, HasType(t))
  }

  predicate DistinctTypes(ts: seq<string>) {
    forall i, j :: 0 <= i < j < |ts| ==> ts[i] != ts[j]
  }

  /** The distinct change types of the log (`GROUP BY change_type`). */
  function TypeKeys(log: seq<Event>): (ts: seq<string>)
    ensures forall i :: 0 <= i < |log| ==> log[i].changeType in ts
    ensures forall t :: t in ts ==> exists i :: 0 <= i < |log| && log[i].changeType == t
  {
    if log == [] then []
    else
      var rest := TypeKeys(log[1..]);
      var r := if log[0].changeType in rest then rest else [log[0].changeType] + rest;
      assert forall i :: 0 <= i < |log| ==> log[i].changeType in r by {
        forall i | 0 <= i < |log| ensures log[i].changeType in r {
          if i > 0 {
            assert log[i] == log[1..][i - 1];
          }
        }
      }
      assert forall t :: t in r ==> exists i :: 0 <= i < |log| && log[i].changeType == t by {
        forall t | t in r ensures exists i :: 0 <= i < |log| && log[i].changeType == t {
          if t != log[0].changeType {
            var i :| 0 <= i < |log[1..]| && log[1..][i].changeType == t;
            assert log[i + 1].changeType == t;
          }
        }
      }
      r
  }

  lemma {:induction false} TypeKeysDistinct(log: seq<Event>)
    ensures DistinctTypes(TypeKeys(log))
  {
    if log != [] {
      TypeKeysDistinct(log[1..]);
      var rest := TypeKeys(log[1..]);
      if log[0].changeType !in rest {
        var r := [log[0].changeType] + rest;
        forall i, j | 0 <= i < j < |r| ensures r[i] != r[j] {
          assert r[j] == rest[j - 1];
          if i > 0 {
            assert r[i] == rest[i - 1];
          }
        }
      }
    }
  }

  function TypeRow(log: seq<Event>, t: string): TypeStat {
    TypeStat(t, TypeCount(log, t), AccountTypeLabel(t))
  }

  function TypeRows(ts: seq<string>, log: seq<Event>): (rows: seq<TypeStat>)
    ensures |rows| == |ts|
  {
    if ts == [] then [] else [TypeRow(log, ts[0])] + TypeRows(ts[1..], log)
  }

  lemma {:induction false} TypeRowsAt(ts: seq<string>, log: seq<Event>, i: nat)
    requires i < |ts|
    ensures TypeRows(ts, log)[i] == TypeRow(log, ts[i])
    decreases i
  {
    if i > 0 {
      TypeRowsAt(ts[1..], log, i - 1);
    }
  }

  function StatCount(s: TypeStat): int {
    s.count
  }

  /** `ORDER BY count DESC` over one row per change type. */
  function TypeStats(log: seq<Event>): seq<TypeStat> {
    SortDesc(TypeRows(TypeKeys(log), log), StatCount)
  }

  /** Every per-type row carries its change type's exact count, at least
      one, and its account type. */
  lemma TypeStatsRow(log: seq<Event>, i: nat)
    requires i < |TypeStats(log)|
    ensures var r := TypeStats(log)[i];
      && r.count == TypeCount(log, r.changeType)
      && r.count >= 1
      && r.accountType == AccountTypeLabel(r.changeType)
  {
    var ts := TypeKeys(log);
    var unsorted := TypeRows(ts, log);
    var r := TypeStats(log)[i];
    assert r in multiset(unsorted);
    var k :| 0 <= k < |unsorted| && unsorted[k] == r;
    TypeRowsAt(ts, log, k);
    assert ts[k] in ts;
    var m :| 0 <= m < |log| && log[m].changeType == ts[k];
    FilterKeeps(log, HasType(ts[k]), log[m]);
    CountIsFilterLength(log, HasType(ts[k]));
  }

  /** The per-type rows are largest count first, and every change type that
      occurs has a row. */
  lemma TypeStatsOrderAndCover(log: seq<Event>)
    ensures var rows := TypeStats(log);
      && (forall i, j :: 0 <= i < j < |rows| ==> rows[i].count >= rows[j].count)
      && (forall i :: 0 <= i < |log| ==> exists j :: 0 <= j < |rows| && rows[j].changeType == log[i].changeType)
  {
    var ts := TypeKeys(log);
    var unsorted := TypeRows(ts, log);
    var rows := TypeStats(log);
    forall i | 0 <= i < |log| ensures exists j :: 0 <= j < |rows| && rows[j].changeType == log[i].changeType {
      var k :| 0 <= k < |ts| && ts[k] == log[i].changeType;
      TypeRowsAt(ts, log, k);
      assert unsorted[k] in multiset(rows);
      var j :| 0 <= j < |rows| && rows[j] == unsorted[k];
    }
  }

  function SumCounts(rows: seq<TypeStat>): nat {
    if rows == [] then 0 else rows[0].count + SumCounts(rows[1..])
  }

  /** How many of the types `ts` an event of type `t` is counted under. */
  function TypeHits(ts: seq<string>, t: string): nat {
    if ts == [] then 0 else Flag(t == ts[0]) + TypeHits(ts[1..], t)
  }

  lemma {:induction false} TypeHitsOnce(ts: seq<string>, t: string)
    requires DistinctTypes(ts)
    ensures TypeHits(ts, t) == Flag(t in ts)
  {
    if ts != [] {
      var tail := ts[1..];
      assert DistinctTypes(tail) by {
        forall i, j | 0 <= i < j < |tail| ensures tail[i] != tail[j] {
          assert tail[i] == ts[i + 1] && tail[j] == ts[j + 1];
        }
      }
      TypeHitsOnce(tail, t);
      if t == ts[0] {
        assert t !in tail by {
          forall j | 0 <= j < |tail| ensures tail[j] != ts[0] {
            assert tail[j] == ts[j + 1];
          }
        }
      } else {
        assert t in ts <==> t in tail;
      }
    }
  }

  lemma {:induction false} TypeRowsStep(ts: seq<string>, log: seq<Event>)
    requires log != []
    ensures SumCounts(TypeRows(ts, log)) == TypeHits(ts, log[0].changeType) + SumCounts(TypeRows(ts, log[1..]))
  {
    if ts != [] {
      TypeRowsStep(ts[1..], log);
      assert TypeRows(ts, log)[1..] == TypeRows(ts[1..], log);
      assert TypeRows(ts, log[1..])[1..] == TypeRows(ts[1..], log[1..]);
    }
  }

  lemma {:induction false} TypeRowsNoEvents(ts: seq<string>)
    ensures SumCounts(TypeRows(ts, [])) == 0
  {
    if ts != [] {
      TypeRowsNoEvents(ts[1..]);
      assert TypeRows(ts, [])[1..] == TypeRows(ts[1..], []);
    }
  }

  lemma {:induction false} TypeRowsCover(ts: seq<string>, log: seq<Event>)
    requires DistinctTypes(ts)
    requires forall i :: 0 <= i < |log| ==> log[i].changeType in ts
    ensures SumCounts(TypeRows(ts, log)) == |log|
    decreases |log|
  {
    if log == [] {
      TypeRowsNoEvents(ts);
    } else {
      var rest := log[1..];
      assert forall i :: 0 <= i < |rest| ==> rest[i].changeType in ts by {
        forall i | 0 <= i < |rest| ensures rest[i].changeType in ts {
          assert rest[i] == log[i + 1];
        }
      }
      TypeRowsCover(ts, rest);
      TypeRowsStep(ts, log);
      TypeHitsOnce(ts, log[0].changeType);
    }
  }

  lemma {:induction false} SumCountsInsert(x: TypeStat, rows: seq<TypeStat>)
    ensures SumCounts(InsertDesc(x, rows, StatCount)) == x.count + SumCounts(rows)
    decreases |rows|
  {
    if rows != [] && StatCount(x) < StatCount(rows[0]) {
      SumCountsInsert(x, rows[1..]);
    }
  }

  lemma {:induction false} SumCountsSort(rows: seq<TypeStat>)
    ensures SumCounts(SortDesc(rows, StatCount)) == SumCounts(rows)
    decreases |rows|
  {
    if rows != [] {
      SumCountsSort(rows[1..]);
      SumCountsInsert(rows[0], SortDesc(rows[1..], StatCount));
    }
  }

  /** The per-type counts add up to the number of events in the log. */
  lemma TypeCountsSumToLogSize(log: seq<Event>)
    ensures SumCounts(TypeStats(log)) == |log|
  {
    var ts := TypeKeys(log);
    TypeKeysDistinct(log);
    TypeRowsCover(ts, log);
    SumCountsSort(TypeRows(ts, log));
  }
}

=== FILE: emp_no.dfy ===
/**
 * Employee numbers (`emp_no`) of SSO users: `Z`, the four-digit year, and a
 * per-year sequence number zero-padded to three digits (`Z2024001`).
 * The next number is read off the code that sorts LAST as text among the
 * codes of the current year, which is what `ORDER BY emp_no DESC LIMIT 1`
 * returns; its sequence number is `parseInt(code.substring(5), 10)`.
 */
module EmpNo {
  import opened Wrappers
  import opened Strings
  import opened Seqs

  /** Width the sequence number is padded to. */
  const SequenceWidth: nat := 3
  /** Where the sequence number is read from: just past `Z` and a four-digit year. */
  const SequenceStart: nat := 5
  /** What a sequence number that is not a number (JavaScript's NaN) prints as. */
  const NotANumber: string := "NaN"

  /** The `LIKE 'Z<year>%'` pattern without its wildcard. */
  function YearPrefix(year: nat): (p: string)
    ensures |p| >= 2 && p[0] == 'Z' && AllDigits(p[1..])
    ensures DigitsValue(p[1..]) == year
  {
    var d := NatToString(year);
    DigitsOfNatToString(year);
    assert ("Z" + d)[1..] == d;
    "Z" + d
  }

  /** Four-digit years give the five-character prefix `substring(5)` skips. */
  lemma FourDigitYear(year: nat)
    requires 1000 <= year < 10000
    ensures |YearPrefix(year)| == SequenceStart
  {
    NatToStringLength(year);
  }

  /** The code matches `LIKE 'Z<year>%'`. */
  function InYear(year: nat): string -> bool {
    code => YearPrefix(year) <= code
  }

  /** `n.toString().padStart(3, '0')`. */
  function SequenceText(n: nat): (t: string)
    ensures |t| >= SequenceWidth
  {
    PadStart(NatToString(n), SequenceWidth, '0')
  }

  /** The padded text is a digit string worth `n`; three characters long
      exactly when `n` has at most three digits. */
  lemma SequenceTextDigits(n: nat)
    ensures AllDigits(SequenceText(n)) && DigitsValue(SequenceText(n)) == n
    ensures n < 1000 <==> |SequenceText(n)| == SequenceWidth
  {
    var d := NatToString(n);
    var t := SequenceText(n);
    var z := t[..|t| - |d|];
    assert t == z + d;
    DigitsOfNatToString(n);
    DigitsLeadingZeros(z, d);
    NatToStringLength(n);
  }

  /** The code for year `year` and sequence number `n`. */
  function Code(year: nat, n: nat): (code: string)
    ensures YearPrefix(year) <= code
  {
    YearPrefix(year) + SequenceText(n)
  }

  /** The sequence number of a code as the generator reads it:
      `parseInt(code.substring(5), 10)`, `None` standing for NaN. */
  function SequenceOf(code: string): Option<nat> {
    ParseInt(Substring(code, SequenceStart))
  }

  /** Reading back the sequence number of a code gives the number it was made from. */
  lemma CodeRoundTrip(year: nat, n: nat)
    requires 1000 <= year < 10000
    ensures SequenceOf(Code(year, n)) == Some(n)
  {
    FourDigitYear(year);
    var c := Code(year, n);
    assert c[SequenceStart..] == SequenceText(n);
    SequenceTextDigits(n);
    ParseIntAllDigits(SequenceText(n));
  }

  /** The text-wise greatest string, `ORDER BY ... DESC LIMIT 1`. */
  function LexMax(s: seq<string>): (r: Option<string>)
    ensures r.None? <==> s == []
    ensures r.Some? ==> r.value in s
  {
    if s == [] then None
    else match LexMax(s[1..])
      case None => Some(s[0])
      case Some(m) => if LexLess(m, s[0]) then Some(s[0]) else Some(m)
  }

  /** Nothing sorts after the maximum. */
  lemma {:induction false} LexMaxIsGreatest(s: seq<string>)
    ensures LexMax(s).Some? ==> forall i :: 0 <= i < |s| ==> !LexLess(LexMax(s).value, s[i])
  {
    if s != [] {
      LexMaxIsGreatest(s[1..]);
      var r := LexMax(s).value;
      forall i | 0 <= i < |s| ensures !LexLess(r, s[i]) {
        LexLessTrichotomy(r, s[i]);
        if i > 0 {
          assert s[i] == s[1..][i - 1];
          var m := LexMax(s[1..]).value;
          if r != m {
            // r == s[0] sorts after m, and m does not sort before s[i]
            LexLessTrichotomy(m, s[i]);
            if LexLess(r, s[i]) {
              LexLessTransitive(m, r, s[i]);
            }
          }
        } else {
          LexLessTrichotomy(r, s[0]);
        }
      }
    }
  }

  /** The code the lookup query returns: the greatest code of the year, if any. */
  function LastCodeOfYear(codes: seq<string>, year: nat): (last: Option<string>)
    ensures last.Some? ==> last.value in codes && YearPrefix(year) <= last.value
  {
    LexMax(Filter(codes, InYear(year)))
  }

  /** The lookup finds nothing exactly when no code starts with the year prefix,
      and otherwise no code of the year sorts after what it finds. */
  lemma LastCodeOfYearSpec(codes: seq<string>, year: nat)
    ensures LastCodeOfYear(codes, year).None? <==> forall i :: 0 <= i < |codes| ==> !(YearPrefix(year) <= codes[i])
    ensures LastCodeOfYear(codes, year).Some? ==>
      forall i :: 0 <= i < |codes| && YearPrefix(year) <= codes[i] ==> !LexLess(LastCodeOfYear(codes, year).value, codes[i])
  {
    var ys := Filter(codes, InYear(year));
    LexMaxIsGreatest(ys);
    forall i | 0 <= i < |codes| && YearPrefix(year) <= codes[i] ensures codes[i] in ys {
      FilterKeeps(codes, InYear(year), codes[i]);
    }
  }

  /** The next sequence number: one past the last code's, 1 when the year has
      no code yet, NaN (`None`) when the last code's does not parse. */
  function NextSequence(last: Option<string>): (next: Option<nat>)
    ensures last.None? ==> next == Some(1)
    ensures next.Some? && last.Some? ==> SequenceOf(last.value) == Some(next.value - 1)
    ensures next.None? <==> last.Some? && SequenceOf(last.value).None?
  {
    match last
    case None => Some(1)
    case Some(code) =>
      match SequenceOf(code)
      case None => None
      case Some(v) => Some(v + 1)
  }

  /** How the sequence number is printed into the code. */
  function RenderSequence(next: Option<nat>): string {
    match next
    case Some(n) => SequenceText(n)
    case None => NotANumber
  }

  /** The employee number the create routes assign in `year`, given every
      existing `emp_no`. */
  function NextEmpNo(codes: seq<string>, year: nat): (code: string)
    ensures YearPrefix(year) <= code
  {
    YearPrefix(year) + RenderSequence(NextSequence(LastCodeOfYear(codes, year)))
  }

  /** The first code of a year is `Z<year>001`. */
  lemma FirstCodeOfYear(codes: seq<string>, year: nat)
    requires forall i :: 0 <= i < |codes| ==> !(YearPrefix(year) <= codes[i])
    ensures NextEmpNo(codes, year) == Code(year, 1) == YearPrefix(year) + "001"
  {
    LastCodeOfYearSpec(codes, year);
    assert NatToString(1) == "1";
  }

  /** A code the generator itself could have produced in `year` with a
      sequence number of at most three digits. */
  predicate ThreeDigitCode(year: nat, code: string) {
    && |code| == SequenceStart + SequenceWidth
    && YearPrefix(year) <= code
    && AllDigits(code[SequenceStart..])
  }

  /** Equal-length digit strings of equal value are equal. */
  lemma {:induction false} DigitsInjective(a: string, b: string)
    requires |a| == |b| && AllDigits(a) && AllDigits(b)
    requires DigitsValue(a) == DigitsValue(b)
    ensures a == b
    decreases |a|
  {
    if a != [] {
      var a', b' := a[..|a| - 1], b[..|b| - 1];
      var x, y := DigitValue(a[|a| - 1]), DigitValue(b[|b| - 1]);
      assert DigitsValue(a) == DigitsValue(a') * 10 + x;
      assert DigitsValue(b) == DigitsValue(b') * 10 + y;
      assert x == y && DigitsValue(a') == DigitsValue(b');
      DigitsInjective(a', b');
      assert a == a' + [a[|a| - 1]] && b == b' + [b[|b| - 1]];
    }
  }

  /** An order decided before the end of two equal-length strings survives
      appending anything. */
  lemma {:induction false} LexLessExtend(a: string, b: string, c: string, d: string)
    requires |a| == |b| && LexLess(a, b)
    ensures LexLess(a + c, b + d)
    decreases |a|
  {
    if a[0] == b[0] {
      assert (a + c)[1..] == a[1..] + c;
      assert (b + d)[1..] == b[1..] + d;
      LexLessExtend(a[1..], b[1..], c, d);
    }
  }

  /** For equal-length digit strings the text order is the numeric order. */
  lemma {:induction false} DigitsOrder(a: string, b: string)
    requires |a| == |b| && AllDigits(a) && AllDigits(b)
    requires DigitsValue(a) < DigitsValue(b)
    ensures LexLess(a, b)
    decreases |a|
  {
    var a', b' := a[..|a| - 1], b[..|b| - 1];
    var x, y := a[|a| - 1], b[|b| - 1];
    assert a == a' + [x] && b == b' + [y];
    assert DigitsValue(a) == DigitsValue(a') * 10 + DigitValue(x);
    assert DigitsValue(b) == DigitsValue(b') * 10 + DigitValue(y);
    if DigitsValue(a') < DigitsValue(b') {
      DigitsOrder(a', b');
      LexLessExtend(a', b', [x], [y]);
    } else {
      assert DigitsValue(a') == DigitsValue(b');
      DigitsInjective(a', b');
      assert LexLess([x], [y]);
      LexLessCommonPrefix(a', [x], [y]);
    }
  }

  /** When every code of the year has a three-digit sequence number, the
      generated code's sequence number is larger than every one of them. */
  lemma NextEmpNoExceedsAll(codes: seq<string>, year: nat)
    requires 1000 <= year < 10000
    requires forall i :: 0 <= i < |codes| && YearPrefix(year) <= codes[i] ==> ThreeDigitCode(year, codes[i])
    ensures SequenceOf(NextEmpNo(codes, year)).Some?
    ensures forall i :: 0 <= i < |codes| && YearPrefix(year) <= codes[i] ==>
      SequenceOf(codes[i]).Some? && SequenceOf(codes[i]).value < SequenceOf(NextEmpNo(codes, year)).value
  {
    FourDigitYear(year);
    LastCodeOfYearSpec(codes, year);
    var p := YearPrefix(year);
    var last := LastCodeOfYear(codes, year);
    if last.None? {
      CodeRoundTrip(year, 1);
    } else {
      var l := last.value;
      var s := l[SequenceStart..];
      assert l == p + s;
      ParseIntAllDigits(s);
      var v := DigitsValue(s);
      assert NextEmpNo(codes, year) == Code(year, v + 1);
      CodeRoundTrip(year, v + 1);
      forall i | 0 <= i < |codes| && p <= codes[i]
        ensures SequenceOf(codes[i]).Some? && SequenceOf(codes[i]).value <= v
      {
        var si := codes[i][SequenceStart..];
        assert codes[i] == p + si;
        ParseIntAllDigits(si);
        if DigitsValue(si) > v {
          DigitsOrder(s, si);
          LexLessCommonPrefix(p, s, si);
        }
      }
    }
  }

  /** For a four-digit year the generated code's sequence number reads back as
      the next sequence number: one past the last code's, 1 when the year has
      no code yet, and NaN when the last code's does not parse. */
  lemma NextEmpNoFollowsLast(codes: seq<string>, year: nat)
    requires 1000 <= year < 10000
    ensures SequenceOf(NextEmpNo(codes, year)) == NextSequence(LastCodeOfYear(codes, year))
    ensures LastCodeOfYear(codes, year).None? ==> SequenceOf(NextEmpNo(codes, year)) == Some(1)
    ensures LastCodeOfYear(codes, year).Some? && SequenceOf(LastCodeOfYear(codes, year).value).Some? ==>
      SequenceOf(NextEmpNo(codes, year)) == Some(SequenceOf(LastCodeOfYear(codes, year).value).value + 1)
  {
    var last := LastCodeOfYear(codes, year);
    var next := NextSequence(last);
    if next.Some? {
      assert NextEmpNo(codes, year) == Code(year, next.value);
      CodeRoundTrip(year, next.value);
    } else {
      FourDigitYear(year);
      assert NextEmpNo(codes, year)[SequenceStart..] == NotANumber;
    }
  }

  /** `codes[i]` is a code of the year whose sequence number no code of the
      year exceeds. */
  predicate GreatestOfYear(codes: seq<string>, year: nat, i: int) {
    && 0 <= i < |codes| && YearPrefix(year) <= codes[i] && SequenceOf(codes[i]).Some?
    && forall j :: 0 <= j < |codes| && YearPrefix(year) <= codes[j] ==>
         SequenceOf(codes[j]).Some? && SequenceOf(codes[j]).value <= SequenceOf(codes[i]).value
  }

  /** While every code of the year has a three-digit sequence number, the
      generated one is exactly one past the greatest of them. */
  lemma NextEmpNoOnePastGreatest(codes: seq<string>, year: nat)
    requires 1000 <= year < 10000
    requires forall i :: 0 <= i < |codes| && YearPrefix(year) <= codes[i] ==> ThreeDigitCode(year, codes[i])
    requires exists i :: 0 <= i < |codes| && YearPrefix(year) <= codes[i]
    ensures exists i :: (GreatestOfYear(codes, year, i)
      && SequenceOf(NextEmpNo(codes, year)) == Some(SequenceOf(codes[i]).value + 1))
  {
    var k :| 0 <= k < |codes| && YearPrefix(year) <= codes[k];
    var last := LastCodeOfYear(codes, year);
    assert last.Some? by {
      LastCodeOfYearSpec(codes, year);
    }
    var l := last.value;
    var i :| 0 <= i < |codes| && codes[i] == l;
    NextEmpNoExceedsAll(codes, year);
    var next := SequenceOf(NextEmpNo(codes, year)).value;
    assert SequenceOf(l).Some?;
    assert next == SequenceOf(l).value + 1 by {
      NextEmpNoFollowsLast(codes, year);
    }
    assert SequenceOf(NextEmpNo(codes, year)) == Some(next);
    assert SequenceOf(codes[i]) == SequenceOf(l);
    assert GreatestOfYear(codes, year, i);
  }

  /** Under the same condition the generated code is new. */
  lemma NextEmpNoFresh(codes: seq<string>, year: nat)
    requires 1000 <= year < 10000
    requires forall i :: 0 <= i < |codes| && YearPrefix(year) <= codes[i] ==> ThreeDigitCode(year, codes[i])
    ensures NextEmpNo(codes, year) !in codes
  {
    NextEmpNoExceedsAll(codes, year);
  }

  lemma Prefix2024()
    ensures YearPrefix(2024) == "Z2024"
  {
    assert NatToString(2024) == "2024";
  }

  lemma Sequence999()
    ensures SequenceOf("Z2024999") == Some(999)
    ensures RenderSequence(NextSequence(Some("Z2024999"))) == "1000"
  {
    assert Substring("Z2024999", SequenceStart) == "999";
    assert DigitsValue("999") == 999 by {
      assert "999"[..2] == "99" && "99"[..1] == "9";
    }
    ParseIntAllDigits("999");
    assert NatToString(1000) == "1000";
  }

  lemma LastOf999()
    ensures LastCodeOfYear(["Z2024999"], 2024) == Some("Z2024999")
  {
    Prefix2024();
    assert InYear(2024)("Z2024999");
    assert Filter(["Z2024999"], InYear(2024)) == ["Z2024999"];
  }

  /** The thousandth code of a year is the first with four sequence digits. */
  lemma NextEmpNoAfter999()
    ensures NextEmpNo(["Z2024999"], 2024) == "Z20241000"
  {
    Prefix2024();
    Sequence999();
    LastOf999();
  }

  lemma LastOf999And1000()
    ensures LastCodeOfYear(["Z2024999", "Z20241000"], 2024) == Some("Z2024999")
  {
    Prefix2024();
    var a, b := "Z2024999", "Z20241000";
    assert Filter([a, b], InYear(2024)) == [a, b] by {
      assert InYear(2024)(a) && InYear(2024)(b);
      assert [a, b][1..] == [b];
      assert Filter([b], InYear(2024)) == [b];
    }
    assert LexMax([a, b]) == Some(a) by {
      assert LexLess(b, a);
      assert [a, b][1..] == [b];
    }
  }

  /** Past the thousandth code of a year the generator repeats itself:
      `Z20241000` sorts before `Z2024999`, so the lookup keeps finding 999
      and proposes a number that is already taken. */
  lemma NextEmpNoRepeatsPast999()
    ensures NextEmpNo(["Z2024999", "Z20241000"], 2024) == "Z20241000"
  {
    Prefix2024();
    Sequence999();
    LastOf999And1000();
  }

  /** A last code whose tail is not a number yields the literal `NaN`. */
  lemma NextEmpNoNotANumber()
    ensures NextEmpNo(["Z2024"], 2024) == "Z2024NaN"
  {
    assert NatToString(2024) == "2024";
    assert YearPrefix(2024) == "Z2024";
    assert InYear(2024)("Z2024");
    assert Substring("Z2024", SequenceStart) == [];
  }
}

=== FILE: entities.dfy ===
/**
 * The rows of the `users` and `user_webmail_accounts` tables, and the
 * database state the write paths change. Ids come from AUTO_INCREMENT
 * counters, modelled as the next id to hand out.
 */
module Entities {
  import opened Wrappers
  import opened Seqs
  import opened History

  /** The `users.status` ENUM: registered, locked, deleted. */
  const StatusRegistered: string := "등록"
  const StatusLocked: string := "잠금"
  const StatusDeleted: string := "삭제"

  /** Column defaults of `user_webmail_accounts`, also applied by the create route. */
  const DefaultRole: string := "일반"
  const DefaultMailStatus: string := "정상"
  const DefaultApproval: string := "승인대기"
  const DefaultOtp: string := "사용안함"

  /** One `users` row (an SSO user). */
  datatype User = User(
    id: nat,
    empNo: string,
    name: string,
    organization: string,
    department: string,
    employeeType: string,
    vendorName: Option<string>,
    duty: Option<string>,
    workScope: Option<string>,
    requester: string,
    status: string,
    regDate: Option<Date>,
    lockDate: Option<Date>,
    deleteDate: Option<Date>)

  /** One `user_webmail_accounts` row. `userId` is NULL for a shared mailbox. */
  datatype WebmailAccount = WebmailAccount(
    id: nat,
    userId: Option<nat>,
    mailName: string,
    mailId: string,
    mailPassword: string,
    department: Option<string>,
    role: string,
    status: string,
    approvalStatus: string,
    otpUsage: string,
    mailManagerEmpNo: Option<string>)

  /** The three tables and their AUTO_INCREMENT counters. */
  datatype Store = Store(
    users: seq<User>,
    accounts: seq<WebmailAccount>,
    history: seq<Event>,
    nextUserId: nat,
    nextAccountId: nat,
    nextEventId: nat)

  /** `users.id` is a primary key. */
  predicate UniqueUserIds(users: seq<User>) {
    forall i, j :: 0 <= i < j < |users| ==> users[i].id != users[j].id
  }

  /** `users.emp_no` is UNIQUE. */
  predicate UniqueEmpNos(users: seq<User>) {
    forall i, j :: 0 <= i < j < |users| ==> users[i].empNo != users[j].empNo
  }

  /** What the database guarantees between requests: primary keys are unique
      and every counter is past every id handed out so far. */
  predicate Valid(st: Store) {
    && UniqueUserIds(st.users)
    && (forall i :: 0 <= i < |st.users| ==> st.users[i].id < st.nextUserId)
    && (forall i :: 0 <= i < |st.accounts| ==> st.accounts[i].id < st.nextAccountId)
    && (forall i :: 0 <= i < |st.history| ==> st.history[i].id < st.nextEventId)
  }

  /** All `emp_no` values, in table order. */
  function EmpNos(users: seq<User>): (codes: seq<string>)
    ensures |codes| == |users|
    ensures forall i :: 0 <= i < |users| ==> codes[i] == users[i].empNo
  {
    if users == [] then [] else [users[0].empNo] + EmpNos(users[1..])
  }

  /** Appending a row whose id is past the counter keeps the store valid. */
  lemma {:induction false} AppendUserKeepsValid(st: Store, u: User, e: Event)
    requires Valid(st) && u.id == st.nextUserId && e.id == st.nextEventId
    ensures Valid(st.(users := st.users + [u], history := st.history + [e],
                      nextUserId := st.nextUserId + 1, nextEventId := st.nextEventId + 1))
  {
    var us := st.users + [u];
    forall i, j | 0 <= i < j < |us| ensures us[i].id != us[j].id {
      if j == |us| - 1 {
        assert us[i].id < st.nextUserId;
      } else {
        assert us[i] == st.users[i] && us[j] == st.users[j];
      }
    }
  }

  /** The join condition `user_id = u.id`; NULL matches nothing. */
  function HasId(id: Option<nat>): User -> bool {
    (u: User) => id == Some(u.id)
  }

  /** On a primary key at most one user matches an id. */
  lemma {:induction false} AtMostOneUserPerId(users: seq<User>, id: Option<nat>)
    requires UniqueUserIds(users)
    ensures |Filter(users, HasId(id))| <= 1
    decreases |users|
  {
    if users != [] {
      var rest := users[1..];
      assert UniqueUserIds(rest) by {
        forall i, j | 0 <= i < j < |rest| ensures rest[i].id != rest[j].id {
          assert rest[i] == users[i + 1] && rest[j] == users[j + 1];
        }
      }
      AtMostOneUserPerId(rest, id);
      if id == Some(users[0].id) {
        NoOtherUserHasId(users, id);
      }
    }
  }

  lemma NoOtherUserHasId(users: seq<User>, id: Option<nat>)
    requires UniqueUserIds(users) && users != [] && id == Some(users[0].id)
    ensures Filter(users[1..], HasId(id)) == []
  {
    var rest := users[1..];
    forall i | 0 <= i < |rest| ensures !HasId(id)(rest[i]) {
      assert rest[i] == users[i + 1];
    }
    FilterNone(rest, HasId(id));
  }
}

=== FILE: history.dfy ===
/**
 * The audit log (`user_history`): one row per change to an SSO user or a
 * webmail account. Rows are only ever appended. The change type is free
 * text; everything the dashboard derives from it is a substring test on
 * one of four Korean markers.
 */
module History {
  import opened Wrappers
  import opened Strings

  /** Marker whose presence in a change type makes it a webmail change. */
  const EmailMarker: string := "이메일"
  /** Markers counted as creation, modification and deletion. */
  const CreateMarker: string := "생성"
  const UpdateMarker: string := "수정"
  const DeleteMarker: string := "삭제"

  /** Account-type labels the dashboard query emits. */
  const SsoLabel: string := "SSO"
  const WebmailLabel: string := "웹메일"

  /** Actor recorded when the request names nobody. */
  const SystemActor: string := "system"

  /** The change types the create routes log. */
  const UserCreated: string := "사용자 생성"
  const AccountCreated: string := "이메일 계정 생성"
  const SharedAccountCreated: string := "이메일 계정 생성 (공용)"

  /** A calendar date, as `DATE(change_date)` yields it. */
  datatype Date = Date(year: int, month: int, day: int)

  /** `a <= b` on dates, which is what comparing `DATE(...)` with a date does. */
  predicate DateAtMost(a: Date, b: Date) {
    a.year < b.year
    || (a.year == b.year && a.month < b.month)
    || (a.year == b.year && a.month == b.month && a.day <= b.day)
  }

  /** `n` in decimal, zero-padded to `width`. */
  function Padded(n: nat, width: nat): string {
    PadStart(NatToString(n), width, '0')
  }

  /** A number with at most `width` digits pads to exactly `width` digits
      worth `n`. */
  lemma PaddedDigits(n: nat, width: nat)
    requires (width == 2 && n < 100) || (width == 4 && n < 10000)
    ensures |Padded(n, width)| == width
    ensures AllDigits(Padded(n, width)) && DigitsValue(Padded(n, width)) == n
  {
    var d := NatToString(n);
    var t := Padded(n, width);
    NatToStringLength(n);
    var z := t[..|t| - |d|];
    assert t == z + d;
    DigitsOfNatToString(n);
    DigitsLeadingZeros(z, d);
  }

  /** A date in a date input's `YYYY-MM-DD` form. */
  function DateText(d: Date): string
    requires 0 <= d.year < 10000 && 0 <= d.month < 100 && 0 <= d.day < 100
  {
    Padded(d.year, 4) + "-" + Padded(d.month, 2) + "-" + Padded(d.day, 2)
  }

  /** Text of the form `DDDD-DD-DD`. */
  predicate DateShape(t: string) {
    && |t| == 10 && t[4] == '-' && t[7] == '-'
    && AllDigits(t[..4]) && AllDigits(t[5..7]) && AllDigits(t[8..])
  }

  /** The date a `YYYY-MM-DD` text names, or `None` for any other text. */
  function ParseDate(t: string): (r: Option<Date>)
    ensures r.Some? <==> DateShape(t)
    ensures r.Some? ==> 0 <= r.value.year < 10000 && 0 <= r.value.month < 100 && 0 <= r.value.day < 100
  {
    if DateShape(t) then
      DigitsBelow(t[..4]);
      DigitsBelow(t[5..7]);
      DigitsBelow(t[8..]);
      Some(Date(DigitsValue(t[..4]), DigitsValue(t[5..7]), DigitsValue(t[8..])))
    else None
  }

  /** Two digits are worth less than 100, four less than 10000. */
  lemma {:induction false} DigitsBelow(s: string)
    requires AllDigits(s) && |s| <= 4
    ensures |s| <= 2 ==> DigitsValue(s) < 100
    ensures DigitsValue(s) < 10000
  {
    DigitsBound(s);
    assert Power10(2) == 100 && Power10(4) == 10000;
    assert Power10(1) == 10 && Power10(3) == 1000;
  }

  /** 10^k. */
  function Power10(k: nat): nat {
    if k == 0 then 1 else 10 * Power10(k - 1)
  }

  /** A digit string of length `k` is worth less than 10^k. */
  lemma {:induction false} DigitsBound(s: string)
    requires AllDigits(s)
    ensures DigitsValue(s) < Power10(|s|)
    decreases |s|
  {
    if s != [] {
      assert AllDigits(s[..|s| - 1]);
      DigitsBound(s[..|s| - 1]);
    }
  }

  /** Four, two and two digits joined by dashes read back as their values. */
  lemma ParseDateOfParts(y: string, m: string, d: string)
    requires |y| == 4 && |m| == 2 && |d| == 2
    requires AllDigits(y) && AllDigits(m) && AllDigits(d)
    ensures ParseDate(y + "-" + m + "-" + d) == Some(Date(DigitsValue(y), DigitsValue(m), DigitsValue(d)))
  {
    var t := y + "-" + m + "-" + d;
    assert |t| == 10 && t[4] == '-' && t[7] == '-';
    assert t[..4] == y;
    assert t[5..7] == m;
    assert t[8..] == d;
  }

  /** Reading back a date's text gives the date. */
  lemma ParseDateText(d: Date)
    requires 0 <= d.year < 10000 && 0 <= d.month < 100 && 0 <= d.day < 100
    ensures ParseDate(DateText(d)) == Some(d)
  {
    PaddedDigits(d.year, 4);
    PaddedDigits(d.month, 2);
    PaddedDigits(d.day, 2);
    ParseDateOfParts(Padded(d.year, 4), Padded(d.month, 2), Padded(d.day, 2));
  }

  /** The `change_date` TIMESTAMP: a date and the second within that day. */
  datatype Timestamp = Timestamp(date: Date, second: nat)

  predicate ValidTimestamp(t: Timestamp) {
    1 <= t.date.month <= 12 && 1 <= t.date.day <= 31 && t.second < 86400
  }

  /** `a` happened strictly before `b`. */
  predicate Earlier(a: Timestamp, b: Timestamp) {
    (DateAtMost(a.date, b.date) && a.date != b.date)
    || (a.date == b.date && a.second < b.second)
  }

  /** A number that increases with time: the sort key for `ORDER BY change_date`. */
  function Rank(t: Timestamp): int {
    ((t.date.year * 13 + t.date.month) * 32 + t.date.day) * 86400 + t.second
  }

  /** On well-formed timestamps the rank orders events chronologically. */
  lemma RankIsChronological(a: Timestamp, b: Timestamp)
    requires ValidTimestamp(a) && ValidTimestamp(b)
    ensures Rank(a) < Rank(b) <==> Earlier(a, b)
    ensures Rank(a) == Rank(b) <==> a == b
  {
    var da := (a.date.year * 13 + a.date.month) * 32 + a.date.day;
    var db := (b.date.year * 13 + b.date.month) * 32 + b.date.day;
    var ma := a.date.year * 13 + a.date.month;
    var mb := b.date.year * 13 + b.date.month;
    assert ma < mb <==> (a.date.year < b.date.year || (a.date.year == b.date.year && a.date.month < b.date.month));
    assert ma == mb <==> (a.date.year == b.date.year && a.date.month == b.date.month);
    assert da < db <==> (ma < mb || (ma == mb && a.date.day < b.date.day));
    assert da == db <==> (ma == mb && a.date.day == b.date.day);
    assert Rank(a) == da * 86400 + a.second && Rank(b) == db * 86400 + b.second;
  }

  /** One `user_history` row. `changeType` is NOT NULL in the schema, which is
      what makes "contains the email marker" and its negation a partition. */
  datatype Event = Event(
    id: nat,
    userId: Option<nat>,
    changedBy: string,
    changeDate: Timestamp,
    changeType: string,
    changeDetail: string)

  datatype AccountType = Sso | Webmail

  /** The dashboard's account type of a change type: webmail exactly when the
      email marker occurs in it. */
  function AccountTypeOf(changeType: string): (a: AccountType)
    ensures a == Webmail <==> Contains(changeType, EmailMarker)
    ensures a == Sso <==> !Contains(changeType, EmailMarker)
  {
    if Contains(changeType, EmailMarker) then Webmail else Sso
  }

  /** The `account_type` column the query computes (`'웹메일'` or `'SSO'`). */
  function AccountTypeLabel(changeType: string): (tag: string)
    ensures tag == WebmailLabel <==> Contains(changeType, EmailMarker)
    ensures tag == SsoLabel <==> !Contains(changeType, EmailMarker)
  {
    match AccountTypeOf(changeType)
    case Webmail => WebmailLabel
    case Sso => SsoLabel
  }

  /** `changed_by` as both write paths choose it: the given actor, or
      `'system'` when that is empty or missing (JavaScript `actor || 'system'`). */
  function ActorOr(actor: Option<string>): (r: string)
    ensures r != []
    ensures actor.Some? && actor.value != [] ==> r == actor.value
    ensures actor.None? || actor.value == [] ==> r == SystemActor
  {
    match actor
    case Some(a) => if a != [] then a else SystemActor
    case None => SystemActor
  }

  /** A change type without the first syllables of the modification and
      deletion markers carries neither marker. */
  lemma NoUpdateOrDeleteMarker(s: string)
    requires UpdateMarker[0] !in s && DeleteMarker[0] !in s
    ensures !Contains(s, UpdateMarker) && !Contains(s, DeleteMarker)
  {
    NotContainsFirstAbsent(s, UpdateMarker);
    NotContainsFirstAbsent(s, DeleteMarker);
  }

  /** A user creation is an SSO creation and nothing else. */
  lemma UserCreatedMarkers()
    ensures Contains(UserCreated, CreateMarker)
    ensures !Contains(UserCreated, UpdateMarker) && !Contains(UserCreated, DeleteMarker)
    ensures !Contains(UserCreated, EmailMarker)
  {
    assert UserCreated == "사용자 " + CreateMarker;
    ContainsAfter("사용자 ", CreateMarker, CreateMarker);
    NoUpdateOrDeleteMarker(UserCreated);
    NotContainsFirstAbsent(UserCreated, EmailMarker);
  }

  /** A personal mailbox creation is a webmail creation and nothing else. */
  lemma AccountCreatedMarkers()
    ensures Contains(AccountCreated, CreateMarker) && Contains(AccountCreated, EmailMarker)
    ensures !Contains(AccountCreated, UpdateMarker) && !Contains(AccountCreated, DeleteMarker)
  {
    assert EmailMarker <= AccountCreated;
    assert AccountCreated == "이메일 계정 " + CreateMarker;
    ContainsAfter("이메일 계정 ", CreateMarker, CreateMarker);
    NoUpdateOrDeleteMarker(AccountCreated);
  }

  /** So is a shared mailbox creation. */
  lemma SharedAccountCreatedMarkers()
    ensures Contains(SharedAccountCreated, CreateMarker) && Contains(SharedAccountCreated, EmailMarker)
    ensures !Contains(SharedAccountCreated, UpdateMarker) && !Contains(SharedAccountCreated, DeleteMarker)
  {
    assert EmailMarker <= SharedAccountCreated;
    assert SharedAccountCreated == "이메일 계정 " + (CreateMarker + " (공용)");
    assert CreateMarker <= CreateMarker + " (공용)";
    ContainsAfter("이메일 계정 ", CreateMarker + " (공용)", CreateMarker);
    NoUpdateOrDeleteMarker(SharedAccountCreated);
  }
}

=== FILE: legacy_users_api.dfy ===
/**
 * The deprecated `/api/users` route. Its `POST` assigns employee numbers by
 * the same rule as the SSO route but stores no registration date and logs
 * nothing; its `PUT` overwrites a user's columns and derives the lock and
 * delete dates from the new status alone.
 */
module LegacyUsersApi {
  import opened Wrappers
  import opened History
  import opened Entities
  import opened EmpNo
  import SsoUsersApi

  // ---------------------------------------------------------------------
  // POST
  // ---------------------------------------------------------------------

  /** The stored row: registered, with no registration, lock or delete date. */
  function NewRow(st: Store, u: SsoUsersApi.NewUser, empNo: string): (row: User)
    ensures row.id == st.nextUserId && row.empNo == empNo
    ensures row.name == u.name && row.organization == u.organization && row.department == u.department
    ensures row.employeeType == u.employeeType && row.vendorName == u.vendorName
    ensures row.duty == u.duty && row.workScope == u.workScope && row.requester == u.requester
    ensures row.status == StatusRegistered
    ensures row.regDate.None? && row.lockDate.None? && row.deleteDate.None?
  {
    User(st.nextUserId, empNo, u.name, u.organization, u.department, u.employeeType,
         u.vendorName, u.duty, u.workScope, u.requester, StatusRegistered, None, None, None)
  }

  /** The route: generate the number and insert the user; the UNIQUE key on
      `emp_no` refuses a number that is already taken. */
  function CreateUser(st: Store, u: SsoUsersApi.NewUser, year: nat): (out: SsoUsersApi.Outcome)
    ensures out.Created? <==> NextEmpNo(EmpNos(st.users), year) !in EmpNos(st.users)
    ensures out.Created? ==>
      && out.empNo == NextEmpNo(EmpNos(st.users), year)
      && out.st.users == st.users + [NewRow(st, u, out.empNo)]
  {
    var empNo := NextEmpNo(EmpNos(st.users), year);
    if empNo in EmpNos(st.users) then SsoUsersApi.Failed
    else SsoUsersApi.Created(st.(users := st.users + [NewRow(st, u, empNo)],
                                 nextUserId := st.nextUserId + 1), empNo)
  }

  /** Both create routes assign the same number and fail together; only the
      SSO route writes a registration date and a history row. */
  lemma CreateUserMatchesSsoRoute(st: Store, u: SsoUsersApi.NewUser, year: nat, today: Date, now: Timestamp)
    ensures var legacy := CreateUser(st, u, year);
      var sso := SsoUsersApi.CreateUser(st, u, year, today, now);
      && (legacy.Created? <==> sso.Created?)
      && (legacy.Created? ==>
            && legacy.empNo == sso.empNo
            && legacy.st.history == st.history
            && legacy.st.nextEventId == st.nextEventId
            && legacy.st.users[|st.users|].regDate.None?
            && legacy.st.users[|st.users|].status == StatusRegistered
            && legacy.st.users[|st.users|] == sso.st.users[|st.users|].(regDate := None))
  {
  }

  // ---------------------------------------------------------------------
  // PUT
  // ---------------------------------------------------------------------

  /** The request body of an update. */
  datatype UserUpdate = UserUpdate(
    name: string,
    organization: string,
    department: string,
    employeeType: string,
    vendorName: Option<string>,
    duty: Option<string>,
    workScope: Option<string>,
    requester: string,
    status: string)

  datatype Dates = Dates(lockDate: Option<Date>, deleteDate: Option<Date>)

  /** The lock and delete dates an update writes: today in the column that
      matches the new status, NULL everywhere else. */
  function StatusDates(status: string, today: Date): (d: Dates)
    ensures d.lockDate.Some? <==> status == StatusLocked
    ensures d.deleteDate.Some? <==> status == StatusDeleted
    ensures d.lockDate.Some? ==> d.lockDate.value == today
    ensures d.deleteDate.Some? ==> d.deleteDate.value == today
  {
    if status == StatusLocked then Dates(Some(today), None)
    else if status == StatusDeleted then Dates(None, Some(today))
    else Dates(None, None)
  }

  /** A row never carries both dates after an update, and a registered row
      carries neither. */
  lemma StatusDatesExclusive(status: string, today: Date)
    ensures StatusDates(status, today).lockDate.None? || StatusDates(status, today).deleteDate.None?
    ensures status == StatusRegistered ==> StatusDates(status, today) == Dates(None, None)
  {
  }

  /** The row after `UPDATE users SET ...`: every listed column from the
      request, the dates from the status; id, number and registration date
      kept. */
  function Apply(u: User, b: UserUpdate, today: Date): (r: User)
    ensures r.id == u.id && r.empNo == u.empNo && r.regDate == u.regDate
    ensures r.name == b.name && r.organization == b.organization && r.department == b.department
    ensures r.employeeType == b.employeeType && r.vendorName == b.vendorName
    ensures r.duty == b.duty && r.workScope == b.workScope && r.requester == b.requester
    ensures r.status == b.status
    ensures r.lockDate == StatusDates(b.status, today).lockDate
    ensures r.deleteDate == StatusDates(b.status, today).deleteDate
  {
    var d := StatusDates(b.status, today);
    u.(name := b.name, organization := b.organization, department := b.department,
       employeeType := b.employeeType, vendorName := b.vendorName, duty := b.duty,
       workScope := b.workScope, requester := b.requester, status := b.status,
       lockDate := d.lockDate, deleteDate := d.deleteDate)
  }

  /** Every column but the id, the number and the registration date is
      overwritten: two rows that agree on those three end up identical. */
  lemma ApplyOverwritesTheRest(u: User, v: User, b: UserUpdate, today: Date)
    requires u.id == v.id && u.empNo == v.empNo && u.regDate == v.regDate
    ensures Apply(u, b, today) == Apply(v, b, today)
  {
  }

  /** `... WHERE id = ?`: every row with the id is rewritten, every other row
      kept; an unknown id changes nothing. */
  function UpdateUsers(users: seq<User>, id: nat, b: UserUpdate, today: Date): (r: seq<User>)
    ensures |r| == |users|
    ensures forall i :: 0 <= i < |users| && users[i].id != id ==> r[i] == users[i]
    ensures forall i :: 0 <= i < |users| && users[i].id == id ==> r[i] == Apply(users[i], b, today)
  {
    if users == [] then []
    else [if users[0].id == id then Apply(users[0], b, today) else users[0]]
         + UpdateUsers(users[1..], id, b, today)
  }

  /** The route: rewrite the row; no history is written. */
  function UpdateUser(st: Store, id: nat, b: UserUpdate, today: Date): (st': Store)
    ensures st'.history == st.history && st'.accounts == st.accounts
    ensures st'.nextUserId == st.nextUserId && st'.nextEventId == st.nextEventId
  {
    st.(users := UpdateUsers(st.users, id, b, today))
  }

  /** An update keeps the store valid and the employee numbers unique,
      because it never touches ids or numbers. */
  lemma UpdateUserKeepsValid(st: Store, id: nat, b: UserUpdate, today: Date)
    requires Valid(st) && UniqueEmpNos(st.users)
    ensures Valid(UpdateUser(st, id, b, today)) && UniqueEmpNos(UpdateUser(st, id, b, today).users)
  {
    var us := UpdateUser(st, id, b, today).users;
    assert forall i :: 0 <= i < |us| ==> us[i].id == st.users[i].id && us[i].empNo == st.users[i].empNo;
  }

  /** After an update the row with the id holds at most one of the two dates,
      the one its status names, and dated today. */
  lemma UpdateUserDates(st: Store, id: nat, b: UserUpdate, today: Date, i: nat)
    requires i < |st.users| && st.users[i].id == id
    ensures var r := UpdateUser(st, id, b, today).users[i];
      && (r.lockDate == (if b.status == StatusLocked then Some(today) else None))
      && (r.deleteDate == (if b.status == StatusDeleted then Some(today) else None))
      && (r.lockDate.None? || r.deleteDate.None?)
  {
  }

  /** Repeating the same update on the same day changes nothing more. */
  lemma UpdateUserIdempotent(st: Store, id: nat, b: UserUpdate, today: Date)
    ensures UpdateUser(UpdateUser(st, id, b, today), id, b, today) == UpdateUser(st, id, b, today)
  {
    var once := UpdateUsers(st.users, id, b, today);
    var twice := UpdateUsers(once, id, b, today);
    assert forall i :: 0 <= i < |once| ==> twice[i] == once[i];
  }
}

=== FILE: navbar.dfy ===
/**
 * The navigation bar's highlighting: a link is active on its own page and,
 * for the two section links, on every page under the section.
 */
module Navbar {
  import opened Wrappers

  const Home: string := "/"
  const SsoSection: string := "/sso"
  const WebmailSection: string := "/webmail"

  /** The links the bar renders. */
  const Links: seq<string> := [SsoSection, WebmailSection]

  /** `usePathname() || ''`: no path reads as the empty path. */
  function CurrentPath(pathname: Option<string>): string {
    match pathname
    case Some(p) => p
    case None => ""
  }

  /** `isActive(path)` on the current path. */
  function IsActive(pathname: string, path: string): bool {
    if path == Home && pathname == Home then true
    else if path == SsoSection && (pathname == SsoSection || SsoSection + "/" <= pathname) then true
    else if path == WebmailSection && (pathname == WebmailSection || WebmailSection + "/" <= pathname) then true
    else false
  }

  /** The one rule behind the three cases: a known path is active on itself
      and, unless it is the root, on everything below it; any other path is
      never active. */
  lemma IsActiveRule(pathname: string, path: string)
    ensures IsActive(pathname, path) <==>
      && (path == Home || path == SsoSection || path == WebmailSection)
      && (pathname == path || (path != Home && path + "/" <= pathname))
  {
  }

  /** No path lies in both sections, so at most one link is highlighted. */
  lemma AtMostOneLinkActive(pathname: string)
    ensures !(IsActive(pathname, SsoSection) && IsActive(pathname, WebmailSection))
    ensures forall i, j :: 0 <= i < j < |Links| ==> !(IsActive(pathname, Links[i]) && IsActive(pathname, Links[j]))
  {
    if IsActive(pathname, SsoSection) {
      assert pathname[1] == 's';
    }
  }

  /** Without a path nothing is highlighted. */
  lemma NoPathNothingActive(path: string)
    ensures !IsActive(CurrentPath(None), path)
  {
  }

  /** Pages under a section keep its link highlighted. */
  lemma SubpagesStayActive(rest: string)
    ensures IsActive(SsoSection + "/" + rest, SsoSection)
    ensures IsActive(WebmailSection + "/" + rest, WebmailSection)
  {
    assert SsoSection + "/" <= SsoSection + "/" + rest;
    assert WebmailSection + "/" <= WebmailSection + "/" + rest;
  }

  /** A path that merely starts with a section's name is not in the section. */
  lemma SharedPrefixIsNotEnough(rest: string)
    requires rest != [] && rest[0] != '/'
    ensures !IsActive(SsoSection + rest, SsoSection)
    ensures !IsActive(WebmailSection + rest, WebmailSection)
  {
    var s := SsoSection + rest;
    var w := WebmailSection + rest;
    assert s[|SsoSection|] == rest[0];
    assert w[|WebmailSection|] == rest[0];
  }
}

=== FILE: seqs.dfy ===
/**
 * Order-preserving filtering and a stable insertion sort over sequences.
 * These are the two list operations every view of the system is built from:
 * SQL `WHERE`/`ORDER BY`, and JavaScript's `Array.filter`/`Array.sort`.
 */
module Seqs {

  /** The elements of `s` satisfying `p`, in their original order. */
  function Filter<T(!new)>(s: seq<T>, p: T -> bool): (r: seq<T>)
    ensures |r| <= |s|
    ensures forall i :: 0 <= i < |r| ==> p(r[i]) && r[i] in s
  {
    if s == [] then [] else (if p(s[0]) then [s[0]] else []) + Filter(s[1..], p)
  }

  /** Every element of `s` that satisfies `p` survives the filter. */
  lemma {:induction false} FilterKeeps<T(!new)>(s: seq<T>, p: T -> bool, x: T)
    requires x in s && p(x)
    ensures x in Filter(s, p)
    decreases |s|
  {
    if s[0] != x {
      FilterKeeps(s[1..], p, x);
    }
  }

  /** Filtering distributes over concatenation: together with the singleton
      case this pins the result down as the order-preserving subsequence. */
  lemma {:induction false} FilterConcat<T(!new)>(a: seq<T>, b: seq<T>, p: T -> bool)
    ensures Filter(a + b, p) == Filter(a, p) + Filter(b, p)
    decreases |a|
  {
    if a == [] {
      assert a + b == b;
    } else {
      assert (a + b)[1..] == a[1..] + b;
      FilterConcat(a[1..], b, p);
    }
  }

  /** A filter with a stronger predicate keeps a subsequence of a filter with
      a weaker one: narrowing the criteria never adds or reorders anything. */
  lemma {:induction false} FilterNarrow<T(!new)>(s: seq<T>, p: T -> bool, q: T -> bool)
    requires forall x :: p(x) ==> q(x)
    ensures Filter(Filter(s, q), p) == Filter(s, p)
    decreases |s|
  {
    if s != [] {
      FilterNarrow(s[1..], p, q);
      assert Filter(s, p) == (if p(s[0]) then [s[0]] else []) + Filter(s[1..], p);
      if q(s[0]) {
        var fq := Filter(s, q);
        assert fq == [s[0]] + Filter(s[1..], q);
        assert fq[0] == s[0] && fq[1..] == Filter(s[1..], q);
        assert Filter(fq, p) == (if p(fq[0]) then [fq[0]] else []) + Filter(fq[1..], p);
      } else {
        assert Filter(s, q) == Filter(s[1..], q);
      }
    }
  }

  /** A predicate that holds nowhere keeps nothing. */
  lemma {:induction false} FilterNone<T(!new)>(s: seq<T>, p: T -> bool)
    requires forall i :: 0 <= i < |s| ==> !p(s[i])
    ensures Filter(s, p) == []
  {
    if s != [] {
      assert forall i :: 0 <= i < |s[1..]| ==> s[1..][i] == s[i + 1];
      FilterNone(s[1..], p);
    }
  }

  /** A predicate that holds everywhere keeps everything. */
  lemma {:induction false} FilterAll<T(!new)>(s: seq<T>, p: T -> bool)
    requires forall x :: p(x)
    ensures Filter(s, p) == s
    decreases |s|
  {
    if s != [] {
      FilterAll(s[1..], p);
      assert s == [s[0]] + s[1..];
    }
  }

  /** Number of elements satisfying `p`. */
  function Count<T>(s: seq<T>, p: T -> bool): (n: nat)
    ensures n <= |s|
  {
    if s == [] then 0
    else (if p(s[0]) then 1 else 0) + Count(s[1..], p)
  }

  /** Counting is the length of the filter. */
  lemma {:induction false} CountIsFilterLength<T(!new)>(s: seq<T>, p: T -> bool)
    ensures Count(s, p) == |Filter(s, p)|
  {
    if s != [] {
      CountIsFilterLength(s[1..], p);
    }
  }

  /** Counting distributes over concatenation. */
  lemma {:induction false} CountConcat<T>(a: seq<T>, b: seq<T>, p: T -> bool)
    ensures Count(a + b, p) == Count(a, p) + Count(b, p)
    decreases |a|
  {
    if a == [] {
      assert a + b == b;
    } else {
      assert (a + b)[1..] == a[1..] + b;
      CountConcat(a[1..], b, p);
    }
  }

  predicate SortedDesc<T>(s: seq<T>, key: T -> int) {
    forall i, j :: 0 <= i < j < |s| ==> key(s[i]) >= key(s[j])
  }

  /** Places `x` before the first element whose key does not exceed its own. */
  function InsertDesc<T>(x: T, s: seq<T>, key: T -> int): (r: seq<T>)
    ensures |r| == |s| + 1
  {
    if s == [] || key(x) >= key(s[0]) then [x] + s
    else [s[0]] + InsertDesc(x, s[1..], key)
  }

  /** Inserting into a sorted sequence keeps it sorted. */
  lemma {:induction false} InsertDescSorted<T>(x: T, s: seq<T>, key: T -> int)
    requires SortedDesc(s, key)
    ensures SortedDesc(InsertDesc(x, s, key), key)
    decreases |s|
  {
    if s != [] && key(x) < key(s[0]) {
      InsertDescSorted(x, s[1..], key);
      InsertDescPermutes(x, s[1..], key);
      var rest := InsertDesc(x, s[1..], key);
      var r := [s[0]] + rest;
      forall i, j | 0 <= i < j < |r| ensures key(r[i]) >= key(r[j]) {
        assert r[j] == rest[j - 1];
        if i == 0 {
          assert rest[j - 1] in multiset(rest);
          assert rest[j - 1] == x || rest[j - 1] in s[1..];
        } else {
          assert r[i] == rest[i - 1];
        }
      }
    }
  }

  /** Inserting adds exactly one occurrence of `x` and loses nothing. */
  lemma {:induction false} InsertDescPermutes<T>(x: T, s: seq<T>, key: T -> int)
    ensures multiset(InsertDesc(x, s, key)) == multiset(s) + multiset{x}
    decreases |s|
  {
    if s != [] && key(x) < key(s[0]) {
      InsertDescPermutes(x, s[1..], key);
      assert s == [s[0]] + s[1..];
    }
  }

  /** Stable insertion sort, largest key first. */
  function SortDesc<T>(s: seq<T>, key: T -> int): (r: seq<T>)
    ensures SortedDesc(r, key)
    ensures multiset(r) == multiset(s)
    ensures |r| == |s|
  {
    if s == [] then []
    else
      var rest := SortDesc(s[1..], key);
      InsertDescSorted(s[0], rest, key);
      InsertDescPermutes(s[0], rest, key);
      assert s == [s[0]] + s[1..];
      InsertDesc(s[0], rest, key)
  }

  /** A filter keeps every pairwise relation its input had between earlier
      and later elements. */
  lemma {:induction false} FilterPairwise<T(!new)>(s: seq<T>, p: T -> bool, rel: (T, T) -> bool)
    requires forall i, j :: 0 <= i < j < |s| ==> rel(s[i], s[j])
    ensures forall i, j :: 0 <= i < j < |Filter(s, p)| ==> rel(Filter(s, p)[i], Filter(s, p)[j])
    decreases |s|
  {
    if s != [] {
      var rest := s[1..];
      assert forall i :: 0 <= i < |rest| ==> rest[i] == s[i + 1];
      FilterPairwise(rest, p, rel);
      var t := Filter(rest, p);
      if p(s[0]) {
        var f := Filter(s, p);
        assert f == [s[0]] + t;
        forall i, j | 0 <= i < j < |f| ensures rel(f[i], f[j]) {
          assert f[j] == t[j - 1];
          if i == 0 {
            assert t[j - 1] in rest;
            var k :| 0 <= k < |rest| && rest[k] == t[j - 1];
            assert rel(s[0], s[k + 1]);
          } else {
            assert f[i] == t[i - 1];
          }
        }
      }
    }
  }

  /** `s` back to front. */
  function Reverse<T>(s: seq<T>): (r: seq<T>)
    ensures |r| == |s|
    ensures forall i :: 0 <= i < |s| ==> r[i] == s[|s| - 1 - i]
  {
    if s == [] then [] else Reverse(s[1..]) + [s[0]]
  }

  /** Reversing twice gives the sequence back. */
  lemma ReverseReverse<T>(s: seq<T>)
    ensures Reverse(Reverse(s)) == s
  {
    var r := Reverse(s);
    assert forall i :: 0 <= i < |s| ==> Reverse(r)[i] == r[|r| - 1 - i];
  }

  /** Sorting a sorted sequence changes nothing. */
  lemma {:induction false} SortDescOfSorted<T>(s: seq<T>, key: T -> int)
    requires SortedDesc(s, key)
    ensures SortDesc(s, key) == s
    decreases |s|
  {
    if s != [] {
      assert SortedDesc(s[1..], key) by {
        assert forall i :: 0 <= i < |s[1..]| ==> s[1..][i] == s[i + 1];
      }
      SortDescOfSorted(s[1..], key);
      assert s == [s[0]] + s[1..];
    }
  }

  /** An element whose key is below every other ends up last. */
  lemma {:induction false} InsertDescLast<T>(x: T, t: seq<T>, key: T -> int)
    requires forall i :: 0 <= i < |t| ==> key(x) < key(t[i])
    ensures InsertDesc(x, t, key) == t + [x]
    decreases |t|
  {
    if t != [] {
      assert forall i :: 0 <= i < |t[1..]| ==> t[1..][i] == t[i + 1];
      InsertDescLast(x, t[1..], key);
      assert t == [t[0]] + t[1..];
    }
  }

  /** Sorting by the negated key a sequence strictly descending in the key
      reverses it. */
  lemma {:induction false} SortDescReverses<T>(s: seq<T>, key: T -> int, negated: T -> int)
    requires forall i, j :: 0 <= i < j < |s| ==> key(s[i]) > key(s[j])
    requires forall x :: negated(x) == -key(x)
    ensures SortDesc(s, negated) == Reverse(s)
    decreases |s|
  {
    if s != [] {
      var rest := s[1..];
      assert forall i :: 0 <= i < |rest| ==> rest[i] == s[i + 1];
      SortDescReverses(rest, key, negated);
      var r := Reverse(rest);
      forall i | 0 <= i < |r| ensures negated(s[0]) < negated(r[i]) {
        assert r[i] == s[|rest| - i];
      }
      InsertDescLast(s[0], r, negated);
    }
  }
}

=== FILE: sso_search.dfy ===
/**
 * The SSO user list page's search. Seven criteria, all initially empty; an
 * empty criterion imposes nothing, the free-text ones match by substring and
 * the two drop-downs by equality. Editing a criterion changes only the
 * criterion; the list is refiltered when the search button is pressed.
 */
module SsoSearch {
  import opened Strings
  import opened Seqs
  import opened Entities

  datatype Field = EmpNoField | NameField | OrganizationField | DepartmentField
                 | EmployeeTypeField | StatusField | RequesterField

  datatype Criteria = Criteria(
    empNo: string,
    name: string,
    organization: string,
    department: string,
    employeeType: string,
    status: string,
    requester: string)

  /** The criteria the page starts with and resets to. */
  const NoCriteria: Criteria := Criteria("", "", "", "", "", "", "")

  function Get(c: Criteria, f: Field): string {
    match f
    case EmpNoField => c.empNo
    case NameField => c.name
    case OrganizationField => c.organization
    case DepartmentField => c.department
    case EmployeeTypeField => c.employeeType
    case StatusField => c.status
    case RequesterField => c.requester
  }

  /** `setSearchCriteria({...searchCriteria, [name]: value})`. */
  function Set(c: Criteria, f: Field, v: string): (r: Criteria)
    ensures Get(r, f) == v
    ensures forall g :: g != f ==> Get(r, g) == Get(c, g)
  {
    match f
    case EmpNoField => c.(empNo := v)
    case NameField => c.(name := v)
    case OrganizationField => c.(organization := v)
    case DepartmentField => c.(department := v)
    case EmployeeTypeField => c.(employeeType := v)
    case StatusField => c.(status := v)
    case RequesterField => c.(requester := v)
  }

  /** The user's value in the column a criterion searches. */
  function Value(u: User, f: Field): string {
    match f
    case EmpNoField => u.empNo
    case NameField => u.name
    case OrganizationField => u.organization
    case DepartmentField => u.department
    case EmployeeTypeField => u.employeeType
    case StatusField => u.status
    case RequesterField => u.requester
  }

  /** The drop-down criteria compare exactly; the rest by substring. */
  predicate Exact(f: Field) {
    f == EmployeeTypeField || f == StatusField
  }

  /** One criterion on its own. */
  predicate Satisfies(u: User, c: Criteria, f: Field) {
    Get(c, f) == "" || (if Exact(f) then Value(u, f) == Get(c, f) else Contains(Value(u, f), Get(c, f)))
  }

  /** The page's filter callback, one conjunct per criterion. */
  predicate Matches(u: User, c: Criteria) {
    && (c.empNo == "" || Contains(u.empNo, c.empNo))
    && (c.name == "" || Contains(u.name, c.name))
    && (c.organization == "" || Contains(u.organization, c.organization))
    && (c.department == "" || Contains(u.department, c.department))
    && (c.employeeType == "" || u.employeeType == c.employeeType)
    && (c.status == "" || u.status == c.status)
    && (c.requester == "" || Contains(u.requester, c.requester))
  }

  /** The conjunction is exactly "every criterion holds on its own". */
  lemma MatchesFieldwise(u: User, c: Criteria)
    ensures Matches(u, c) <==> forall f :: Satisfies(u, c, f)
  {
    if Matches(u, c) {
      forall f ensures Satisfies(u, c, f) {
      }
    } else {
      assert !Satisfies(u, c, EmpNoField) || !Satisfies(u, c, NameField)
          || !Satisfies(u, c, OrganizationField) || !Satisfies(u, c, DepartmentField)
          || !Satisfies(u, c, EmployeeTypeField) || !Satisfies(u, c, StatusField)
          || !Satisfies(u, c, RequesterField);
    }
  }

  function MatchesCriteria(c: Criteria): User -> bool {
    (u: User) => Matches(u, c)
  }

  /** `users.filter(...)`. */
  function Search(users: seq<User>, c: Criteria): seq<User> {
    Filter(users, MatchesCriteria(c))
  }

  /** The result holds exactly the loaded users that meet every criterion. */
  lemma SearchSelects(users: seq<User>, c: Criteria)
    ensures forall u :: u in Search(users, c) ==> u in users && Matches(u, c)
    ensures forall u :: u in users && Matches(u, c) ==> u in Search(users, c)
  {
    forall u | u in users && Matches(u, c) ensures u in Search(users, c) {
      FilterKeeps(users, MatchesCriteria(c), u);
    }
  }

  /** The result keeps the list's order: searching a concatenation is
      concatenating the searches. */
  lemma SearchKeepsOrder(a: seq<User>, b: seq<User>, c: Criteria)
    ensures Search(a + b, c) == Search(a, c) + Search(b, c)
  {
    FilterConcat(a, b, MatchesCriteria(c));
  }

  /** Empty criteria show every user. */
  lemma NoCriteriaShowsAll(users: seq<User>)
    ensures Search(users, NoCriteria) == users
  {
    FilterAll(users, MatchesCriteria(NoCriteria));
  }

  /** Filling in an empty criterion only narrows the result: the new result
      is the old one searched again, so it is never longer. */
  lemma FillingCriterionNarrows(users: seq<User>, c: Criteria, f: Field, v: string)
    requires Get(c, f) == ""
    ensures Search(users, Set(c, f, v)) == Search(Search(users, c), Set(c, f, v))
    ensures |Search(users, Set(c, f, v))| <= |Search(users, c)|
  {
    var c' := Set(c, f, v);
    forall u | Matches(u, c') ensures Matches(u, c) {
      MatchesFieldwise(u, c);
      MatchesFieldwise(u, c');
      forall g ensures Satisfies(u, c, g) {
        assert Satisfies(u, c', g);
      }
    }
    FilterNarrow(users, MatchesCriteria(c'), MatchesCriteria(c));
  }

  /** The page: the loaded users, the shown users and the criteria. */
  datatype Page = Page(users: seq<User>, shown: seq<User>, criteria: Criteria)

  /** The page after loading: everything shown, no criteria. */
  function Loaded(users: seq<User>): Page {
    Page(users, users, NoCriteria)
  }

  /** `handleSearchChange`: the named criterion takes the value, nothing is refiltered. */
  function HandleSearchChange(p: Page, f: Field, v: string): (r: Page)
    ensures r.users == p.users && r.shown == p.shown
    ensures Get(r.criteria, f) == v && forall g :: g != f ==> Get(r.criteria, g) == Get(p.criteria, g)
  {
    p.(criteria := Set(p.criteria, f, v))
  }

  /** `handleSearch`. */
  function HandleSearch(p: Page): (r: Page)
    ensures r.users == p.users && r.criteria == p.criteria
    ensures forall u :: u in r.shown ==> u in p.users && Matches(u, p.criteria)
  {
    p.(shown := Search(p.users, p.criteria))
  }

  /** `resetSearch`. */
  function ResetSearch(p: Page): (r: Page)
    ensures r.users == p.users
  {
    Page(p.users, p.users, NoCriteria)
  }

  /** Resetting clears every criterion and shows the whole list, which is
      exactly what searching with the cleared criteria shows. */
  lemma ResetShowsEverything(p: Page)
    ensures forall f :: Get(ResetSearch(p).criteria, f) == ""
    ensures ResetSearch(p).shown == p.users
    ensures HandleSearch(ResetSearch(p)) == ResetSearch(p)
    ensures ResetSearch(p) == Loaded(p.users)
  {
    NoCriteriaShowsAll(p.users);
  }
}

=== FILE: sso_users_api.dfy ===
/**
 * `POST /api/sso/users`: registers an SSO user under a freshly generated
 * employee number and appends the matching audit event. The request's clock
 * readings (the local year, today's date, the insert time) are parameters.
 */
module SsoUsersApi {
  import opened Wrappers
  import opened Strings
  import opened History
  import opened Entities
  import opened EmpNo
  import DashboardStats

  /** The request body's fields. */
  datatype NewUser = NewUser(
    name: string,
    organization: string,
    department: string,
    employeeType: string,
    vendorName: Option<string>,
    duty: Option<string>,
    workScope: Option<string>,
    requester: string)

  /** `201` with the stored state and the assigned number, or `500` when the
      INSERT is refused because the generated `emp_no` is already taken. */
  datatype Outcome = Created(st: Store, empNo: string) | Failed

  /** The history text: name, employee number and department. */
  function CreationDetail(u: NewUser, empNo: string): string {
    "사용자 생성: " + u.name + ", 직번: " + empNo + ", 부서: " + u.department
  }

  /** The detail names the user, the number and the department. */
  lemma CreationDetailMentions(u: NewUser, empNo: string)
    ensures Contains(CreationDetail(u, empNo), u.name)
    ensures Contains(CreationDetail(u, empNo), empNo)
    ensures Contains(CreationDetail(u, empNo), u.department)
  {
    var d := CreationDetail(u, empNo);
    var p, q, r := "사용자 생성: ", ", 직번: ", ", 부서: ";
    assert d == p + u.name + (q + empNo + r + u.department);
    ContainsMiddle(p, u.name, q + empNo + r + u.department);
    assert d == (p + u.name + q) + empNo + (r + u.department);
    ContainsMiddle(p + u.name + q, empNo, r + u.department);
    assert d == (p + u.name + q + empNo + r) + u.department + [];
    ContainsMiddle(p + u.name + q + empNo + r, u.department, []);
  }

  /** The new `users` row: registered today, no lock or delete date. */
  function NewRow(st: Store, u: NewUser, empNo: string, today: Date): (row: User)
    ensures row.id == st.nextUserId && row.empNo == empNo
    ensures row.name == u.name && row.organization == u.organization && row.department == u.department
    ensures row.employeeType == u.employeeType && row.vendorName == u.vendorName
    ensures row.duty == u.duty && row.workScope == u.workScope && row.requester == u.requester
    ensures row.status == StatusRegistered && row.regDate == Some(today)
    ensures row.lockDate.None? && row.deleteDate.None?
  {
    User(st.nextUserId, empNo, u.name, u.organization, u.department, u.employeeType,
         u.vendorName, u.duty, u.workScope, u.requester, StatusRegistered,
         Some(today), None, None)
  }

  /** The audit event of the creation, attributed to the requester. */
  function CreationEvent(st: Store, u: NewUser, empNo: string, now: Timestamp): Event {
    Event(st.nextEventId, Some(st.nextUserId), ActorOr(Some(u.requester)), now,
          UserCreated, CreationDetail(u, empNo))
  }

  /** The route: generate the number, insert the user, then its history row. */
  function CreateUser(st: Store, u: NewUser, year: nat, today: Date, now: Timestamp): (out: Outcome)
    ensures out.Created? <==> NextEmpNo(EmpNos(st.users), year) !in EmpNos(st.users)
    ensures out.Created? ==>
      && out.empNo == NextEmpNo(EmpNos(st.users), year)
      && |out.st.users| == |st.users| + 1 && |out.st.history| == |st.history| + 1
      && out.st.users[..|st.users|] == st.users
      && out.st.history[..|st.history|] == st.history
      && out.st.accounts == st.accounts
  {
    var empNo := NextEmpNo(EmpNos(st.users), year);
    if empNo in EmpNos(st.users) then Failed
    else
      Created(st.(users := st.users + [NewRow(st, u, empNo, today)],
                  history := st.history + [CreationEvent(st, u, empNo, now)],
                  nextUserId := st.nextUserId + 1,
                  nextEventId := st.nextEventId + 1),
              empNo)
  }

  /** Exactly one user row and one history row are added, and they describe
      the same person: the row is registered today under the new number, the
      event points at it, is attributed to the requester (`system` when
      blank) and says what was created. */
  lemma CreateUserRecords(st: Store, u: NewUser, year: nat, today: Date, now: Timestamp)
    requires CreateUser(st, u, year, today, now).Created?
    ensures var out := CreateUser(st, u, year, today, now);
      var row := out.st.users[|st.users|];
      var e := out.st.history[|st.history|];
      && |out.st.users| == |st.users| + 1 && |out.st.history| == |st.history| + 1
      && row.id == st.nextUserId && row.empNo == out.empNo
      && row.name == u.name && row.department == u.department && row.requester == u.requester
      && row.organization == u.organization && row.employeeType == u.employeeType
      && row.vendorName == u.vendorName && row.duty == u.duty && row.workScope == u.workScope
      && row.status == StatusRegistered && row.regDate == Some(today)
      && row.lockDate.None? && row.deleteDate.None?
      && e.userId == Some(row.id) && e.changeDate == now
      && e.changedBy == (if u.requester == [] then SystemActor else u.requester)
      && e.changeType == UserCreated
      && Contains(e.changeDetail, u.name) && Contains(e.changeDetail, out.empNo)
      && Contains(e.changeDetail, u.department)
  {
    CreationDetailMentions(u, NextEmpNo(EmpNos(st.users), year));
  }

  /** A successful creation keeps ids and employee numbers unique. */
  lemma CreateUserKeepsValid(st: Store, u: NewUser, year: nat, today: Date, now: Timestamp)
    requires Valid(st) && UniqueEmpNos(st.users)
    requires CreateUser(st, u, year, today, now).Created?
    ensures Valid(CreateUser(st, u, year, today, now).st)
    ensures UniqueEmpNos(CreateUser(st, u, year, today, now).st.users)
  {
    var empNo := NextEmpNo(EmpNos(st.users), year);
    var row := NewRow(st, u, empNo, today);
    AppendUserKeepsValid(st, row, CreationEvent(st, u, empNo, now));
    var us := st.users + [row];
    forall i, j | 0 <= i < j < |us| ensures us[i].empNo != us[j].empNo {
      if j == |us| - 1 {
        assert us[i].empNo == EmpNos(st.users)[i];
      } else {
        assert us[i] == st.users[i] && us[j] == st.users[j];
      }
    }
  }

  /** While every number of the year has a three-digit sequence, creation
      succeeds, and the new number is numerically the year's next one. */
  lemma CreateUserSucceeds(st: Store, u: NewUser, year: nat, today: Date, now: Timestamp)
    requires 1000 <= year < 10000
    requires forall i :: 0 <= i < |st.users| && YearPrefix(year) <= st.users[i].empNo ==>
      ThreeDigitCode(year, st.users[i].empNo)
    ensures CreateUser(st, u, year, today, now).Created?
    ensures forall i :: 0 <= i < |st.users| && YearPrefix(year) <= st.users[i].empNo ==>
      SequenceOf(st.users[i].empNo).Some? &&
      SequenceOf(CreateUser(st, u, year, today, now).empNo).Some? &&
      SequenceOf(st.users[i].empNo).value < SequenceOf(CreateUser(st, u, year, today, now).empNo).value
  {
    var codes := EmpNos(st.users);
    NextEmpNoFresh(codes, year);
    NextEmpNoExceedsAll(codes, year);
  }

  /** A user creation counts as an SSO creation and as nothing else. */
  lemma CreationColumns(e: Event)
    requires e.changeType == UserCreated
    ensures DashboardStats.TallyOf([e]) == DashboardStats.Tally(1, 1, 0, 0, 0, 1)
  {
    DashboardStats.TallyOfOne(e);
    UserCreatedMarkers();
  }

  /** The dashboard sees one more row in total, among creations and among
      SSO changes, and nothing else changes in its columns. */
  lemma CreateUserStatistics(st: Store, u: NewUser, year: nat, today: Date, now: Timestamp)
    requires CreateUser(st, u, year, today, now).Created?
    ensures var before := DashboardStats.TallyOf(st.history);
      DashboardStats.TallyOf(CreateUser(st, u, year, today, now).st.history)
        == DashboardStats.Tally(before.total + 1, before.created + 1, before.updated,
                                before.deleted, before.webmail, before.sso + 1)
  {
    var e := CreationEvent(st, u, NextEmpNo(EmpNos(st.users), year), now);
    assert CreateUser(st, u, year, today, now).st.history == st.history + [e];
    DashboardStats.TallyAppend(st.history, e);
    CreationColumns(e);
    var before := DashboardStats.TallyOf(st.history);
    assert DashboardStats.TallyOf(st.history + [e])
      == DashboardStats.Plus(before, DashboardStats.Tally(1, 1, 0, 0, 0, 1));
  }
}

=== FILE: strings.dfy ===
/**
 * The string operations the system relies on: JavaScript's `includes`,
 * `startsWith`, `substring`, `padStart`, `Number.prototype.toString` and
 * `parseInt(_, 10)`, SQL `LIKE '%x%'`, and code-point lexicographic order
 * (what `ORDER BY emp_no DESC` compares).
 */
module Strings {
  import opened Wrappers

  /** `s.includes(sub)`, and SQL `s LIKE '%sub%'` for a pattern without wildcards. */
  predicate Contains(s: string, sub: string)
    decreases |s|
  {
    sub <= s || (|s| > 0 && Contains(s[1..], sub))
  }

  /** A string whose first character never occurs in `s` is not inside `s`. */
  lemma {:induction false} NotContainsFirstAbsent(s: string, sub: string)
    requires |sub| > 0 && sub[0] !in s
    ensures !Contains(s, sub)
    decreases |s|
  {
    if |s| > 0 {
      NotContainsFirstAbsent(s[1..], sub);
    }
  }

  /** Containment survives putting text in front. */
  lemma {:induction false} ContainsAfter(s: string, t: string, sub: string)
    requires Contains(t, sub)
    ensures Contains(s + t, sub)
    decreases |s|
  {
    if s != [] {
      assert (s + t)[1..] == s[1..] + t;
      ContainsAfter(s[1..], t, sub);
    } else {
      assert s + t == t;
    }
  }

  /** Containment survives appending text. */
  lemma {:induction false} ContainsBefore(s: string, t: string, sub: string)
    requires Contains(s, sub)
    ensures Contains(s + t, sub)
    decreases |s|
  {
    if sub <= s {
      assert sub <= s + t;
    } else {
      assert (s + t)[1..] == s[1..] + t;
      ContainsBefore(s[1..], t, sub);
    }
  }

  /** Text placed anywhere in a concatenation is contained in it. */
  lemma ContainsMiddle(a: string, b: string, c: string)
    ensures Contains(a + b + c, b)
  {
    assert b <= b + c;
    ContainsAfter(a, b + c, b);
    assert a + b + c == a + (b + c);
  }

  predicate IsDigit(c: char) {
    '0' <= c <= '9'
  }

  predicate AllDigits(s: string) {
    forall i :: 0 <= i < |s| ==> IsDigit(s[i])
  }

  function DigitValue(c: char): (d: nat)
    requires IsDigit(c)
    ensures d < 10
  {
    c as int - '0' as int
  }

  function DigitChar(d: nat): (c: char)
    requires d < 10
    ensures IsDigit(c) && DigitValue(c) == d
  {
    ('0' as int + d) as char
  }

  /** Decimal text of a natural number, without leading zeros (`n.toString()`). */
  function NatToString(n: nat): (r: string)
    ensures |r| >= 1 && AllDigits(r)
    ensures r[0] == '0' ==> n == 0
  {
    if n < 10 then [DigitChar(n)]
    else NatToString(n / 10) + [DigitChar(n % 10)]
  }

  /** Value of a string of decimal digits, most significant first. */
  function DigitsValue(s: string): nat
    requires AllDigits(s)
  {
    if s == [] then 0
    else DigitsValue(s[..|s| - 1]) * 10 + DigitValue(s[|s| - 1])
  }

  /** Reading back the decimal text of `n` gives `n`. */
  lemma {:induction false} DigitsOfNatToString(n: nat)
    ensures DigitsValue(NatToString(n)) == n
  {
    if n >= 10 {
      var r := NatToString(n);
      DigitsOfNatToString(n / 10);
      assert r[..|r| - 1] == NatToString(n / 10);
    }
  }

  /** Different numbers have different decimal texts. */
  lemma NatToStringInjective(a: nat, b: nat)
    ensures NatToString(a) == NatToString(b) <==> a == b
  {
    DigitsOfNatToString(a);
    DigitsOfNatToString(b);
  }

  /** The number of decimal digits of `n`, by magnitude. */
  lemma {:induction false} NatToStringLength(n: nat)
    ensures n < 10 ==> |NatToString(n)| == 1
    ensures 10 <= n < 100 ==> |NatToString(n)| == 2
    ensures 100 <= n < 1000 ==> |NatToString(n)| == 3
    ensures 1000 <= n < 10000 ==> |NatToString(n)| == 4
    ensures 1000 <= n ==> |NatToString(n)| >= 4
  {
    if n >= 10 {
      NatToStringLength(n / 10);
    }
  }

  /** Leading zeros do not change the value of a digit string. */
  lemma {:induction false} DigitsLeadingZeros(z: string, s: string)
    requires AllDigits(s) && forall i :: 0 <= i < |z| ==> z[i] == '0'
    ensures AllDigits(z + s) && DigitsValue(z + s) == DigitsValue(s)
    decreases |s|
  {
    if s == [] {
      assert z + s == z;
      LeadingZerosAreZero(z);
    } else {
      var t := z + s;
      assert t[..|t| - 1] == z + s[..|s| - 1];
      assert t[|t| - 1] == s[|s| - 1];
      DigitsLeadingZeros(z, s[..|s| - 1]);
    }
  }

  lemma {:induction false} LeadingZerosAreZero(z: string)
    requires forall i :: 0 <= i < |z| ==> z[i] == '0'
    ensures AllDigits(z) && DigitsValue(z) == 0
  {
    if z != [] {
      LeadingZerosAreZero(z[..|z| - 1]);
    }
  }

  function Repeat(c: char, n: nat): (r: string)
    ensures |r| == n && forall i :: 0 <= i < n ==> r[i] == c
  {
    if n == 0 then [] else [c] + Repeat(c, n - 1)
  }

  /** `s.padStart(width, fill)` for a one-character fill: never truncates. */
  function PadStart(s: string, width: nat, fill: char): (r: string)
    ensures |r| == if |s| >= width then |s| else width
    ensures r[|r| - |s|..] == s
    ensures forall i :: 0 <= i < |r| - |s| ==> r[i] == fill
  {
    if |s| >= width then s else Repeat(fill, width - |s|) + s
  }

  /** The longest prefix of `s` made of decimal digits. */
  function LeadingDigits(s: string): (r: string)
    ensures r <= s && AllDigits(r)
    ensures |r| < |s| ==> !IsDigit(s[|r|])
  {
    if s == [] || !IsDigit(s[0]) then []
    else [s[0]] + LeadingDigits(s[1..])
  }

  /** `parseInt(s, 10)` on unsigned input: the value of the leading digits,
      or `None` (JavaScript's NaN) when `s` does not start with a digit. */
  function ParseInt(s: string): (r: Option<nat>)
    ensures r.None? <==> (s == [] || !IsDigit(s[0]))
    ensures r.Some? ==> r.value == DigitsValue(LeadingDigits(s))
  {
    var digits := LeadingDigits(s);
    if digits == [] then None else Some(DigitsValue(digits))
  }

  /** A string made only of digits parses to its full value. */
  lemma ParseIntAllDigits(s: string)
    requires s != [] && AllDigits(s)
    ensures ParseInt(s) == Some(DigitsValue(s))
  {
    LeadingDigitsAll(s);
  }

  lemma {:induction false} LeadingDigitsAll(s: string)
    requires AllDigits(s)
    ensures LeadingDigits(s) == s
  {
    if s != [] {
      LeadingDigitsAll(s[1..]);
    }
  }

  /** `s.substring(start)` for a non-negative start. */
  function Substring(s: string, start: nat): (r: string)
    ensures start <= |s| ==> s == s[..start] + r
    ensures start >= |s| ==> r == []
  {
    if start >= |s| then [] else s[start..]
  }

  /** Strict lexicographic order by code point: `a` sorts before `b`. */
  predicate LexLess(a: string, b: string)
    decreases |a|
  {
    if a == [] then b != []
    else if b == [] then false
    else if a[0] != b[0] then a[0] < b[0]
    else LexLess(a[1..], b[1..])
  }

  /** `LexLess` is a strict total order. */
  lemma {:induction false} LexLessTrichotomy(a: string, b: string)
    ensures a == b || LexLess(a, b) || LexLess(b, a)
    ensures !(LexLess(a, b) && LexLess(b, a))
    ensures !LexLess(a, a)
    decreases |a|
  {
    if a != [] && b != [] && a[0] == b[0] {
      LexLessTrichotomy(a[1..], b[1..]);
      if a[1..] == b[1..] {
        assert a == [a[0]] + a[1..] && b == [b[0]] + b[1..];
      }
    } else if a != [] {
      LexLessTrichotomy(a[1..], a[1..]);
    }
  }

  lemma {:induction false} LexLessTransitive(a: string, b: string, c: string)
    requires LexLess(a, b) && LexLess(b, c)
    ensures LexLess(a, c)
    decreases |a|
  {
    if a != [] && a[0] == b[0] && b[0] == c[0] {
      LexLessTransitive(a[1..], b[1..], c[1..]);
    }
  }

  /** Between two strings with a common prefix, the order is decided by what follows. */
  lemma {:induction false} LexLessCommonPrefix(p: string, a: string, b: string)
    ensures LexLess(p + a, p + b) <==> LexLess(a, b)
    decreases |p|
  {
    if p != [] {
      assert (p + a)[1..] == p[1..] + a;
      assert (p + b)[1..] == p[1..] + b;
      LexLessCommonPrefix(p[1..], a, b);
    } else {
      assert p + a == a && p + b == b;
    }
  }
}

=== FILE: trend_chart.dfy ===
/**
 * The monthly trend page. From the route's monthly statistics it keeps the
 * selected year's rows and draws them earliest month first as three line
 * series (total, SSO, webmail) labelled `year-month`; the table under the
 * chart lists the same rows latest month first.
 */
module TrendChart {
  import opened Wrappers
  import opened Strings
  import opened Seqs
  import opened History
  import opened DashboardStats
  import DashboardPage

  function RowOfYear(year: int): MonthlyStat -> bool {
    (s: MonthlyStat) => s.year == year
  }

  function MonthKey(s: MonthlyStat): int {
    s.month
  }

  /** The key `sort((a, b) => a.month - b.month)` orders by, largest first. */
  function EarliestFirst(s: MonthlyStat): int {
    -s.month
  }

  /** The rows the chart plots. */
  function ChartRows(stats: seq<MonthlyStat>, year: int): seq<MonthlyStat> {
    SortDesc(Filter(stats, RowOfYear(year)), EarliestFirst)
  }

  /** The rows the table lists. */
  function TableRows(stats: seq<MonthlyStat>, year: int): seq<MonthlyStat> {
    SortDesc(Filter(stats, RowOfYear(year)), MonthKey)
  }

  /** The chart shows exactly the selected year's rows, each as often as the
      statistics hold it, months never going backwards. */
  lemma ChartRowsSelect(stats: seq<MonthlyStat>, year: int)
    ensures multiset(ChartRows(stats, year)) == multiset(Filter(stats, RowOfYear(year)))
    ensures forall r :: r in ChartRows(stats, year) <==> r in stats && r.year == year
    ensures forall i, j :: 0 <= i < j < |ChartRows(stats, year)| ==>
              ChartRows(stats, year)[i].month <= ChartRows(stats, year)[j].month
  {
    var rows := ChartRows(stats, year);
    forall r | r in stats && r.year == year ensures r in rows {
      FilterKeeps(stats, RowOfYear(year), r);
      assert r in multiset(rows);
    }
    forall r | r in rows ensures r in stats && r.year == year {
      assert r in multiset(Filter(stats, RowOfYear(year)));
    }
    forall i, j | 0 <= i < j < |rows| ensures rows[i].month <= rows[j].month {
      assert EarliestFirst(rows[i]) >= EarliestFirst(rows[j]);
    }
  }

  /** The table shows the same rows, months never going forwards. */
  lemma TableRowsSelect(stats: seq<MonthlyStat>, year: int)
    ensures multiset(TableRows(stats, year)) == multiset(Filter(stats, RowOfYear(year)))
    ensures forall r :: r in TableRows(stats, year) <==> r in stats && r.year == year
    ensures forall i, j :: 0 <= i < j < |TableRows(stats, year)| ==>
              TableRows(stats, year)[i].month >= TableRows(stats, year)[j].month
  {
    var rows := TableRows(stats, year);
    forall r | r in stats && r.year == year ensures r in rows {
      FilterKeeps(stats, RowOfYear(year), r);
      assert r in multiset(rows);
    }
    forall r | r in rows ensures r in stats && r.year == year {
      assert r in multiset(Filter(stats, RowOfYear(year)));
    }
  }

  /** A number as a template literal prints it. */
  function IntText(n: int): string {
    if n < 0 then "-" + NatToString(-n) else NatToString(n)
  }

  lemma IntTextInjective(a: int, b: int)
    ensures IntText(a) == IntText(b) <==> a == b
  {
    if a < 0 && b < 0 {
      assert IntText(a)[1..] == NatToString(-a) && IntText(b)[1..] == NatToString(-b);
      NatToStringInjective(-a, -b);
    } else if a >= 0 && b >= 0 {
      NatToStringInjective(a, b);
    } else if a < 0 {
      assert IntText(a)[0] != IntText(b)[0];
    } else {
      assert IntText(b)[0] != IntText(a)[0];
    }
  }

  /** `${stat.year}-${stat.month}`. */
  function Label(s: MonthlyStat): string {
    IntText(s.year) + "-" + IntText(s.month)
  }

  /** Two rows of the same year carry the same label only for the same month. */
  lemma LabelsSeparateMonths(a: MonthlyStat, b: MonthlyStat)
    requires a.year == b.year
    ensures Label(a) == Label(b) <==> a.month == b.month
  {
    var p := IntText(a.year) + "-";
    if Label(a) == Label(b) {
      assert Label(a) == p + IntText(a.month) && Label(b) == p + IntText(b.month);
      assert IntText(a.month) == Label(a)[|p|..] == IntText(b.month);
      IntTextInjective(a.month, b.month);
    }
  }

  datatype Series = Series(name: string, points: seq<nat>)

  /** What is handed to the line chart. */
  datatype Chart = Chart(labels: seq<string>, total: Series, sso: Series, webmail: Series)

  /** One column of the rows, as a series' points. */
  function Points(rows: seq<MonthlyStat>, c: Column): (ps: seq<nat>)
    ensures |ps| == |rows|
    ensures forall i :: 0 <= i < |rows| ==> ps[i] == Get(rows[i].counts, c)
  {
    seq(|rows|, i requires 0 <= i < |rows| => Get(rows[i].counts, c))
  }

  function ChartOf(rows: seq<MonthlyStat>): (c: Chart)
    ensures |c.labels| == |rows| && |c.total.points| == |rows|
    ensures |c.sso.points| == |rows| && |c.webmail.points| == |rows|
  {
    Chart(seq(|rows|, i requires 0 <= i < |rows| => Label(rows[i])),
          Series("총 건수", Points(rows, AllRows)),
          Series("SSO 계정", Points(rows, SsoRows)),
          Series("웹메일 계정", Points(rows, WebmailRows)))
  }

  /** `prepareChartData(monthlyStats, year)`. */
  function PrepareChart(stats: seq<MonthlyStat>, year: int): Chart {
    ChartOf(ChartRows(stats, year))
  }

  /** Point `i` of every series and label `i` all describe chart row `i`. */
  lemma ChartAligned(stats: seq<MonthlyStat>, year: int, i: nat)
    requires i < |ChartRows(stats, year)|
    ensures var c := PrepareChart(stats, year);
      var r := ChartRows(stats, year)[i];
      && c.labels[i] == Label(r)
      && c.total.points[i] == r.counts.total
      && c.sso.points[i] == r.counts.sso
      && c.webmail.points[i] == r.counts.webmail
  {
  }

  /** The chart after the initial load: only drawn when there are statistics. */
  function InitialChart(stats: seq<MonthlyStat>, currentYear: int): (c: Option<Chart>)
    ensures c.Some? <==> stats != []
  {
    if |stats| > 0 then Some(PrepareChart(stats, currentYear)) else None
  }

  /** `handleYearChange`: the select's value through `parseInt`; NaN equals
      no year, so it draws an empty chart. */
  function HandleYearChange(stats: seq<MonthlyStat>, value: string): Chart {
    match ParseInt(value)
    case Some(y) => PrepareChart(stats, y)
    case None => ChartOf([])
  }

  /** Picking a year from the choices redraws the chart for that year. */
  lemma YearChoiceRedraws(stats: seq<MonthlyStat>, year: nat)
    ensures HandleYearChange(stats, NatToString(year)) == PrepareChart(stats, year)
  {
    ParseIntAllDigits(NatToString(year));
    DigitsOfNatToString(year);
  }

  /** The page's year drop-down: the same five years the dashboard offers,
      current year first, which is also the year first selected. */
  function YearChoices(currentYear: int): (ys: seq<int>)
    ensures |ys| == 5 && ys[0] == currentYear
  {
    DashboardPage.YearChoices(currentYear)
  }

  /** The options are the last five years, newest first. */
  lemma YearOptionsSpan(currentYear: int)
    ensures forall y :: y in YearChoices(currentYear) <==> currentYear - 4 <= y <= currentYear
    ensures forall a, b :: 0 <= a < b < 5 ==> YearChoices(currentYear)[a] > YearChoices(currentYear)[b]
  {
    DashboardPage.YearChoicesSpan(currentYear);
  }

  /** Choosing any option redraws the chart for that year. */
  lemma YearOptionsRedraw(stats: seq<MonthlyStat>, currentYear: int, i: nat)
    requires currentYear >= 4 && i < 5
    ensures HandleYearChange(stats, NatToString(YearChoices(currentYear)[i]))
         == PrepareChart(stats, YearChoices(currentYear)[i])
  {
    var y := YearChoices(currentYear)[i];
    assert y == currentYear - i;
    YearChoiceRedraws(stats, y);
  }

  /** A value that is not a number draws nothing. */
  lemma NotANumberDrawsNothing(stats: seq<MonthlyStat>, value: string)
    requires value == [] || !IsDigit(value[0])
    ensures HandleYearChange(stats, value).labels == []
  {
  }

  // ---------------------------------------------------------------------
  // On the route's statistics
  // ---------------------------------------------------------------------

  function LaterRow(a: MonthlyStat, b: MonthlyStat): bool {
    Later(KeyOf(a), KeyOf(b))
  }

  /** Latest month first, and strictly so. */
  predicate LatestFirst(f: seq<MonthlyStat>) {
    forall i, j :: 0 <= i < j < |f| ==> f[i].month > f[j].month
  }

  /** The route's rows of one year are latest month first. */
  lemma YearRowsDescending(log: seq<Event>, year: int)
    ensures LatestFirst(Filter(MonthlyStats(log), RowOfYear(year)))
  {
    var rows := MonthlyStats(log);
    MonthlyStatsShape(log);
    FilterPairwise(rows, RowOfYear(year), LaterRow);
    var f := Filter(rows, RowOfYear(year));
    forall i, j | 0 <= i < j < |f| ensures f[i].month > f[j].month {
      assert LaterRow(f[i], f[j]);
      assert f[i].year == year && f[j].year == year;
    }
  }

  /** Rows strictly latest month first: the table keeps them as they are
      and the chart reverses them. */
  lemma {:induction false} SortsOfDescendingRows(f: seq<MonthlyStat>)
    requires LatestFirst(f)
    ensures SortDesc(f, MonthKey) == f
    ensures SortDesc(f, EarliestFirst) == Reverse(f)
  {
    assert forall i, j :: 0 <= i < j < |f| ==> MonthKey(f[i]) > MonthKey(f[j]);
    SortDescOfSorted(f, MonthKey);
    SortDescReverses(f, MonthKey, EarliestFirst);
  }

  /** When the year's rows are latest month first, the table is the chart
      read backwards. */
  lemma TableReversesChart(stats: seq<MonthlyStat>, year: int)
    requires LatestFirst(Filter(stats, RowOfYear(year)))
    ensures ChartRows(stats, year) == Reverse(Filter(stats, RowOfYear(year)))
    ensures TableRows(stats, year) == Reverse(ChartRows(stats, year))
  {
    var f := Filter(stats, RowOfYear(year));
    SortsOfDescendingRows(f);
    ReverseReverse(f);
  }

  /** On the route's statistics the table is the chart read backwards. */
  lemma TableIsChartReversed(log: seq<Event>, year: int)
    ensures TableRows(MonthlyStats(log), year) == Reverse(ChartRows(MonthlyStats(log), year))
  {
    YearRowsDescending(log, year);
    TableReversesChart(MonthlyStats(log), year);
  }

  /** Rows of one year in strictly ascending months carry distinct labels. */
  lemma AscendingLabelsDistinct(rows: seq<MonthlyStat>, year: int)
    requires forall i :: 0 <= i < |rows| ==> rows[i].year == year
    requires forall i, j :: 0 <= i < j < |rows| ==> rows[i].month < rows[j].month
    ensures forall i, j :: 0 <= i < j < |rows| ==> ChartOf(rows).labels[i] != ChartOf(rows).labels[j]
  {
    forall i, j | 0 <= i < j < |rows| ensures ChartOf(rows).labels[i] != ChartOf(rows).labels[j] {
      LabelsSeparateMonths(rows[i], rows[j]);
    }
  }

  /** Read backwards, latest-first rows run strictly earliest first. */
  lemma ReversedLatestFirst(f: seq<MonthlyStat>, year: int)
    requires LatestFirst(f) && forall i :: 0 <= i < |f| ==> f[i].year == year
    ensures forall i :: 0 <= i < |Reverse(f)| ==> Reverse(f)[i].year == year
    ensures forall i, j :: 0 <= i < j < |Reverse(f)| ==> Reverse(f)[i].month < Reverse(f)[j].month
  {
    var r := Reverse(f);
    forall i, j | 0 <= i < j < |r| ensures r[i].month < r[j].month {
      assert r[i] == f[|f| - 1 - i] && r[j] == f[|f| - 1 - j];
    }
  }

  /** When the year's rows are latest month first, the chart runs strictly
      earliest month first and no two of its labels coincide. */
  lemma ChartStrictlyAscending(stats: seq<MonthlyStat>, year: int)
    requires LatestFirst(Filter(stats, RowOfYear(year)))
    ensures var rows := ChartRows(stats, year);
      && (forall i, j :: 0 <= i < j < |rows| ==> rows[i].month < rows[j].month)
      && (forall i, j :: 0 <= i < j < |rows| ==> PrepareChart(stats, year).labels[i] != PrepareChart(stats, year).labels[j])
  {
    var f := Filter(stats, RowOfYear(year));
    TableReversesChart(stats, year);
    ReversedLatestFirst(f, year);
    AscendingLabelsDistinct(Reverse(f), year);
  }

  /** Every row of the selected year is plotted. */
  lemma ChartShowsRow(stats: seq<MonthlyStat>, year: int, r: MonthlyStat)
    requires r in stats && r.year == year
    ensures exists i :: 0 <= i < |ChartRows(stats, year)| && ChartRows(stats, year)[i] == r
  {
    ChartRowsSelect(stats, year);
    assert r in ChartRows(stats, year);
  }

  /** On the route's statistics the chart has one point per month of the
      year that has events, strictly earliest first, with distinct labels. */
  lemma ChartOfRouteStatistics(log: seq<Event>, year: int)
    ensures var rows := ChartRows(MonthlyStats(log), year);
      && (forall i, j :: 0 <= i < j < |rows| ==> rows[i].month < rows[j].month)
      && (forall i, j :: 0 <= i < j < |rows| ==>
            PrepareChart(MonthlyStats(log), year).labels[i] != PrepareChart(MonthlyStats(log), year).labels[j])
  {
    YearRowsDescending(log, year);
    ChartStrictlyAscending(MonthlyStats(log), year);
  }

  /** Each chart point is the count of its month. */
  lemma ChartPointsAreMonthCounts(log: seq<Event>, year: int, i: nat)
    requires i < |ChartRows(MonthlyStats(log), year)|
    ensures var r := ChartRows(MonthlyStats(log), year)[i];
      r.year == year && r.counts == MonthTally(log, YearMonth(year, r.month))
  {
    var stats := MonthlyStats(log);
    var rows := ChartRows(stats, year);
    MonthlyStatsShape(log);
    ChartRowsSelect(stats, year);
    assert rows[i] in rows;
    var m :| 0 <= m < |stats| && stats[m] == rows[i];
    assert KeyOf(stats[m]) == YearMonth(year, rows[i].month);
  }

  /** Every month of the year in which something was logged has a point. */
  lemma ChartCoversYear(log: seq<Event>, year: int, k: nat)
    requires k < |log| && log[k].changeDate.date.year == year
    ensures exists i :: 0 <= i < |ChartRows(MonthlyStats(log), year)|
              && ChartRows(MonthlyStats(log), year)[i].month == log[k].changeDate.date.month
  {
    var stats := MonthlyStats(log);
    MonthlyStatsShape(log);
    var m :| 0 <= m < |stats| && KeyOf(stats[m]) == MonthOf(log[k]);
    ChartShowsRow(stats, year, stats[m]);
  }
}

=== FILE: url_params.dfy ===
/**
 * Query strings as the dashboard page writes them and as the route reads
 * them back. The page appends `name=value&` for every non-empty filter; the
 * route reads parameters the way `URLSearchParams.get` does: split the part
 * after the first `?` at every `&`, skip empty pieces, split each piece at
 * its first `=`, and return the value of the first pair with the name.
 * Percent-decoding and `+` are not modelled, so the round trip is stated for
 * values that contain none of the characters those rules would touch.
 */
module UrlParams {
  import opened Wrappers
  import opened Seqs

  /** The index of the first `c` in `s`, or `|s|` when there is none. */
  function IndexOf(s: string, c: char): (r: nat)
    ensures r <= |s|
    ensures r < |s| ==> s[r] == c
    ensures forall j :: 0 <= j < r ==> s[j] != c
  {
    if s == [] then 0 else if s[0] == c then 0 else 1 + IndexOf(s[1..], c)
  }

  /** A prefix free of `c` is skipped by the search for `c`. */
  lemma {:induction false} IndexOfAfter(a: string, b: string, c: char)
    requires c !in a
    ensures IndexOf(a + b, c) == |a| + IndexOf(b, c)
    decreases |a|
  {
    if a != [] {
      assert (a + b)[0] == a[0];
      assert (a + b)[1..] == a[1..] + b;
      IndexOfAfter(a[1..], b, c);
    } else {
      assert a + b == b;
    }
  }

  /** `s` split at every `&`; a string without `&` is one piece. */
  function Pieces(s: string): (ps: seq<string>)
    ensures |ps| >= 1
    decreases |s|
  {
    var i := IndexOf(s, '&');
    if i == |s| then [s] else [s[..i]] + Pieces(s[i + 1..])
  }

  /** Splitting `a & b` yields `a` and then the pieces of `b`. */
  lemma PiecesAfter(a: string, b: string)
    requires '&' !in a
    ensures Pieces(a + "&" + b) == [a] + Pieces(b)
  {
    var s := a + "&" + b;
    assert s == a + ("&" + b);
    IndexOfAfter(a, "&" + b, '&');
    assert s[..|a|] == a;
    assert s[|a| + 1..] == b;
  }

  /** One piece as a name and a value, split at the first `=`. */
  function KeyValue(p: string): (string, string) {
    var i := IndexOf(p, '=');
    if i == |p| then (p, "") else (p[..i], p[i + 1..])
  }

  /** The pairs of the pieces, empty pieces skipped. */
  function Pairs(ps: seq<string>): seq<(string, string)> {
    if ps == [] then []
    else if ps[0] == "" then Pairs(ps[1..])
    else [KeyValue(ps[0])] + Pairs(ps[1..])
  }

  /** The part of a URL after its first `?`. */
  function QueryPart(url: string): string {
    var i := IndexOf(url, '?');
    if i == |url| then "" else url[i + 1..]
  }

  /** The value of the first pair with the name. */
  function Lookup(pairs: seq<(string, string)>, name: string): (r: Option<string>)
    ensures r.Some? <==> exists i :: 0 <= i < |pairs| && pairs[i].0 == name
  {
    if pairs == [] then None
    else if pairs[0].0 == name then Some(pairs[0].1)
    else Lookup(pairs[1..], name)
  }

  /** `new URL(url).searchParams.get(name)`, for URLs without a fragment. */
  function SearchParam(url: string, name: string): Option<string> {
    Lookup(Pairs(Pieces(QueryPart(url))), name)
  }

  /** A value that no URL rule changes or splits: no `&`, `%`, `+` or `#`. */
  predicate Plain(v: string) {
    '&' !in v && '%' !in v && '+' !in v && '#' !in v
  }

  /** A parameter name that the splitting keeps whole. */
  predicate Name(n: string) {
    n != "" && '&' !in n && '=' !in n
  }

  /** `if (value) url += `${name}=${value}&``. */
  function Param(name: string, value: string): string {
    if value == "" then "" else name + "=" + value + "&"
  }

  /** All parameters in order. */
  function Encode(entries: seq<(string, string)>): string {
    if entries == [] then "" else Param(entries[0].0, entries[0].1) + Encode(entries[1..])
  }

  /** With every value empty nothing is appended. */
  lemma {:induction false} EncodeAllEmpty(entries: seq<(string, string)>)
    requires forall i :: 0 <= i < |entries| ==> entries[i].1 == ""
    ensures Encode(entries) == ""
    decreases |entries|
  {
    if entries != [] {
      assert forall i :: 0 <= i < |entries[1..]| ==> entries[1..][i] == entries[i + 1];
      EncodeAllEmpty(entries[1..]);
    }
  }

  function NonEmptyValue(e: (string, string)): bool {
    e.1 != ""
  }

  /** Every name appears once. */
  predicate DistinctNames(entries: seq<(string, string)>) {
    forall i, j :: 0 <= i < j < |entries| ==> entries[i].0 != entries[j].0
  }

  /** A piece `name=value` splits back into the name and the value. */
  lemma KeyValueOfPair(name: string, value: string)
    requires Name(name)
    ensures KeyValue(name + "=" + value) == (name, value)
  {
    var p := name + "=" + value;
    assert p == name + ("=" + value);
    IndexOfAfter(name, "=" + value, '=');
    assert p[..|name|] == name;
    assert p[|name| + 1..] == value;
  }

  /** Reading the encoded parameters gives back exactly the non-empty ones,
      in order. */
  lemma {:induction false} DecodeEncode(entries: seq<(string, string)>)
    requires forall i :: 0 <= i < |entries| ==> Name(entries[i].0) && Plain(entries[i].1)
    ensures Pairs(Pieces(Encode(entries))) == Filter(entries, NonEmptyValue)
    decreases |entries|
  {
    if entries == [] {
      assert Pieces("") == [""];
    } else {
      var (n, v) := entries[0];
      var rest := entries[1..];
      DecodeEncode(rest);
      if v != "" {
        var piece := n + "=" + v;
        assert '&' !in piece by {
          forall k | 0 <= k < |piece| ensures piece[k] != '&' {
            if k < |n| {
              assert piece[k] == n[k];
            } else if k > |n| {
              assert piece[k] == v[k - |n| - 1];
            }
          }
        }
        assert Encode(entries) == piece + "&" + Encode(rest);
        PiecesAfter(piece, Encode(rest));
        var ps := [piece] + Pieces(Encode(rest));
        assert ps[0] == piece && ps[1..] == Pieces(Encode(rest));
        assert piece != "";
        assert Pairs(ps) == [KeyValue(piece)] + Pairs(Pieces(Encode(rest)));
        KeyValueOfPair(n, v);
        assert Filter(entries, NonEmptyValue) == [entries[0]] + Filter(rest, NonEmptyValue);
      } else {
        assert Encode(entries) == Encode(rest);
        assert Filter(entries, NonEmptyValue) == Filter(rest, NonEmptyValue);
      }
    }
  }

  /** With distinct names, a name's lookup among the non-empty entries is its
      value when that is non-empty, and absent otherwise. */
  lemma {:induction false} LookupNonEmpty(entries: seq<(string, string)>, k: nat)
    requires DistinctNames(entries) && k < |entries|
    ensures Lookup(Filter(entries, NonEmptyValue), entries[k].0)
         == if entries[k].1 == "" then None else Some(entries[k].1)
    decreases |entries|
  {
    var rest := entries[1..];
    var kept := Filter(entries, NonEmptyValue);
    assert kept == (if entries[0].1 != "" then [entries[0]] else []) + Filter(rest, NonEmptyValue);
    if k == 0 {
      var n := entries[0].0;
      assert forall i :: 0 <= i < |rest| ==> rest[i].0 != n by {
        forall i | 0 <= i < |rest| ensures rest[i].0 != n {
          assert rest[i] == entries[i + 1];
        }
      }
      var tail := Filter(rest, NonEmptyValue);
      forall i | 0 <= i < |tail| ensures tail[i].0 != n {
        assert tail[i] in rest;
      }
      if entries[0].1 != "" {
        assert kept[0] == entries[0];
      } else {
        assert kept == tail;
      }
    } else {
      assert entries[k] == rest[k - 1];
      assert DistinctNames(rest) by {
        forall i, j | 0 <= i < j < |rest| ensures rest[i].0 != rest[j].0 {
          assert rest[i] == entries[i + 1] && rest[j] == entries[j + 1];
        }
      }
      LookupNonEmpty(rest, k - 1);
      var n := entries[k].0;
      if entries[0].1 != "" {
        assert kept[0] == entries[0] && kept[1..] == Filter(rest, NonEmptyValue);
        assert entries[0].0 != n;
        assert Lookup(kept, n) == Lookup(kept[1..], n);
      } else {
        assert kept == Filter(rest, NonEmptyValue);
      }
    }
  }
}

=== FILE: webmail_accounts_api.dfy ===
/**
 * `/api/webmail/accounts`: the account listing, which never carries the
 * mailbox password, and account creation, which applies the column
 * defaults, stores a blank owner as NULL and appends one audit event (a
 * personal or a shared variant).
 */
module WebmailAccountsApi {
  import opened Wrappers
  import opened Strings
  import opened Seqs
  import opened History
  import opened Entities
  import DashboardStats

  // ---------------------------------------------------------------------
  // GET: listing without passwords
  // ---------------------------------------------------------------------

  /** One listed account: every column but `mail_password`, plus the owner's
      `emp_no` and `name` from `LEFT JOIN users`. */
  datatype AccountView = AccountView(
    id: nat,
    userId: Option<nat>,
    mailName: string,
    mailId: string,
    department: Option<string>,
    role: string,
    status: string,
    approvalStatus: string,
    otpUsage: string,
    mailManagerEmpNo: Option<string>,
    linkedEmpNo: Option<string>,
    linkedName: Option<string>)

  /** The user a `user_id` refers to. `users.id` is a primary key, so the
      join finds at most one. */
  function LinkedUser(users: seq<User>, id: Option<nat>): (u: Option<User>)
    ensures u.Some? ==> u.value in users && id == Some(u.value.id)
  {
    var hits := Filter(users, HasId(id));
    if hits == [] then None else Some(hits[0])
  }

  /** The join finds nothing exactly when no user has the id (or it is NULL). */
  lemma LinkedUserNone(users: seq<User>, id: Option<nat>)
    ensures LinkedUser(users, id).None? <==> forall i :: 0 <= i < |users| ==> id != Some(users[i].id)
  {
    if exists i :: 0 <= i < |users| && id == Some(users[i].id) {
      var i :| 0 <= i < |users| && id == Some(users[i].id);
      FilterKeeps(users, HasId(id), users[i]);
    }
  }

  /** The row minus its password, with the owner's columns. */
  function Sanitize(a: WebmailAccount, owner: Option<User>): AccountView {
    AccountView(a.id, a.userId, a.mailName, a.mailId, a.department, a.role, a.status,
                a.approvalStatus, a.otpUsage, a.mailManagerEmpNo,
                if owner.Some? then Some(owner.value.empNo) else None,
                if owner.Some? then Some(owner.value.name) else None)
  }

  /** Puts a password back into a listed row. */
  function Restore(v: AccountView, password: string): WebmailAccount {
    WebmailAccount(v.id, v.userId, v.mailName, v.mailId, password, v.department, v.role,
                   v.status, v.approvalStatus, v.otpUsage, v.mailManagerEmpNo)
  }

  /** Sanitizing drops the password and nothing else. */
  lemma SanitizeLosesOnlyPassword(a: WebmailAccount, owner: Option<User>)
    ensures Restore(Sanitize(a, owner), a.mailPassword) == a
    ensures forall p: string :: Sanitize(Restore(Sanitize(a, owner), p), owner) == Sanitize(a, owner)
  {
  }

  /** The listing, one row per account in table order. */
  function ListAccounts(accounts: seq<WebmailAccount>, users: seq<User>): (rows: seq<AccountView>)
    ensures |rows| == |accounts|
    ensures forall i :: 0 <= i < |rows| ==> rows[i] == Sanitize(accounts[i], LinkedUser(users, accounts[i].userId))
  {
    if accounts == [] then []
    else [Sanitize(accounts[0], LinkedUser(users, accounts[0].userId))] + ListAccounts(accounts[1..], users)
  }

  /** Every listed row is its account with the password removed, and names the
      owner exactly when a user with that id exists. */
  lemma ListAccountsRows(accounts: seq<WebmailAccount>, users: seq<User>, i: nat)
    requires i < |accounts|
    ensures var v := ListAccounts(accounts, users)[i];
      && Restore(v, accounts[i].mailPassword) == accounts[i]
      && (v.linkedEmpNo.Some? <==> exists k :: 0 <= k < |users| && accounts[i].userId == Some(users[k].id))
      && (v.linkedEmpNo.Some? ==> exists k :: 0 <= k < |users| && accounts[i].userId == Some(users[k].id)
                                     && v.linkedEmpNo == Some(users[k].empNo) && v.linkedName == Some(users[k].name))
  {
    var u := LinkedUser(users, accounts[i].userId);
    LinkedUserNone(users, accounts[i].userId);
    if u.Some? {
      var k :| 0 <= k < |users| && users[k] == u.value;
    }
  }

  // ---------------------------------------------------------------------
  // POST: creation
  // ---------------------------------------------------------------------

  /** `user_id` as the request carries it: absent, `null`, the empty string
      (the form's "no owner" choice), a JSON number, or the decimal text of
      an id (what the form's select sends). */
  datatype UserIdField = Missing | Null | Blank | Number(n: nat) | Text(n: nat)

  /** The value written to `user_account.user_id`: absent and blank become NULL. */
  function StoredUserId(f: UserIdField): (id: Option<nat>)
    ensures id.None? <==> (f.Missing? || f.Null? || f.Blank?)
    ensures f.Number? ==> id == Some(f.n)
    ensures f.Text? ==> id == Some(f.n)
  {
    match f
    case Number(n) => Some(n)
    case Text(n) => Some(n)
    case _ => None
  }

  /** JavaScript truthiness of the normalised field, which picks the history
      variant: a non-empty string is truthy, the number 0 is not. */
  predicate Truthy(f: UserIdField) {
    match f
    case Number(n) => n != 0
    case Text(_) => true
    case _ => false
  }

  /** The request body. Enumerated fields left out fall back to the column
      defaults; `None` in `department` and `mailManagerEmpNo` is `null`. */
  datatype NewAccount = NewAccount(
    userId: UserIdField,
    mailName: string,
    mailId: string,
    mailPassword: string,
    department: Option<string>,
    role: Option<string>,
    status: Option<string>,
    approvalStatus: Option<string>,
    otpUsage: Option<string>,
    mailManagerEmpNo: Option<string>)

  /** `201` with the stored state and the new account's id, or `500` when the
      database refuses the INSERT: the `mail_id` is taken (UNIQUE) or the
      owner does not exist (FOREIGN KEY). */
  datatype Outcome = Created(st: Store, id: nat) | Failed

  /** The inserted row, defaults applied. */
  function NewRow(st: Store, r: NewAccount): (a: WebmailAccount)
    ensures a.id == st.nextAccountId && a.userId == StoredUserId(r.userId)
    ensures a.mailName == r.mailName && a.mailId == r.mailId && a.mailPassword == r.mailPassword
    ensures a.department == r.department && a.mailManagerEmpNo == r.mailManagerEmpNo
    ensures a.role == r.role.GetOr(DefaultRole) && a.status == r.status.GetOr(DefaultMailStatus)
    ensures a.approvalStatus == r.approvalStatus.GetOr(DefaultApproval)
    ensures a.otpUsage == r.otpUsage.GetOr(DefaultOtp)
  {
    WebmailAccount(st.nextAccountId, StoredUserId(r.userId), r.mailName, r.mailId, r.mailPassword,
                   r.department, r.role.GetOr(DefaultRole), r.status.GetOr(DefaultMailStatus),
                   r.approvalStatus.GetOr(DefaultApproval), r.otpUsage.GetOr(DefaultOtp),
                   r.mailManagerEmpNo)
  }

  /** The audit event: personal when the owner field is truthy, shared otherwise. */
  function CreationEvent(st: Store, r: NewAccount, now: Timestamp): Event {
    var actor := ActorOr(r.mailManagerEmpNo);
    if Truthy(r.userId) then
      Event(st.nextEventId, StoredUserId(r.userId), actor, now, AccountCreated,
            "이메일 계정 생성: " + r.mailId)
    else
      Event(st.nextEventId, None, actor, now, SharedAccountCreated,
            "공용 이메일 계정 생성: " + r.mailId + ", 이름: " + r.mailName)
  }

  /** The database accepts the row: its `mail_id` is new and its owner, if
      any, exists. */
  predicate Insertable(st: Store, r: NewAccount) {
    && (forall i :: 0 <= i < |st.accounts| ==> st.accounts[i].mailId != r.mailId)
    && (StoredUserId(r.userId).Some? ==>
          exists i :: 0 <= i < |st.users| && st.users[i].id == StoredUserId(r.userId).value)
  }

  /** The route: insert the account, then its history row. */
  function CreateAccount(st: Store, r: NewAccount, now: Timestamp): (out: Outcome)
    ensures out.Created? <==> Insertable(st, r)
    ensures out.Created? ==>
      && out.id == st.nextAccountId
      && |out.st.accounts| == |st.accounts| + 1 && |out.st.history| == |st.history| + 1
      && out.st.accounts[..|st.accounts|] == st.accounts
      && out.st.history[..|st.history|] == st.history
      && out.st.users == st.users
  {
    if !Insertable(st, r) then Failed
    else
      Created(st.(accounts := st.accounts + [NewRow(st, r)],
                  history := st.history + [CreationEvent(st, r, now)],
                  nextAccountId := st.nextAccountId + 1,
                  nextEventId := st.nextEventId + 1),
              st.nextAccountId)
  }

  /** The stored account has the defaults for every enumerated field the
      request left out, a NULL owner for an absent or blank one; the event
      is attributed to the mail manager (`system` when blank or null), points
      at the owner only for a truthy owner field and names the mailbox. */
  lemma CreateAccountRecords(st: Store, r: NewAccount, now: Timestamp)
    requires CreateAccount(st, r, now).Created?
    ensures var out := CreateAccount(st, r, now);
      var a := out.st.accounts[|st.accounts|];
      var e := out.st.history[|st.history|];
      && a.id == out.id && a.mailId == r.mailId && a.mailPassword == r.mailPassword
      && a.mailName == r.mailName && a.department == r.department
      && a.mailManagerEmpNo == r.mailManagerEmpNo
      && (r.role.None? ==> a.role == DefaultRole)
      && (r.status.None? ==> a.status == DefaultMailStatus)
      && (r.approvalStatus.None? ==> a.approvalStatus == DefaultApproval)
      && (r.otpUsage.None? ==> a.otpUsage == DefaultOtp)
      && (r.role.Some? ==> a.role == r.role.value)
      && (r.status.Some? ==> a.status == r.status.value)
      && (r.approvalStatus.Some? ==> a.approvalStatus == r.approvalStatus.value)
      && (r.otpUsage.Some? ==> a.otpUsage == r.otpUsage.value)
      && a.userId == StoredUserId(r.userId)
      && (a.userId.None? <==> (r.userId.Missing? || r.userId.Null? || r.userId.Blank?))
      && e.changeDate == now
      && e.changedBy == ActorOr(r.mailManagerEmpNo)
      && (Truthy(r.userId) ==> e.userId == a.userId && e.changeType == AccountCreated)
      && (!Truthy(r.userId) ==> e.userId.None? && e.changeType == SharedAccountCreated
                                 && Contains(e.changeDetail, r.mailName))
      && Contains(e.changeDetail, r.mailId)
  {
    var p := "공용 이메일 계정 생성: ";
    ContainsMiddle("이메일 계정 생성: ", r.mailId, []);
    assert "이메일 계정 생성: " + r.mailId == "이메일 계정 생성: " + r.mailId + [];
    ContainsMiddle(p, r.mailId, ", 이름: " + r.mailName);
    assert p + r.mailId + ", 이름: " + r.mailName == p + r.mailId + (", 이름: " + r.mailName);
    ContainsMiddle(p + r.mailId + ", 이름: ", r.mailName, []);
    assert p + r.mailId + ", 이름: " + r.mailName == (p + r.mailId + ", 이름: ") + r.mailName + [];
  }

  /** A successful creation keeps the store's keys and counters valid. */
  lemma CreateAccountKeepsValid(st: Store, r: NewAccount, now: Timestamp)
    requires Valid(st)
    requires CreateAccount(st, r, now).Created?
    ensures Valid(CreateAccount(st, r, now).st)
  {
    var st' := CreateAccount(st, r, now).st;
    forall i | 0 <= i < |st'.accounts| ensures st'.accounts[i].id < st'.nextAccountId {
      if i < |st.accounts| {
        assert st'.accounts[i] == st.accounts[i];
      }
    }
    forall i | 0 <= i < |st'.history| ensures st'.history[i].id < st'.nextEventId {
      if i < |st.history| {
        assert st'.history[i] == st.history[i];
      }
    }
  }

  lemma AccountCreationColumns(e: Event)
    requires e.changeType == AccountCreated || e.changeType == SharedAccountCreated
    ensures DashboardStats.TallyOf([e]) == DashboardStats.Tally(1, 1, 0, 0, 1, 0)
  {
    DashboardStats.TallyOfOne(e);
    AccountCreatedMarkers();
    SharedAccountCreatedMarkers();
  }

  /** The dashboard sees one more row in total, among creations and among
      webmail changes, whichever variant was logged. */
  lemma CreateAccountStatistics(st: Store, r: NewAccount, now: Timestamp)
    requires CreateAccount(st, r, now).Created?
    ensures var before := DashboardStats.TallyOf(st.history);
      DashboardStats.TallyOf(CreateAccount(st, r, now).st.history)
        == DashboardStats.Tally(before.total + 1, before.created + 1, before.updated,
                                before.deleted, before.webmail + 1, before.sso)
  {
    var e := CreationEvent(st, r, now);
    assert CreateAccount(st, r, now).st.history == st.history + [e];
    DashboardStats.TallyAppend(st.history, e);
    AccountCreationColumns(e);
    var before := DashboardStats.TallyOf(st.history);
    assert DashboardStats.TallyOf(st.history + [e])
      == DashboardStats.Plus(before, DashboardStats.Tally(1, 1, 0, 0, 1, 0));
  }
}

=== FILE: webmail_form.dfy ===
/**
 * The new-webmail-account form. It starts with the column defaults and no
 * owner; choosing an owner from the loaded SSO users copies that user's
 * department into the form, every other edit sets just the edited field.
 */
module WebmailForm {
  import opened Wrappers
  import opened Strings
  import opened Seqs
  import opened Entities

  datatype FormField = UserIdInput | MailNameInput | MailIdInput | PasswordInput | DepartmentInput
                     | RoleInput | StatusInput | ApprovalInput | OtpInput | ManagerInput

  /** The form state; `userId` is the owner select's value, `""` for a shared mailbox. */
  datatype Form = Form(
    userId: string,
    mailName: string,
    mailId: string,
    mailPassword: string,
    department: string,
    role: string,
    status: string,
    approvalStatus: string,
    otpUsage: string,
    mailManagerEmpNo: string)

  /** The form as the page opens. */
  const InitialForm: Form := Form("", "", "", "", "", "일반", "정상", "승인대기", "사용안함", "")

  /** The form opens on a shared mailbox with the table's column defaults. */
  lemma InitialFormDefaults()
    ensures InitialForm.userId == "" && InitialForm.department == ""
    ensures InitialForm.role == DefaultRole && InitialForm.status == DefaultMailStatus
    ensures InitialForm.approvalStatus == DefaultApproval && InitialForm.otpUsage == DefaultOtp
  {
  }

  function Get(f: Form, k: FormField): string {
    match k
    case UserIdInput => f.userId
    case MailNameInput => f.mailName
    case MailIdInput => f.mailId
    case PasswordInput => f.mailPassword
    case DepartmentInput => f.department
    case RoleInput => f.role
    case StatusInput => f.status
    case ApprovalInput => f.approvalStatus
    case OtpInput => f.otpUsage
    case ManagerInput => f.mailManagerEmpNo
  }

  /** `{...formData, [name]: value}`. */
  function Set(f: Form, k: FormField, v: string): (r: Form)
    ensures Get(r, k) == v
    ensures forall j :: j != k ==> Get(r, j) == Get(f, j)
  {
    match k
    case UserIdInput => f.(userId := v)
    case MailNameInput => f.(mailName := v)
    case MailIdInput => f.(mailId := v)
    case PasswordInput => f.(mailPassword := v)
    case DepartmentInput => f.(department := v)
    case RoleInput => f.(role := v)
    case StatusInput => f.(status := v)
    case ApprovalInput => f.(approvalStatus := v)
    case OtpInput => f.(otpUsage := v)
    case ManagerInput => f.(mailManagerEmpNo := v)
  }

  /** `user.id.toString() === value`. */
  function IdTextIs(value: string): User -> bool {
    (u: User) => NatToString(u.id) == value
  }

  /** `ssoUsers.find(...)`: the first loaded user whose id prints as `value`. */
  function FindUser(users: seq<User>, value: string): (u: Option<User>)
    ensures u.Some? ==> u.value in users && NatToString(u.value.id) == value
  {
    var hits := Filter(users, IdTextIs(value));
    if hits == [] then None else Some(hits[0])
  }

  /** The search fails only when no loaded user's id prints as `value`. */
  lemma FindUserFinds(users: seq<User>, value: string, k: nat)
    requires k < |users| && NatToString(users[k].id) == value
    ensures FindUser(users, value).Some?
  {
    FilterKeeps(users, IdTextIs(value), users[k]);
  }

  /** `handleChange`. */
  function HandleChange(f: Form, users: seq<User>, k: FormField, v: string): Form {
    if k == UserIdInput && v != "" && FindUser(users, v).Some? then
      f.(userId := v, department := FindUser(users, v).value.department)
    else Set(f, k, v)
  }

  /** Choosing a loaded user as owner records the choice and copies that
      user's department; nothing else changes. On a primary key the copied
      department is that of the user with the chosen id. */
  lemma ChoosingOwnerFillsDepartment(f: Form, users: seq<User>, k: nat)
    requires UniqueUserIds(users) && k < |users|
    ensures var r := HandleChange(f, users, UserIdInput, NatToString(users[k].id));
      && r.userId == NatToString(users[k].id)
      && r.department == users[k].department
      && forall j :: j != UserIdInput && j != DepartmentInput ==> Get(r, j) == Get(f, j)
  {
    var v := NatToString(users[k].id);
    FindUserFinds(users, v, k);
    var u := FindUser(users, v).value;
    var m :| 0 <= m < |users| && users[m] == u;
    NatToStringInjective(u.id, users[k].id);
    assert m == k;
  }

  /** Any other edit sets exactly the edited field: in particular choosing the
      shared option, or an id no loaded user has, leaves the department alone. */
  lemma OtherEditsSetOneField(f: Form, users: seq<User>, k: FormField, v: string)
    requires k != UserIdInput || v == "" || forall u :: u in users ==> NatToString(u.id) != v
    ensures HandleChange(f, users, k, v) == Set(f, k, v)
    ensures Get(HandleChange(f, users, k, v), k) == v
    ensures forall j :: j != k ==> Get(HandleChange(f, users, k, v), j) == Get(f, j)
  {
  }
}

=== FILE: webmail_search.dfy ===
/**
 * The webmail account list page's search over the listed (password-free)
 * rows. Eight criteria; two of them search nullable columns, and a NULL
 * never meets a non-empty criterion.
 */
module WebmailSearch {
  import opened Wrappers
  import opened Strings
  import opened Seqs
  import opened WebmailAccountsApi

  datatype Field = MailNameField | MailIdField | DepartmentField | RoleField | StatusField
                 | ApprovalField | OtpField | ManagerField

  datatype Criteria = Criteria(
    mailName: string,
    mailId: string,
    department: string,
    role: string,
    status: string,
    approvalStatus: string,
    otpUsage: string,
    mailManagerEmpNo: string)

  const NoCriteria: Criteria := Criteria("", "", "", "", "", "", "", "")

  function Get(c: Criteria, f: Field): string {
    match f
    case MailNameField => c.mailName
    case MailIdField => c.mailId
    case DepartmentField => c.department
    case RoleField => c.role
    case StatusField => c.status
    case ApprovalField => c.approvalStatus
    case OtpField => c.otpUsage
    case ManagerField => c.mailManagerEmpNo
  }

  /** `setSearchCriteria({...searchCriteria, [name]: value})`. */
  function Set(c: Criteria, f: Field, v: string): (r: Criteria)
    ensures Get(r, f) == v
    ensures forall g :: g != f ==> Get(r, g) == Get(c, g)
  {
    match f
    case MailNameField => c.(mailName := v)
    case MailIdField => c.(mailId := v)
    case DepartmentField => c.(department := v)
    case RoleField => c.(role := v)
    case StatusField => c.(status := v)
    case ApprovalField => c.(approvalStatus := v)
    case OtpField => c.(otpUsage := v)
    case ManagerField => c.(mailManagerEmpNo := v)
  }

  /** The row's value in the searched column; `None` is NULL. */
  function Value(a: AccountView, f: Field): Option<string> {
    match f
    case MailNameField => Some(a.mailName)
    case MailIdField => Some(a.mailId)
    case DepartmentField => a.department
    case RoleField => Some(a.role)
    case StatusField => Some(a.status)
    case ApprovalField => Some(a.approvalStatus)
    case OtpField => Some(a.otpUsage)
    case ManagerField => a.mailManagerEmpNo
  }

  /** The four drop-downs compare exactly; the rest by substring. */
  predicate Exact(f: Field) {
    f == RoleField || f == StatusField || f == ApprovalField || f == OtpField
  }

  /** One criterion on its own: empty, or met by a non-NULL value. */
  predicate Satisfies(a: AccountView, c: Criteria, f: Field) {
    Get(c, f) == "" ||
    (Value(a, f).Some? &&
     if Exact(f) then Value(a, f).value == Get(c, f) else Contains(Value(a, f).value, Get(c, f)))
  }

  /** `x && x.includes(c)` on a nullable column. */
  predicate NullableContains(x: Option<string>, sub: string) {
    x.Some? && x.value != "" && Contains(x.value, sub)
  }

  /** The page's filter callback, one conjunct per criterion. */
  predicate Matches(a: AccountView, c: Criteria) {
    && (c.mailName == "" || Contains(a.mailName, c.mailName))
    && (c.mailId == "" || Contains(a.mailId, c.mailId))
    && (c.department == "" || NullableContains(a.department, c.department))
    && (c.role == "" || a.role == c.role)
    && (c.status == "" || a.status == c.status)
    && (c.approvalStatus == "" || a.approvalStatus == c.approvalStatus)
    && (c.otpUsage == "" || a.otpUsage == c.otpUsage)
    && (c.mailManagerEmpNo == "" || NullableContains(a.mailManagerEmpNo, c.mailManagerEmpNo))
  }

  /** An empty string contains no non-empty string, so the falsy-empty guard
      of the nullable columns changes nothing. */
  lemma EmptyContainsNothing(sub: string)
    requires sub != ""
    ensures !Contains("", sub)
  {
  }

  /** The conjunction is exactly "every criterion holds on its own". */
  lemma MatchesFieldwise(a: AccountView, c: Criteria)
    ensures Matches(a, c) <==> forall f :: Satisfies(a, c, f)
  {
    if c.department != "" {
      EmptyContainsNothing(c.department);
    }
    if c.mailManagerEmpNo != "" {
      EmptyContainsNothing(c.mailManagerEmpNo);
    }
    if Matches(a, c) {
      forall f ensures Satisfies(a, c, f) {
      }
    } else {
      assert !Satisfies(a, c, MailNameField) || !Satisfies(a, c, MailIdField)
          || !Satisfies(a, c, DepartmentField) || !Satisfies(a, c, RoleField)
          || !Satisfies(a, c, StatusField) || !Satisfies(a, c, ApprovalField)
          || !Satisfies(a, c, OtpField) || !Satisfies(a, c, ManagerField);
    }
  }

  /** A non-empty department or manager criterion rules out NULL in that column. */
  lemma NullNeverMatches(a: AccountView, c: Criteria)
    ensures c.department != "" && a.department.None? ==> !Matches(a, c)
    ensures c.mailManagerEmpNo != "" && a.mailManagerEmpNo.None? ==> !Matches(a, c)
  {
  }

  function MatchesCriteria(c: Criteria): AccountView -> bool {
    (a: AccountView) => Matches(a, c)
  }

  /** `accounts.filter(...)`. */
  function Search(accounts: seq<AccountView>, c: Criteria): seq<AccountView> {
    Filter(accounts, MatchesCriteria(c))
  }

  /** The result holds exactly the loaded rows that meet every criterion. */
  lemma SearchSelects(accounts: seq<AccountView>, c: Criteria)
    ensures forall a :: a in Search(accounts, c) ==> a in accounts && Matches(a, c)
    ensures forall a :: a in accounts && Matches(a, c) ==> a in Search(accounts, c)
  {
    forall a | a in accounts && Matches(a, c) ensures a in Search(accounts, c) {
      FilterKeeps(accounts, MatchesCriteria(c), a);
    }
  }

  /** Filling in an empty criterion only narrows the result. */
  lemma FillingCriterionNarrows(accounts: seq<AccountView>, c: Criteria, f: Field, v: string)
    requires Get(c, f) == ""
    ensures Search(accounts, Set(c, f, v)) == Search(Search(accounts, c), Set(c, f, v))
    ensures |Search(accounts, Set(c, f, v))| <= |Search(accounts, c)|
  {
    var c' := Set(c, f, v);
    forall a | Matches(a, c') ensures Matches(a, c) {
      MatchesFieldwise(a, c);
      MatchesFieldwise(a, c');
      forall g ensures Satisfies(a, c, g) {
        assert Satisfies(a, c', g);
      }
    }
    FilterNarrow(accounts, MatchesCriteria(c'), MatchesCriteria(c));
  }

  datatype Page = Page(accounts: seq<AccountView>, shown: seq<AccountView>, criteria: Criteria)

  function Loaded(accounts: seq<AccountView>): Page {
    Page(accounts, accounts, NoCriteria)
  }

  /** `handleSearchChange`. */
  function HandleSearchChange(p: Page, f: Field, v: string): (r: Page)
    ensures r.accounts == p.accounts && r.shown == p.shown
    ensures Get(r.criteria, f) == v && forall g :: g != f ==> Get(r.criteria, g) == Get(p.criteria, g)
  {
    p.(criteria := Set(p.criteria, f, v))
  }

  /** `handleSearch`. */
  function HandleSearch(p: Page): (r: Page)
    ensures r.accounts == p.accounts && r.criteria == p.criteria
    ensures forall a :: a in r.shown ==> a in p.accounts && Matches(a, p.criteria)
  {
    p.(shown := Search(p.accounts, p.criteria))
  }

  /** `resetSearch`. */
  function ResetSearch(p: Page): (r: Page)
    ensures r.accounts == p.accounts
  {
    Page(p.accounts, p.accounts, NoCriteria)
  }

  /** Resetting clears all eight criteria and shows the whole list. */
  lemma ResetShowsEverything(p: Page)
    ensures forall f :: Get(ResetSearch(p).criteria, f) == ""
    ensures ResetSearch(p).shown == p.accounts
    ensures HandleSearch(ResetSearch(p)) == ResetSearch(p)
    ensures ResetSearch(p) == Loaded(p.accounts)
  {
    FilterAll(p.accounts, MatchesCriteria(NoCriteria));
  }
}

=== FILE: wrappers.dfy ===
/** Optional values, standing for SQL NULL and for JavaScript's null/undefined. */
module Wrappers {

  datatype Option<+T> = None | Some(value: T) {

    /** The wrapped value, or `default` when there is none. */
    function GetOr(default: T): T {
      match this
      case Some(v) => v
      case None => default
    }
  }
}
